=== FILE: README.md ===
# Replicated file store: coordinators and storage nodes

A Dafny model of the replication and failover core of a small distributed
file store. Clients talk to a coordinator. The coordinator keeps a registry
of storage nodes and a file table, replicates uploads to nodes and serves
downloads from whichever replica is alive. Nodes store, return and delete
files and verify the checksum of each upload.

The repository has two variants, and both are modelled.

**Windows variant** (`coordinator/coordinator.cpp`, `node/node.cpp`):
- The coordinator fans an upload out to every alive node.
- It commits the upload when at least one node acknowledges.
- It serves a download from the first alive replica.
- It supports LIST and DELETE.
- The checksum is a sum of the bytes kept in a 32-bit `unsigned long`.

**Linux variant** (`Linux/coordinator/coordinator.cpp`, `Linux/node/node.cpp`):
- The coordinator places every file on exactly the two lowest-numbered alive nodes.
- It commits only when both acknowledge.
- It has no DELETE.
- The checksum wraps at 2^64.

Modules:

- `Bytes`: the wire.
  - A byte is a `char` below 256. Buffers, paths and replies are `seq<byte>`.
  - Turning a `char[]` into a `std::string` (stop at the first NUL), finding the first newline, and receiving a payload part from the buffer and part from the socket.
- `Checksum`: the byte sum, reduced mod 2^32 or 2^64, and the loop that computes it.
- `Decimal`: `to_string`, `atoi` and `operator>>` into `unsigned long`.
- `Tokens`: splitting on white space, as `stringstream >>` does.
- `Ordering`: the iteration order of `std::map` (ascending ids, lexicographic paths) as the unique sorted enumeration of a set.
- `Registry`: the `nodePids` / `nodeAlive` maps, `isNodeAlive` and `updateNodeStatus`. Whether a process is still running is a `probe` oracle.
- `Rpc`: the calls a coordinator makes to nodes. Whether a node acknowledges a call is an `ack` oracle. What a GET returns is a `fetch` oracle.
- `Coordinator`, `CoordinatorMain`: the Windows coordinator's handlers and its `main` dispatch.
- `LinuxCoordinator`: the Linux coordinator's handlers and dispatch.
- `Node`, `LinuxNode`: the two storage nodes. Disk contents are a map. File-system failures are oracle booleans.
- `Ports`: node id validation and port selection at node start-up.

Where the prose description of the system and the code disagree, the model follows the code:
- **Download failover.** `handleDownload` picks the first replica marked alive. If connecting or fetching from it fails, the error goes back to the client; no other replica is tried.
- **Delete.** `handleDelete` sends a remove call only to replicas whose cached flag says alive.
- **Concurrency.** Both coordinators serve one connection at a time from a single accept loop.

Where the code loses information, both the program as written and the evidently intended one are modelled (see "## Findings"). The members concerned take a `Build` argument:
- `AsWritten` is the code as it stands. `CoordinatorMain.Serve(AsWritten, …)` and `LinuxCoordinator.Serve(AsWritten, …)` are the two `main` loops. `LinuxNode.HandleStore(AsWritten, …)` and `LinuxNode.HandleGet(AsWritten, …)` join paths as line 83 of `Linux/node/node.cpp` does.
- In the Linux node, `Corrected` makes the DFS path relative and refuses, with "ERROR: Invalid path", a path that has a `..` component.
- `Corrected` repairs only the lines named in "## Findings" and is identical everywhere else.

## Model

| member | source | states |
|---|---|---|
| Checksum.CalculateChecksum | coordinator/coordinator.cpp:33-39 | The loop's result is the sum of all byte values reduced mod the width of `unsigned long`, and it is below that modulus |
| Checksum.Checksum32 | node/node.cpp:25-31 | The Windows checksum fits in 32 bits, and for any payload within the 10 MiB cap it equals the exact byte sum |
| Checksum.Checksum64 | Linux/coordinator/coordinator.cpp:31-37 | The Linux checksum fits in 64 bits, and within the cap it equals the exact byte sum |
| Checksum.NoWrapWithinCap | coordinator/coordinator.cpp:19 | A payload no longer than MAX_FILE_SIZE has a byte sum below 2^32, so neither checksum width ever wraps on an accepted upload |
| Checksum.SumPermutation | coordinator/coordinator.cpp:33-39 | The checksum depends only on the multiset of bytes: a reordered payload passes the check |
| Checksum.SumAppend | coordinator/coordinator.cpp:33-39 | The sum of two concatenated parts is the sum of the parts |
| Decimal.AtoiOfIntToString | coordinator/coordinator.cpp:146 | `atoi` reads back exactly the id `to_string` wrote, whatever non-digit follows it |
| Decimal.IntToStringInjective | coordinator/coordinator.cpp:252-256 | Distinct ids print as distinct decimal texts |
| Decimal.ReadULongOfNatToString | node/node.cpp:287-291 | Extracting an `unsigned long` from a printed checksum recovers it when it fits the width |
| Decimal.FramedFileDecodes | node/node.cpp:184-188 | A node's GET reply splits into a size line that reads back as the payload length, a checksum line that reads back as the checksum, and exactly the payload |
| Tokens.WordsUnwords | coordinator/coordinator.cpp:457-458 | Joining white-space-free words with single spaces and splitting with `>>` gives the same words back |
| Tokens.WordsUnwordsFollowed | node/node.cpp:284-291 | A command line followed by a space or the end splits into its words and then the words of the rest |
| Bytes.TakeUntilNulSkip | coordinator/coordinator.cpp:446-447 | Turning a buffer into a C string keeps a NUL-free prefix intact and truncates only what follows it |
| Bytes.ReceiveBody | node/node.cpp:94-111 | The body read succeeds exactly when buffered plus socket bytes reach the declared size, and then yields the first `fileSize` bytes of both together |
| Ordering.SortedByUnique | coordinator/coordinator.cpp:28-30 | A set has exactly one sorted enumeration under a strict total order, which is the one `std::map` iterates in |
| Ordering.LexStrictTotal | coordinator/coordinator.cpp:374-383 | Byte-wise comparison of paths is a strict total order, so the file table has a well-defined order |
| Registry.Register | coordinator/coordinator.cpp:135-147 | Registering marks the node alive with its new pid, adds its id, and leaves every other node's record unchanged |
| Registry.UpdateNodeStatus | coordinator/coordinator.cpp:52-56 | A refresh keeps the same nodes and pids and sets each alive flag to the probe of that node's pid |
| Registry.AliveAfterUpdate | coordinator/coordinator.cpp:41-56 | After a refresh, a node counts as alive exactly when `isNodeAlive` said so |
| Registry.AliveIds | coordinator/coordinator.cpp:152-155 | The alive ids, listed in `std::map` order: exactly the alive nodes, strictly ascending |
| Registry.IsNodeAlive | coordinator/coordinator.cpp:41-50 | An id that never registered is never alive; a registered one is alive exactly when the probe of its recorded pid says its process still runs |
| Rpc.AcknowledgedStores | coordinator/coordinator.cpp:222-228 | A node is among the acknowledgers of an upload fan-out exactly when it was called and acknowledged its STORE |
| Rpc.AcknowledgedAscending | coordinator/coordinator.cpp:222-228 | The acknowledgers keep the ascending order in which nodes were called |
| Rpc.AcknowledgedNone | coordinator/coordinator.cpp:232-234 | No node acknowledged exactly when every call failed |
| Coordinator.RegisteredReply | coordinator/coordinator.cpp:146 | The registration reply is not an error and its number reads back as the registered id |
| Coordinator.HandleRegister | coordinator/coordinator.cpp:135-147 | Registration enrols or revives the node under its pid, touches no other node or file, and replies with the id |
| Coordinator.ReceiveUpload | coordinator/coordinator.cpp:161-218 | A received payload is non-empty, within the cap and as long as the declared size. With a newline among the buffered bytes, the size line is what precedes it: the result is that line's size check and body read, and a size that is not positive or above the cap is "Invalid file size". Otherwise the size line is completed from the socket into the 31-byte `sizeBuf` and the payload is the socket bytes after it. A stream that ends before the line is complete is "Failed to receive file size". Every failure is one of the three size/body errors |
| Coordinator.ReadSizeLine | coordinator/coordinator.cpp:181-191 | Byte-by-byte reading stops at the first newline that fits in the room left in `sizeBuf` and drops it. With no such newline it stops when the buffer is full. It fails only when the stream ends first. The bytes after the stopping point are left for the payload |
| Coordinator.SizeLineAcrossReceives | coordinator/coordinator.cpp:170-195 | Bytes buffered with the command line start the size line and the socket's bytes up to the newline complete it: a size split across receives is read whole |
| Coordinator.LongSizeLine | coordinator/coordinator.cpp:174-192 | 31 or more buffered bytes without a newline fill `sizeBuf` alone: the socket is not read for the size, the buffered bytes past 31 are dropped, and the payload comes from the socket |
| Coordinator.ReceiveSized | coordinator/coordinator.cpp:194-218 | The size check refuses, with "Invalid file size", exactly the sizes that are not positive or above the cap; otherwise the payload is exactly the declared number of leading bytes, and a short body is its own error |
| Coordinator.ReceiveUploadBuffered | coordinator/coordinator.cpp:161-218 | With the size line already buffered, the upload succeeds exactly when enough bytes arrive, and the payload is those bytes |
| Coordinator.BufferedPayloadReceived | coordinator/coordinator.cpp:161-218 | A size line and exactly that many bytes arriving with the command are received as those bytes, whatever the client sends afterwards |
| Coordinator.StoreEverywhere | coordinator/coordinator.cpp:222-257 | Every available node gets one STORE with the payload and its checksum; the entry is written exactly when someone acknowledged, and it lists exactly the acknowledgers |
| Coordinator.StoreEverywhereReplicas | coordinator/coordinator.cpp:222-241 | A node is a committed replica exactly when it was available and acknowledged its STORE |
| Coordinator.UploadCommitsPayload | coordinator/coordinator.cpp:149-257 | A successful upload stored the payload's byte sum, called every alive node, replaced only this path's entry, and lists exactly the alive nodes that acknowledged |
| Coordinator.Upload | coordinator/coordinator.cpp:151-257 | After the refresh, no alive node is refused before the payload is read. A failed receive is the reply and no node is called. Any failure leaves the table as it was. Success needs a payload and an alive node |
| Coordinator.HandleUpload | coordinator/coordinator.cpp:149-257 | An upload refreshes liveness; with no alive node it fails without calls; any failure leaves the file table untouched |
| Coordinator.HandleUploadPreservesValid | coordinator/coordinator.cpp:149-257 | Every entry keeps a non-empty, strictly ascending list of registered nodes and an in-range checksum after an upload |
| Coordinator.StoredReplyInjective | coordinator/coordinator.cpp:252-256 | The STORED reply determines the replica list it reports |
| Coordinator.IdListWords | coordinator/coordinator.cpp:252-256 | The ids in the STORED reply split back into their decimal words, in order |
| Coordinator.FirstAlive | coordinator/coordinator.cpp:268-283 | The chosen replica is alive and every replica listed before it is not; none is chosen only when all are down |
| Coordinator.RecoveryNotice | coordinator/coordinator.cpp:276-279 | A recovery notice appears exactly when the serving replica is not the first in the list |
| Coordinator.ServeFetch | coordinator/coordinator.cpp:301-345 | A fetch yields the payload exactly when the node sent a positive size, enough bytes and a matching checksum; a mismatch and a bad size give their own errors |
| Coordinator.HandleDownload | coordinator/coordinator.cpp:259-372 | A download never changes the file table. An unknown path is "File not found". With no replica alive the reply is "All nodes down" and no node is called. Otherwise exactly the first alive replica is asked. A failed fetch replies with the fetch's own error. An intact fetch gives SUCCESS, and the client gets the optional notice, the OK line and exactly the fetched bytes. SUCCESS happens only that way |
| Coordinator.DownloadPreservesValid | coordinator/coordinator.cpp:259-372 | A download keeps the coordinator state well formed |
| Coordinator.DownloadOfStored | coordinator/coordinator.cpp:259-372 | When all of a file's replicas serve its bytes back intact and one is alive, the download succeeds from the first alive replica. The client gets the failover notice only when that is not the first replica, then the header and exactly the bytes |
| Coordinator.UploadThenDownload | coordinator/coordinator.cpp:149-372 | A committed upload of a non-empty payload, then a download with some committed replica alive and every one intact, returns SUCCESS and exactly the uploaded bytes behind the header. The notice appears only when the first replica is down |
| Coordinator.LinesRoundTrip | coordinator/coordinator.cpp:374-378 | Newline-free paths written one per line split back into exactly the same list |
| Coordinator.ListingNamesEveryFile | coordinator/coordinator.cpp:374-383 | A non-empty listing is the lines of all stored paths in map order: a path appears exactly when it is stored |
| Coordinator.Listing | coordinator/coordinator.cpp:379-381 | An empty table lists as "No files stored", a non-empty one as its paths in order |
| Coordinator.RemoveCalls | coordinator/coordinator.cpp:395-400 | A delete sends a remove call to every listed replica that is alive and to no other node |
| Coordinator.HandleDelete | coordinator/coordinator.cpp:385-409 | DELETED exactly when the path was known and some replica acknowledged, and then only that entry is dropped; otherwise the table is unchanged |
| Coordinator.DeleteTwice | coordinator/coordinator.cpp:385-390 | Deleting a path again after a successful delete reports it not found |
| Coordinator.DeletePreservesValid | coordinator/coordinator.cpp:385-409 | A delete keeps the coordinator state well formed |
| CoordinatorMain.RouteOf | coordinator/coordinator.cpp:451-484 | A command goes to the handler whose keyword it starts with, and is unknown exactly when it starts with none of them |
| CoordinatorMain.Serve | coordinator/coordinator.cpp:439-484 | In either build: an empty receive changes nothing, an unknown command is refused, LIST replies with the listing of every stored path and changes nothing, DELETE is `handleDelete` of the request's path, the other handlers refresh liveness first, and DOWNLOAD never changes the table. `Serve(AsWritten, …)` is the loop as written. `Serve(Corrected, …)` differs only at lines 447/459-460 and 468 |
| CoordinatorMain.ServeRegisterLine | coordinator/coordinator.cpp:451-454 | In either build, a node's REGISTER line makes `main` register that id with that pid and reply with that id |
| CoordinatorMain.ServeUploadRequest | coordinator/coordinator.cpp:455-463 | An UPLOAD line reaches `handleUpload` with its path. As written the remainder is the bytes after the line up to the first NUL. Corrected, it is all of them |
| CoordinatorMain.ServeDownloadRequest | coordinator/coordinator.cpp:464-469 | A DOWNLOAD line reaches `handleDownload` with its path. As written the client gets only what the handler streamed. Corrected, it also gets the returned error |
| CoordinatorMain.ServeDeleteRequest | coordinator/coordinator.cpp:474-479 | A DELETE line reaches `handleDelete` with its path, and its reply is what the client gets |
| CoordinatorMain.ServeListRequest | coordinator/coordinator.cpp:470-473 | A request starting with LIST gets the listing of every stored path and changes nothing |
| CoordinatorMain.UploadRemainderLosesNothing | coordinator/coordinator.cpp:459-460 | Corrected: extracting the remainder from the raw buffer returns everything after the command line |
| CoordinatorMain.NulInPayloadIsLost | coordinator/coordinator.cpp:447 | As written: an upload request whose payload arrives with it and contains a zero byte is cut at that byte. The loop answers "Failed to receive file" and the table is unchanged |
| CoordinatorMain.NulInPayloadIsKept | coordinator/coordinator.cpp:459-460 | Corrected: the same request goes on to the fan-out with exactly the payload the client sent |
| CoordinatorMain.UnknownDownloadIsSilent | coordinator/coordinator.cpp:464-469 | As written: the loop sends the client nothing at all for a download of an unknown path |
| CoordinatorMain.DownloadErrorReported | coordinator/coordinator.cpp:464-469 | Corrected: the loop sends exactly the error text of a failed download, and exactly the streamed bytes of a successful one |
| LinuxCoordinator.HandleRegister | Linux/coordinator/coordinator.cpp:281-296 | Registration enrols or revives the node under its pid, touches nothing else, and replies with the id |
| LinuxCoordinator.ServeRegistration | Linux/coordinator/coordinator.cpp:281-296 | In either build: if the extra receive of `handleRegister` returned a registration line, that id would be registered with that pid and named in the reply. The premise is the abstraction chosen for that receive, not something the deployed node sends (see "## Left out") |
| LinuxCoordinator.NotEnoughReportsCount | Linux/coordinator/coordinator.cpp:75-77 | The refusal for too few nodes carries the number of alive nodes found, readable back with `atoi` |
| LinuxCoordinator.ReceiveUpload | Linux/coordinator/coordinator.cpp:79-97 | A received payload is non-empty, as long as the declared size, and is the first bytes the client sent after its size line. "Invalid file size" comes exactly when the size is not positive or above the cap, and "Failed to receive file data" exactly when a valid size exceeds the bytes sent |
| LinuxCoordinator.ReceiveUploadOfClient | Linux/client/client.cpp:70-76 | The client's size line and payload are received back as that payload, or refused as an invalid size when empty or over the cap |
| LinuxCoordinator.StoreOnTwo | Linux/coordinator/coordinator.cpp:100-124 | Both chosen nodes get a STORE; the upload commits exactly when both acknowledge, and the entry then records those two nodes and the checksum |
| LinuxCoordinator.UploadCommitsIff | Linux/coordinator/coordinator.cpp:64-125 | An upload succeeds exactly when at least two nodes are alive, the payload arrived, and the two lowest alive nodes both acknowledge it |
| LinuxCoordinator.Upload | Linux/coordinator/coordinator.cpp:66-125 | After the refresh, fewer than two alive nodes are refused with their count before anything is read. A failed receive is the reply and no node is called. Any failure leaves the table as it was |
| LinuxCoordinator.HandleUpload | Linux/coordinator/coordinator.cpp:64-125 | An upload refreshes liveness first, streams nothing, and any failure leaves the file table untouched |
| LinuxCoordinator.UploadPlacesOnLowestTwo | Linux/coordinator/coordinator.cpp:68-124 | A committed file lives on two distinct alive nodes with the lower one first; every other alive node has a higher id; only this path's entry changes |
| LinuxCoordinator.HandleUploadPreservesValid | Linux/coordinator/coordinator.cpp:64-125 | Every entry keeps two distinct registered nodes in ascending order and an in-range checksum |
| LinuxCoordinator.ServeFetch | Linux/coordinator/coordinator.cpp:200-244 | A fetch yields the payload exactly when size, bytes and checksum agree; a failed connection, a bad size and corruption give their own errors |
| LinuxCoordinator.HandleDownload | Linux/coordinator/coordinator.cpp:168-266 | A download never changes the table and calls at most one replica. An unknown path is "File not found", and with both replicas down the reply is "Both nodes are down" and no node is called. Otherwise the replica asked is the first when alive, else the second. A failed fetch (a checksum mismatch included) replies with its error and streams nothing. An intact fetch gives SUCCESS with the notice when the second replica served, the OK line and exactly the fetched bytes. SUCCESS happens only when the bytes matched their checksum |
| LinuxCoordinator.CorruptedReplicaRefused | Linux/coordinator/coordinator.cpp:240-244 | When both replicas hold corrupted copies, a download reports "Checksum mismatch - data corruption detected" and sends no payload |
| LinuxCoordinator.DownloadFailover | Linux/coordinator/coordinator.cpp:177-191 | The first replica is used when alive; otherwise the second is used and its data is preceded by a notice naming the failed node; with both down the reply is an error and no node is called |
| LinuxCoordinator.UploadThenDownload | Linux/coordinator/coordinator.cpp:64-266 | A file uploaded and then read from a surviving replica that returns what it stored comes back as SUCCESS with exactly the uploaded bytes |
| LinuxCoordinator.DownloadOfStored | Linux/coordinator/coordinator.cpp:168-266 | A stored path whose two replicas both return the same intact payload downloads as SUCCESS with exactly that payload, behind a recovery notice when the first replica is down |
| LinuxCoordinator.DownloadPreservesValid | Linux/coordinator/coordinator.cpp:168-266 | A download keeps the state well formed |
| LinuxCoordinator.LinuxRoute | Linux/coordinator/coordinator.cpp:347-371 | DELETE is no command here, and a command is unknown exactly when it matches none of the four keywords |
| LinuxCoordinator.Serve | Linux/coordinator/coordinator.cpp:337-373 | In either build: an empty receive changes nothing, an unknown command (DELETE included) is refused, LIST replies with the listing of every stored path and changes nothing, UPLOAD and DOWNLOAD refresh liveness first, and DOWNLOAD never changes the table. `Serve(AsWritten, …)` is the loop as written. `Serve(Corrected, …)` differs only at line 362 |
| LinuxCoordinator.ServeListRequest | Linux/coordinator/coordinator.cpp:364-367 | A request starting with LIST gets the listing of every stored path and changes nothing |
| LinuxCoordinator.DeleteIsUnknown | Linux/coordinator/coordinator.cpp:368-371 | In either build, a DELETE request is answered "ERROR: Unknown command" and changes nothing |
| LinuxCoordinator.ServeUploadRequest | Linux/coordinator/coordinator.cpp:351-357 | In either build, an UPLOAD line reaches `handleUpload` with its path, and the request's own buffer contributes nothing to the payload |
| LinuxCoordinator.ServeDownloadRequest | Linux/coordinator/coordinator.cpp:358-363 | A DOWNLOAD line reaches `handleDownload` with its path. As written the client gets only what the handler streamed. Corrected, it also gets the returned error |
| LinuxCoordinator.UnknownDownloadIsSilent | Linux/coordinator/coordinator.cpp:358-363 | As written: the loop sends the client nothing for a download of an unknown path |
| LinuxCoordinator.DownloadErrorReported | Linux/coordinator/coordinator.cpp:358-363 | Corrected: the loop sends exactly the error text of a failed download, and exactly the streamed bytes of a successful one |
| Node.CleanPath | node/node.cpp:33-44 | Exactly one leading slash is dropped when there is one, and every remaining byte is kept in place except that each forward slash becomes a backslash |
| Node.CleanPathIdempotent | node/node.cpp:33-44 | Cleaning a cleaned path changes nothing |
| Node.CleanPathCollides | node/node.cpp:33-44 | "/a/b" and "a\b" (any path with a leading slash and its backslashed form) map to the same stored file |
| Node.HandleStore | node/node.cpp:85-156 | The node replies OK exactly when the size is non-negative, enough bytes arrive, their checksum matches and the write works; only then is the file stored; a negative size ends the process |
| Node.StoreThenGet | node/node.cpp:85-202 | After an OK to STORE, GET of the same path returns exactly the stored bytes, framed with their size and the checksum that was sent |
| Node.HandleGet | node/node.cpp:158-202 | A missing or unreadable file gets ERROR; otherwise the reply is the file framed with its size and checksum |
| Node.HandleDelete | node/node.cpp:204-219 | OK means the file is gone and nothing else changed; ERROR only when it existed and removal failed; a missing file is OK |
| Node.DeleteIdempotent | node/node.cpp:204-219 | Deleting again after a successful delete answers OK and changes nothing |
| Node.Serve | node/node.cpp:266-313 | A receive without a newline gets no reply; storage changes only with an OK reply; an unknown command gets no reply |
| Node.Dispatch | node/node.cpp:286-310 | Only STORE, GET and DELETE are served, and any other command gets no reply and changes nothing. Storage changes only with an OK reply |
| Node.ServeStoreCommand | node/node.cpp:287-300 | The STORE line the coordinator sends reaches `handleStore` with its path, size and checksum, and with the bytes after the line as the first part of the payload |
| Node.ServeGetCommand | node/node.cpp:301-305 | A GET line reaches `handleGet` with its path |
| Node.ServeDeleteCommand | node/node.cpp:306-310 | A DELETE line reaches `handleDelete` with its path |
| LinuxNode.Location | Linux/node/node.cpp:83 | Corrected: the DFS path, made relative, joined under the node's folder. For a relative path this is the join as written |
| LinuxNode.LocationInsideFolder | Linux/node/node.cpp:83 | Corrected: a served path resolves to a file reached through `storage` and `node<id>`, with `.`, `..` and repeated `/` resolved |
| LinuxNode.AbsolutePathShared | Linux/node/node.cpp:83 | As written: a path starting with "/" is the same file on every node, the file that path names |
| LinuxNode.ParentPathShared | Linux/node/node.cpp:83 | As written: node a's `../node<b>/<rel>` is the same file as node b's `<rel>` |
| LinuxNode.LocationsDisjoint | Linux/node/node.cpp:83-103 | Corrected: for paths the node serves, two different nodes never resolve to the same file |
| LinuxNode.HandleStore | Linux/node/node.cpp:59-99 | In either build: the node replies OK exactly when enough bytes arrive, the checksum matches, the build serves the path, and the directory and file can be made. Only then is the disk changed, at the file the build's location resolves to (as written, `fs::path(storageFolder) / dfsPath`). Each failure has its own outcome: a negative size crashes, too few bytes is "Failed to receive file", a mismatch is "Checksum mismatch", a path the build does not serve (corrected: one with `..`) is "Invalid path", a directory that cannot be made crashes, and a file that cannot be opened is "Cannot create file"; none changes the disk |
| LinuxNode.HandleGet | Linux/node/node.cpp:102-148 | In either build, reading the file of the build's location: a missing file and an unreadable one get distinct errors. Otherwise the reply frames the file with its size and 64-bit checksum. Corrected, a path with `..` gets "Invalid path" |
| LinuxNode.StoreThenGet | Linux/node/node.cpp:59-148 | In either build, after an OK to STORE, GET on the same node returns the stored bytes with the checksum that was sent |
| LinuxNode.StoreIsolated | Linux/node/node.cpp:83 | Corrected: a store on one node never changes what another node's GET returns, whatever the two paths |
| LinuxNode.StoreShared | Linux/node/node.cpp:83 | As written: a file stored under an absolute path through one node is what every node, this one or another, then serves under that path |
| LinuxNode.StoreEscapes | Linux/node/node.cpp:83 | As written: a store through node a of `../node<b>/<rel>` is what node b then serves under `<rel>`. Corrected, node a refuses that store and the disk is unchanged |
| LinuxNode.Serve | Linux/node/node.cpp:218-247 | An empty receive gets no reply, and the disk changes only with an OK reply |
| LinuxNode.Dispatch | Linux/node/node.cpp:225-244 | Any command other than STORE and GET gets "ERROR: Unknown command" and changes nothing |
| LinuxNode.ServeStoreCommand | Linux/node/node.cpp:225-236 | The STORE line reaches `handleStore` with its path, size and checksum |
| LinuxNode.ServeGetCommand | Linux/node/node.cpp:237-241 | A GET line reaches `handleGet` with its path |
| Ports.StartupOfTypedId | node/node.cpp:227-231 | A node started with a printed id accepts it exactly when the id check passes, and the Linux check guarantees the port is 9001 plus the id |
| Ports.AsWrittenPortsCollide | node/node.cpp:227-231 | As written: any accepted Windows id and that id plus 65536 are both accepted and bind the same port |
| Ports.AcceptedPortsDistinct | Linux/node/node.cpp:155-166 | Corrected: with the upper bound on the id, distinct nodes bind distinct ports, each 9001 plus its id |

## Left out

- Sockets: connection set-up and timeouts are not modelled. How TCP splits a stream into receives is not modelled either. Each handler takes as parameters the first buffer and every byte the peer sends after it before its stream ends.
- Send failures towards the client ("Failed to send response", "Failed to send file") are not modelled. The client is assumed to take whatever the coordinator sends.
- Liveness probes are not modelled. `OpenProcess` / `kill(pid, 0)` become the `probe` oracle, and nodes' replies become the `ack` and `fetch` oracles.
- The file system is a map from file to bytes. Whether a directory, open, read or remove succeeds is an oracle boolean.
- LinuxNode.Resolve: path resolution is lexical. Symbolic links are not followed, and a `..` after a directory that does not exist resolves as if it did. The working directory is not modelled, so an absolute path and a relative one never name the same file.
- Node.HandleStore: the Windows node's storage is keyed by the cleaned name, not by a resolved file-system path. `..` components and a name that cleans to a rooted `\x` (from `//x`) are not resolved, so the Windows model claims nothing about files outside a node's folder or shared between nodes.
- Exceptions caught by the Windows `main` ("ERROR: Internal error") are not modelled. No modelled handler throws.
- Overflow in `atoi` and `int` is not modelled: `Decimal.Atoi` reads an unbounded integer. `strtoul`'s handling of out-of-range text is not modelled beyond the two widths.
- Logging, console output, the clients' command lines and their file I/O are not modelled.
- Linux registration deadlock: the Linux `handleRegister` makes a second receive, modelled as `Env.registration`. The node sends its REGISTER line once and then waits in `recv` for the reply. Neither side sets a receive timeout, so in the deployed program the single-threaded coordinator blocks indefinitely at the first registration. `LinuxCoordinator.ServeRegistration` only states what would follow if that receive returned a registration line; the blocking itself is not modelled.
- Reading `nodeAlive[x]` inserts a key when it is missing. The model ignores this, because every node id in the file table is registered.
- Coordinator.HandleUpload: the commit and replica facts are stated about its stage `Coordinator.Upload`, after the liveness refresh, not about HandleUpload itself.
- LinuxCoordinator.HandleUpload: as for the Windows variant, the commit facts are stated about `LinuxCoordinator.Upload`.
- Linux size line: the Linux coordinator reads the size line with one receive of up to 16 bytes. Payload bytes that arrive in that receive are lost. The model takes that receive as `Env.sizeChunk` and the rest as `Env.body`, so it does not model this loss.
- Linux STORE: bytes that reach a Linux node together with its STORE line are discarded. The model's `incoming` is only what comes after. The resulting truncation depends on segmentation and is not claimed as a finding.
- The Windows node's registration and the Linux node's registration are only modelled through the line they send (`CoordinatorMain.RegisterLine`). Their retries and error exits are not modelled.
- Concurrency: both coordinators serve one connection at a time, and so does the model.

## Findings

| source | as written | input that shows it | evidently intended | confidence | as-written member | corrected member |
|---|---|---|---|---|---|---|
| coordinator/coordinator.cpp:468 | `main` calls `handleDownload` and discards the string it returns, so an error is never sent | `DOWNLOAD missing.txt` when no such file is stored: the client receives nothing | the error text is sent to the client, as for every other command | high, not executed | CoordinatorMain.UnknownDownloadIsSilent | CoordinatorMain.DownloadErrorReported |
| Linux/coordinator/coordinator.cpp:362 | same as above in the Linux coordinator | `DOWNLOAD missing.txt`: the client receives nothing | the error text is sent to the client | high, not executed | LinuxCoordinator.UnknownDownloadIsSilent | LinuxCoordinator.DownloadErrorReported |
| coordinator/coordinator.cpp:447 | the remainder after the UPLOAD line is taken from `string cmd(buffer)`, which ends at the first zero byte | `UPLOAD a.bin\n2\n` followed by the bytes 0 and 1 in one receive: the payload is cut to nothing and the upload fails | payload bytes in the first receive are taken from the raw buffer, by length | medium, not executed | CoordinatorMain.NulInPayloadIsLost | CoordinatorMain.NulInPayloadIsKept |
| Linux/node/node.cpp:83 | `fs::path(storageFolder) / dfsPath` with a path starting with "/" drops the folder, so the file goes to the absolute path | STORE of `/tmp/x` on nodes 1 and 2: both write `/tmp/x`, outside their folders and into the same file | every file stays inside its node's own folder | high, not executed | LinuxNode.StoreShared | LinuxNode.StoreIsolated |
| Linux/node/node.cpp:83 | the joined path keeps `..` components, so the file system climbs out of the node's folder | STORE of `../node2/x` on node 1 writes `storage/node2/x`, which node 2 serves as `x` | every file stays inside its node's own folder | high, not executed | LinuxNode.StoreEscapes | LinuxNode.StoreIsolated |
| node/node.cpp:227-231 | the Windows node checks only `nodeId >= 1`, then binds `htons(9001 + nodeId)`, which keeps 16 bits | node ids 1 and 65537 both bind port 9002 | ids whose port would exceed 65535 are refused, as the Linux node does | high, not executed | Ports.AsWrittenPortsCollide | Ports.AcceptedPortsDistinct |

=== FILE: bytes.dfy ===
/**
 * Bytes on the wire.
 *
 * Every buffer the coordinator and the nodes exchange is a C++ `std::string`
 * or `char[]`, that is, a sequence of octets.  An octet is modelled as a
 * `char` below 256 so that ASCII literals such as "OK\n" are wire values
 * without conversion, and `(unsigned char)c` is simply `c as int`.
 */
module Bytes {

  type byte = c: char | c as int < 256 witness '\0'

  /** A buffer, a path or a reply as it travels over a socket. */
  type Wire = seq<byte>

  datatype Option<+T> = None | Some(value: T)

  /**
   * Where the code loses information, the model keeps both the program as
   * written and the evidently intended one; the members concerned take the
   * build they follow.
   */
  datatype Build = AsWritten | Corrected

  const NUL: byte := '\0'
  const NEWLINE: byte := '\n'

  /** The characters `isspace` accepts in the "C" locale. */
  predicate IsSpace(c: byte) {
    c == ' ' || c == '\t' || c == '\n' || c == '\U{B}' || c == '\U{C}' || c == '\r'
  }

  predicate IsDigit(c: byte) {
    '0' <= c <= '9'
  }

  predicate StartsWith(s: Wire, prefix: Wire) {
    |prefix| <= |s| && s[..|prefix|] == prefix
  }

  /** Every failure reply of the coordinators starts with "ERROR". */
  predicate IsError(reply: Wire) {
    StartsWith(reply, "ERROR")
  }

  /** A failure reply: the "ERROR: " marker and a description. */
  function Error(detail: Wire): (r: Wire)
    ensures IsError(r)
  {
    var r := "ERROR: " + detail;
    assert r[..5] == "ERROR: "[..5];
    r
  }

  /** Text appended to a failure reply leaves it a failure reply. */
  lemma ErrorExtends(reply: Wire, more: Wire)
    requires IsError(reply)
    ensures IsError(reply + more)
  {
    assert (reply + more)[..5] == reply[..5];
  }

  /** Text appended after a prefix keeps it a prefix. */
  lemma StartsWithThen(s: Wire, prefix: Wire, more: Wire)
    requires StartsWith(s, prefix)
    ensures StartsWith(s + more, prefix)
  {
    assert (s + more)[..|prefix|] == s[..|prefix|];
  }

  /** A concatenation starts with its first part and continues with the second. */
  lemma PrefixThen(prefix: Wire, tail: Wire)
    ensures StartsWith(prefix + tail, prefix)
    ensures (prefix + tail)[|prefix|..] == tail
  {
  }

  /** A reply whose first byte is not 'E' is no error. */
  lemma NotErrorByFirst(reply: Wire)
    requires |reply| > 0 && reply[0] != 'E'
    ensures !IsError(reply)
  {
    assert |reply| < 5 || reply[..5][0] == reply[0];
  }

  /**
   * Index of the first occurrence of `c` in `s`, as `std::string::find`
   * reports it (None plays the part of `npos`).
   */
  function Find(s: Wire, c: byte): (r: Option<nat>)
    ensures r.Some? ==> r.value < |s| && s[r.value] == c
    ensures r.Some? ==> forall i :: 0 <= i < r.value ==> s[i] != c
    ensures r.None? ==> forall i :: 0 <= i < |s| ==> s[i] != c
  {
    if |s| == 0 then None
    else if s[0] == c then Some(0)
    else match Find(s[1..], c)
      case None => None
      case Some(k) => Some(k + 1)
  }

  /**
   * The text a `std::string` built from a NUL-terminated `char*` holds:
   * everything before the first NUL byte.
   */
  function TakeUntilNul(s: Wire): (r: Wire)
    ensures StartsWith(s, r)
    ensures NUL !in r
    ensures |r| < |s| ==> s[|r|] == NUL
  {
    match Find(s, NUL)
    case None => s
    case Some(k) => s[..k]
  }

  /** NUL-free text in front of a buffer survives the conversion to a C string. */
  lemma TakeUntilNulSkip(a: Wire, b: Wire)
    requires NUL !in a
    ensures TakeUntilNul(a + b) == a + TakeUntilNul(b)
  {
    var r := TakeUntilNul(a + b);
    assert |r| >= |a| by {
      forall i | 0 <= i < |a|
        ensures (a + b)[i] != NUL
      {
        assert (a + b)[i] == a[i];
      }
    }
    assert r == a + r[|a|..];
    var u := r[|a|..];
    assert StartsWith(b, u) by {
      assert forall i :: 0 <= i < |u| ==> b[i] == (a + b)[|a| + i];
    }
    assert NUL !in u by {
      assert forall i :: 0 <= i < |u| ==> u[i] == r[|a| + i];
    }
    if |u| < |b| {
      assert b[|u|] == (a + b)[|r|];
    }
    TakeUntilNulUnique(b, u);
  }

  /** `TakeUntilNul` is the only NUL-free prefix that stops at a NUL or at the end. */
  lemma TakeUntilNulUnique(s: Wire, u: Wire)
    requires StartsWith(s, u) && NUL !in u
    requires |u| < |s| ==> s[|u|] == NUL
    ensures TakeUntilNul(s) == u
  {
    var r := TakeUntilNul(s);
    assert forall i :: 0 <= i < |u| ==> s[i] == u[i];
    assert forall i :: 0 <= i < |r| ==> s[i] == r[i];
  }

  /**
   * Line extraction from bytes already received: when they hold a newline,
   * the line is what precedes the first one and the rest is what follows it.
   */
  function SplitLine(buffered: Wire): (r: Option<(Wire, Wire)>)
    ensures r.None? <==> NEWLINE !in buffered
    ensures r.Some? ==> buffered == r.value.0 + [NEWLINE] + r.value.1 && NEWLINE !in r.value.0
  {
    match Find(buffered, NEWLINE)
    case None => None
    case Some(k) =>
      assert buffered == buffered[..k] + [NEWLINE] + buffered[k + 1..];
      Some((buffered[..k], buffered[k + 1..]))
  }

  /** A line followed by a newline and more bytes splits back into the two. */
  lemma SplitLineOf(line: Wire, data: Wire)
    requires NEWLINE !in line
    ensures SplitLine(line + [NEWLINE] + data) == Some((line, data))
  {
    var b := line + [NEWLINE] + data;
    assert b[|line|] == NEWLINE;
    assert forall i :: 0 <= i < |line| ==> b[i] == line[i];
    assert Find(b, NEWLINE) == Some(|line|);
    assert b[..|line|] == line && b[|line| + 1..] == data;
  }

  /** The first `c` of a text without `c`, then `c`, then more, is the one right after the text. */
  lemma FindAfter(head: Wire, c: byte, rest: Wire)
    requires c !in head
    ensures Find(head + [c] + rest, c) == Some(|head|)
  {
    var b := head + [c] + rest;
    assert b[|head|] == c;
    assert forall i :: 0 <= i < |head| ==> b[i] == head[i];
  }

  /**
   * A received buffer that starts with a NUL-free line: its C string holds
   * that line, ended by the first newline.
   */
  lemma CommandLineSplits(line: Wire, rest: Wire)
    requires NUL !in line && NEWLINE !in line
    ensures var cmd := TakeUntilNul(line + [NEWLINE] + rest);
      Find(cmd, NEWLINE) == Some(|line|) && cmd[..|line|] == line
  {
    var buffer := line + [NEWLINE] + rest;
    TakeUntilNulSkip(line + [NEWLINE], rest);
    assert buffer == (line + [NEWLINE]) + rest;
    var cmd := TakeUntilNul(buffer);
    assert cmd == line + [NEWLINE] + TakeUntilNul(rest);
    FindAfter(line, NEWLINE, TakeUntilNul(rest));
  }

  /**
   * A payload of `fileSize` bytes read the way both the coordinator and the
   * Windows node read one: the bytes already buffered (at most `fileSize` of
   * them), then as many bytes from the socket as are still missing.
   * `socket` is everything the peer sends before its stream ends; None
   * means the stream ended early.
   */
  function ReceiveBody(buffered: Wire, socket: Wire, fileSize: nat): (r: Option<Wire>)
    ensures r.Some? <==> |buffered| + |socket| >= fileSize
    ensures r.Some? ==> r.value == (buffered + socket)[..fileSize]
  {
    var pre := buffered[..Min(|buffered|, fileSize)];
    if |pre| + |socket| < fileSize then None
    else
      var r := pre + socket[..fileSize - |pre|];
      assert r == (buffered + socket)[..fileSize];
      Some(r)
  }

  /** `s` without its leading white space. */
  function DropSpaces(s: Wire): (r: Wire)
    ensures |r| <= |s| && r == s[|s| - |r|..]
    ensures |r| > 0 ==> !IsSpace(r[0])
    ensures forall i :: 0 <= i < |s| - |r| ==> IsSpace(s[i])
  {
    if |s| == 0 || !IsSpace(s[0]) then s else DropSpaces(s[1..])
  }

  function Min(a: int, b: int): int {
    if a <= b then a else b
  }
}

=== FILE: checksum.dfy ===
/**
 * The integrity codec shared by every program of the system: the checksum of
 * a payload is the sum of its bytes read as `unsigned char`, accumulated in
 * an `unsigned long`.  That accumulator is 32 bits wide under MSVC (the
 * Windows build) and 64 bits wide under LP64 (the Linux build).
 */
module Checksum {
  import opened Bytes

  /** Largest payload the coordinator accepts on UPLOAD: 10 MiB. */
  const MAX_FILE_SIZE: nat := 10 * 1024 * 1024

  /** Number of values of a 32-bit `unsigned long` (MSVC). */
  const ULONG32: nat := 0x1_0000_0000

  /** Number of values of a 64-bit `unsigned long` (LP64). */
  const ULONG64: nat := 0x1_0000_0000_0000_0000

  /** The mathematical byte sum, accumulated left to right like the source loop. */
  function Sum(s: Wire): nat
  {
    if |s| == 0 then 0 else Sum(s[..|s| - 1]) + s[|s| - 1] as int
  }

  /** `calculateChecksum` as the Windows programs compute it. */
  function Checksum32(s: Wire): (r: nat)
    ensures r < ULONG32
    ensures |s| <= MAX_FILE_SIZE ==> r == Sum(s)
  {
    NoWrapWithinCap(s);
    Sum(s) % ULONG32
  }

  /** `calculateChecksum` as the Linux programs compute it. */
  function Checksum64(s: Wire): (r: nat)
    ensures r < ULONG64
    ensures |s| <= MAX_FILE_SIZE ==> r == Sum(s)
  {
    NoWrapWithinCap(s);
    Sum(s) % ULONG64
  }

  /**
   * The source's loop: add each byte to an accumulator of the given width,
   * wrapping around at `modulus` as unsigned arithmetic does.
   */
  method CalculateChecksum(data: Wire, modulus: nat) returns (sum: nat)
    requires modulus > 0
    ensures sum == Sum(data) % modulus
    ensures sum < modulus
  {
    sum := 0;
    var i := 0;
    while i < |data|
      invariant 0 <= i <= |data|
      invariant sum == Sum(data[..i]) % modulus
    {
      assert data[..i + 1][..i] == data[..i];
      ModAddStep(Sum(data[..i]), data[i] as int, modulus);
      sum := (sum + data[i] as int) % modulus;
      i := i + 1;
    }
    assert data[..i] == data;
  }

  lemma ModAddStep(a: nat, b: nat, m: nat)
    requires m > 0
    ensures (a % m + b) % m == (a + b) % m
  {
    var s := (a % m + b) % m;
    var t := (a % m + b) / m;
    assert a % m + b == t * m + s;
    assert a + b == (a / m + t) * m + s by {
      assert a == (a / m) * m + a % m;
      assert (a / m) * m + t * m == (a / m + t) * m;
    }
    ModUnique(a + b, a / m + t, s, m);
  }

  /** Quotient and remainder are unique. */
  lemma ModUnique(x: int, k: int, s: int, m: int)
    requires m > 0 && 0 <= s < m && x == k * m + s
    ensures x % m == s
  {
    var d := k - x / m;
    assert x == (x / m) * m + x % m;
    assert d * m == x % m - s by {
      assert k * m - (x / m) * m == d * m;
    }
    MulSign(d, m);
  }

  lemma MulSign(d: int, m: int)
    requires m > 0
    ensures d >= 1 ==> d * m >= m
    ensures d <= -1 ==> d * m <= -m
  {
    if d >= 1 {
      assert (d - 1) * m >= 0;
    } else if d <= -1 {
      assert (-d - 1) * m >= 0;
    }
  }

  /** The checksum is additive over concatenation. */
  lemma {:induction false} SumAppend(a: Wire, b: Wire)
    ensures Sum(a + b) == Sum(a) + Sum(b)
    decreases |b|
  {
    if |b| == 0 {
      assert a + b == a;
    } else {
      var b' := b[..|b| - 1];
      assert (a + b)[..|a + b| - 1] == a + b';
      SumAppend(a, b');
    }
  }

  /** Taking one byte out of a payload takes its value out of the sum. */
  lemma SumRemove(b: Wire, j: nat)
    requires j < |b|
    ensures Sum(b) == Sum(b[..j] + b[j + 1..]) + b[j] as int
  {
    assert b == b[..j] + [b[j]] + b[j + 1..];
    SumAppend(b[..j], [b[j]]);
    SumAppend(b[..j] + [b[j]], b[j + 1..]);
    SumAppend(b[..j], b[j + 1..]);
    SumSingle(b[j]);
  }

  /** Taking one byte out of a payload takes one occurrence out of its multiset. */
  lemma MultisetRemove(b: Wire, j: nat)
    requires j < |b|
    ensures multiset(b[..j] + b[j + 1..]) == multiset(b) - multiset{b[j]}
  {
    assert b == b[..j] + [b[j]] + b[j + 1..];
    assert multiset(b) == multiset(b[..j]) + multiset{b[j]} + multiset(b[j + 1..]);
  }

  /** The checksum ignores byte order: permuted payloads collide. */
  lemma {:induction false} SumPermutation(a: Wire, b: Wire)
    requires multiset(a) == multiset(b)
    ensures Sum(a) == Sum(b)
    decreases |a|
  {
    if |a| == 0 {
      assert |b| == |multiset(b)| == 0;
    } else {
      var i := |a| - 1;
      var x := a[i];
      assert x in multiset(b);
      var j :| 0 <= j < |b| && b[j] == x;
      MultisetRemove(a, i);
      MultisetRemove(b, j);
      assert a[..i] + a[i + 1..] == a[..i];
      SumPermutation(a[..i], b[..j] + b[j + 1..]);
      SumRemove(a, i);
      SumRemove(b, j);
    }
  }

  /** Every byte adds at most 255. */
  lemma {:induction false} SumBound(s: Wire)
    ensures Sum(s) <= 255 * |s|
  {
    if |s| > 0 {
      SumBound(s[..|s| - 1]);
    }
  }

  /**
   * Within the upload cap the sum is at most 255 * 10 MiB < 2^32, so neither
   * accumulator ever wraps for a payload the coordinator accepted.
   */
  lemma NoWrapWithinCap(s: Wire)
    ensures |s| <= MAX_FILE_SIZE ==> Sum(s) < ULONG32 < ULONG64
  {
    SumBound(s);
  }

  /** A single byte's checksum is its value. */
  lemma SumSingle(c: byte)
    ensures Sum([c]) == c as int
  {
    assert [c][..0] == [];
  }
}

=== FILE: coordinator.dfy ===
/**
 * The Windows coordinator (coordinator/coordinator.cpp): a file table
 * `path -> FileEntry` and the node registry, driven by one request at a time.
 *
 * Policy of this variant: an upload is offered to EVERY alive node in
 * ascending id order and commits when at least one store succeeds; the
 * replica list is as long as the number of acknowledgements.  A download
 * reads the first replica whose cached verdict is alive; a delete removes
 * from every alive replica and forgets the entry when one acknowledged.
 */
module Coordinator {
  import opened Bytes
  import opened Checksum
  import opened Decimal
  import opened Registry
  import opened Rpc
  import Ordering
  import Tokens

  datatype FileEntry = FileEntry(filename: Wire, nodeIds: seq<NodeId>, checksum: nat)

  datatype State = State(nodes: Registry, files: map<Wire, FileEntry>)

  /**
   * What one handler does: the next state, the string it returns to `main`,
   * the bytes it wrote to the client socket itself, and the node calls it
   * made, in order.
   */
  datatype Outcome = Outcome(state: State, reply: Wire, streamed: Wire, calls: seq<Call>)

  predicate StrictlyAscending(ids: seq<NodeId>) {
    forall i, j :: 0 <= i < j < |ids| ==> ids[i] < ids[j]
  }

  /** The table invariants every handler preserves. */
  ghost predicate EntryValid(nodes: Registry, path: Wire, e: FileEntry) {
    && e.filename == path
    && |e.nodeIds| >= 1
    && StrictlyAscending(e.nodeIds)
    && (forall i :: 0 <= i < |e.nodeIds| ==> e.nodeIds[i] in nodes)
    && e.checksum < ULONG32
  }

  ghost predicate Valid(st: State) {
    forall p :: p in st.files ==> EntryValid(st.nodes, p, st.files[p])
  }

  const Initial: State := State(map[], map[])

  // ---------------------------------------------------------------- REGISTER

  const REGISTERED: Wire := "REGISTERED "

  /** The acknowledgement of a registration, which names the node it enrolled. */
  function RegisteredReply(id: NodeId): (r: Wire)
    ensures StartsWith(r, REGISTERED) && !IsError(r)
    ensures Atoi(r[|REGISTERED|..]) == id
  {
    var digits := IntToString(id);
    var r := REGISTERED + digits;
    PrefixThen(REGISTERED, digits);
    assert digits + [] == digits;
    AtoiOfIntToString(id, []);
    assert r[0] == REGISTERED[0];
    NotErrorByFirst(r);
    r
  }

  /** `handleRegister`: enrol (or re-enrol) a node as alive and acknowledge. */
  function HandleRegister(st: State, id: NodeId, pid: Pid): (o: Outcome)
    ensures Alive(o.state.nodes, id) && o.state.nodes[id].pid == pid
    ensures o.state.nodes.Keys == st.nodes.Keys + {id}
    ensures forall other :: other in st.nodes && other != id ==> o.state.nodes[other] == st.nodes[other]
    ensures o.state.files == st.files
    ensures o.reply == RegisteredReply(id)
    ensures o.streamed == [] && o.calls == []
  {
    Outcome(State(Register(st.nodes, id, pid), st.files), RegisteredReply(id), [], [])
  }

  // ------------------------------------------------------------------ UPLOAD

  datatype Received = Payload(data: Wire) | Failed(error: Wire)

  const NO_NODES: Wire := Error("No nodes available")
  const NO_SIZE: Wire := Error("Failed to receive file size")
  const BAD_SIZE: Wire := Error("Invalid file size")
  const SHORT_BODY: Wire := Error("Failed to receive file")
  const STORE_NONE: Wire := Error("Failed to store on any node")

  /** What every receive yields: a payload within the cap, or an error reply. */
  predicate WellFormed(r: Received) {
    && (r.Payload? ==> |r.data| <= MAX_FILE_SIZE)
    && (r.Failed? ==> IsError(r.error))
  }

  /** The bytes `sizeBuf` can hold before its terminating NUL: `sizeof(sizeBuf) - 1`. */
  const SIZE_ROOM: nat := 31

  /**
   * The byte-wise read of `handleUpload`: receive the size line one byte at a time into `sizeBuf`,
   * which already holds `sizeBuf`, until a newline arrives (it is not kept)
   * or the buffer is full.  The result is the buffer's bytes and the socket
   * bytes not yet read; None when the client's stream ends first.  The
   * newline ends the line only when it arrives within the room left.
   */
  function ReadSizeLine(sizeBuf: Wire, socket: Wire): (r: Option<(Wire, Wire)>)
    requires |sizeBuf| <= SIZE_ROOM
    ensures var room := SIZE_ROOM - |sizeBuf|;
      var nl := Find(socket, NEWLINE);
      if nl.Some? && nl.value < room then r == Some((sizeBuf + socket[..nl.value], socket[nl.value + 1..]))
      else if |socket| < room then r.None?
      else r == Some((sizeBuf + socket[..room], socket[room..]))
    decreases |socket|
  {
    if |sizeBuf| == SIZE_ROOM then
      assert sizeBuf + socket[..0] == sizeBuf;
      Some((sizeBuf, socket))
    else if |socket| == 0 then None
    else if socket[0] == NEWLINE then
      assert sizeBuf + socket[..0] == sizeBuf;
      Some((sizeBuf, socket[1..]))
    else
      ReadSizeLineStep(sizeBuf, socket);
      ReadSizeLine(sizeBuf + [socket[0]], socket[1..])
  }

  /** Moving one byte from the socket into the buffer keeps every later split of the bytes the same. */
  lemma ReadSizeLineStep(sizeBuf: Wire, socket: Wire)
    requires |socket| > 0
    ensures forall k :: 0 <= k < |socket| ==> sizeBuf + [socket[0]] + socket[1..][..k] == sizeBuf + socket[..k + 1]
    ensures forall k :: 0 <= k < |socket| ==> socket[1..][k..] == socket[k + 1..]
  {
    forall k | 0 <= k < |socket|
      ensures sizeBuf + [socket[0]] + socket[1..][..k] == sizeBuf + socket[..k + 1]
    {
      assert socket[..k + 1] == [socket[0]] + socket[1..][..k];
    }
  }

  /**
   * The receiving part of `handleUpload`: read the size line, validate it, then read the payload.
   * When the bytes after the command line hold a newline, the size line is
   * what precedes it.  Otherwise at most SIZE_ROOM of them start the size
   * line (the rest are dropped) and the socket supplies the remainder.
   * `socket` is everything the client sends after the first receive.
   */
  function ReceiveUpload(buffered: Wire, socket: Wire): (r: Received)
    ensures WellFormed(r)
    ensures r.Payload? ==> 0 < |r.data| <= MAX_FILE_SIZE
    ensures r.Payload? && NEWLINE in buffered ==>
      var (line, data) := SplitLine(buffered).value;
      |r.data| == Atoi(line) && |r.data| <= |data| + |socket| && r.data == (data + socket)[..|r.data|]
    ensures NEWLINE !in buffered ==>
      match ReadSizeLine(buffered[..Min(|buffered|, SIZE_ROOM)], socket)
      case None => r == Failed(NO_SIZE)
      case Some((sizeBuf, body)) =>
        && r == ReceiveSized(TakeUntilNul(sizeBuf), [], body)
        && (r.Payload? ==> |r.data| == Atoi(TakeUntilNul(sizeBuf)) <= |body| && r.data == body[..|r.data|])
    ensures NEWLINE in buffered ==>
      var (line, data) := SplitLine(buffered).value;
      && r == ReceiveSized(line, data, socket)
      && (r == Failed(BAD_SIZE) <==> !(0 < Atoi(line) <= MAX_FILE_SIZE))
    ensures r.Failed? ==> r.error in {NO_SIZE, BAD_SIZE, SHORT_BODY} && IsError(r.error)
  {
    match SplitLine(buffered)
    case Some((line, data)) => ReceiveSized(line, data, socket)
    case None =>
      match ReadSizeLine(buffered[..Min(|buffered|, SIZE_ROOM)], socket)
      case None => Failed(NO_SIZE)
      case Some((sizeBuf, body)) =>
        assert [] + body == body;
        ReceiveSized(TakeUntilNul(sizeBuf), [], body)
  }

  /** Validate the size line, then read that many bytes: those after the line, then the socket's. */
  function ReceiveSized(sizeLine: Wire, data: Wire, socketBody: Wire): (r: Received)
    ensures r.Payload? <==> 0 < Atoi(sizeLine) <= MAX_FILE_SIZE && Atoi(sizeLine) <= |data| + |socketBody|
    ensures r.Payload? ==> r.data == (data + socketBody)[..Atoi(sizeLine)]
    ensures r.Failed? ==> r.error == (if 0 < Atoi(sizeLine) <= MAX_FILE_SIZE then SHORT_BODY else BAD_SIZE)
    ensures r == Failed(BAD_SIZE) <==> !(0 < Atoi(sizeLine) <= MAX_FILE_SIZE)
  {
    assert BAD_SIZE[7] != SHORT_BODY[7];
    var fileSize := Atoi(sizeLine);
    if fileSize <= 0 || fileSize > MAX_FILE_SIZE then Failed(BAD_SIZE)
    else match ReceiveBody(data, socketBody, fileSize)
      case None => Failed(SHORT_BODY)
      case Some(payload) => Payload(payload)
  }

  /** With the size line already buffered, the payload is the buffered data then the socket bytes, cut at the size. */
  lemma ReceiveUploadBuffered(line: Wire, data: Wire, socket: Wire)
    requires NEWLINE !in line
    requires 0 < Atoi(line) <= MAX_FILE_SIZE
    ensures var r := ReceiveUpload(line + [NEWLINE] + data, socket);
      if |data| + |socket| >= Atoi(line) then r == Payload((data + socket)[..Atoi(line)])
      else r == Failed(SHORT_BODY)
  {
    SplitLineOf(line, data);
  }

  /** A size line and exactly that many bytes, all buffered, are received as those bytes whatever follows. */
  lemma BufferedPayloadReceived(line: Wire, payload: Wire, socket: Wire)
    requires NEWLINE !in line && 0 < Atoi(line) == |payload| <= MAX_FILE_SIZE
    ensures ReceiveUpload(line + [NEWLINE] + payload, socket) == Payload(payload)
  {
    ReceiveUploadBuffered(line, payload, socket);
    assert (payload + socket)[..|payload|] == payload;
  }

  /**
   * A size line split across receives: the bytes that came with the command
   * line start it and the socket completes it, up to its newline.
   */
  lemma SizeLineAcrossReceives(start: Wire, rest: Wire, body: Wire)
    requires NEWLINE !in start && NEWLINE !in rest
    requires NUL !in start && NUL !in rest
    requires |start| + |rest| < SIZE_ROOM
    ensures ReceiveUpload(start, rest + [NEWLINE] + body) == ReceiveSized(start + rest, [], body)
  {
    assert start[..Min(|start|, SIZE_ROOM)] == start;
    ReadSizeLineOf(start, rest, body);
    assert NUL !in start + rest;
    TakeUntilNulUnique(start + rest, start + rest);
  }

  /** The socket's bytes up to a newline within the room complete the size line; the bytes after it remain. */
  lemma ReadSizeLineOf(start: Wire, rest: Wire, body: Wire)
    requires NEWLINE !in rest
    requires |start| + |rest| < SIZE_ROOM
    ensures ReadSizeLine(start, rest + [NEWLINE] + body) == Some((start + rest, body))
  {
    var socket := rest + [NEWLINE] + body;
    FindAfter(rest, NEWLINE, body);
    assert socket[..|rest|] == rest && socket[|rest| + 1..] == body;
  }

  /**
   * A buffer of SIZE_ROOM bytes or more without a newline fills `sizeBuf`
   * on its own: the socket is not asked for the size, the buffered bytes
   * past SIZE_ROOM are dropped, and the payload comes from the socket alone.
   */
  lemma LongSizeLine(buffered: Wire, socket: Wire)
    requires NEWLINE !in buffered && |buffered| >= SIZE_ROOM
    ensures ReceiveUpload(buffered, socket) == ReceiveSized(TakeUntilNul(buffered[..SIZE_ROOM]), [], socket)
  {
    assert socket[..0] == [];
    assert buffered[..SIZE_ROOM] + socket[..0] == buffered[..SIZE_ROOM];
  }

  /** " <id>" for each id, in order. */
  function IdList(ids: seq<NodeId>): (r: Wire)
    ensures |r| == 0 || r[0] == ' '
  {
    if |ids| == 0 then [] else [' '] + IntToString(ids[0]) + IdList(ids[1..])
  }

  /** "STORED" followed by " <id>" per committed node. */
  function StoredReply(ids: seq<NodeId>): (r: Wire)
    ensures StartsWith(r, "STORED") && !IsError(r)
  {
    assert ("STORED" + IdList(ids))[0] == 'S';
    "STORED" + IdList(ids)
  }

  /** The decimal names of `ids`, in order. */
  function Names(ids: seq<NodeId>): (r: seq<Wire>)
    ensures |r| == |ids|
  {
    if |ids| == 0 then [] else [IntToString(ids[0])] + Names(ids[1..])
  }

  lemma IntToStringIsWord(i: int)
    ensures Tokens.IsWord(IntToString(i))
  {
    if i < 0 {
      assert IntToString(i) == "-" + NatToString(-i);
    }
  }

  /** Splitting the id list of a reply into words gives the decimal name of each id. */
  lemma {:induction false} IdListWords(ids: seq<NodeId>)
    ensures Tokens.Words(IdList(ids)) == Names(ids)
  {
    if |ids| > 0 {
      IntToStringIsWord(ids[0]);
      IdListWords(ids[1..]);
      Tokens.WordsAfterSpace(IntToString(ids[0]), IdList(ids[1..]));
    }
  }

  lemma {:induction false} NamesInjective(a: seq<NodeId>, b: seq<NodeId>)
    requires Names(a) == Names(b)
    ensures a == b
  {
    if |a| > 0 {
      assert Names(a)[0] == Names(b)[0];
      IntToStringInjective(a[0], b[0]);
      assert Names(a)[1..] == Names(a[1..]) && Names(b)[1..] == Names(b[1..]);
      NamesInjective(a[1..], b[1..]);
    }
  }

  /** The STORED reply names the committed replicas: different lists give different replies. */
  lemma StoredReplyInjective(a: seq<NodeId>, b: seq<NodeId>)
    requires StoredReply(a) == StoredReply(b)
    ensures a == b
  {
    assert IdList(a) == StoredReply(a)[6..];
    assert IdList(b) == StoredReply(b)[6..];
    IdListWords(a);
    IdListWords(b);
    NamesInjective(a, b);
  }

  /**
   * The fan-out and commit step of `handleUpload` once the payload is in
   * hand: offer it to every node of `available`, in order, whatever the
   * earlier stores answered; replace the entry by the acknowledging nodes
   * when there is at least one.
   */
  function StoreEverywhere(st: State, path: Wire, available: seq<NodeId>, data: Wire, ack: Ack): (o: Outcome)
    ensures o.state.nodes == st.nodes && o.streamed == []
    ensures o.calls == StoreCalls(available, path, data, Checksum32(data))
    ensures IsError(o.reply) ==> o.state.files == st.files
    ensures !IsError(o.reply) ==>
      && o.state.files == st.files[path := FileEntry(path, Acknowledged(o.calls, ack), Checksum32(data))]
      && o.reply == StoredReply(Acknowledged(o.calls, ack))
      && Acknowledged(o.calls, ack) != []
  {
    var checksum := Checksum32(data);
    var calls := StoreCalls(available, path, data, checksum);
    var committed := Acknowledged(calls, ack);
    if |committed| == 0 then
      Outcome(st, STORE_NONE, [], calls)
    else Outcome(st.(files := st.files[path := FileEntry(path, committed, checksum)]), StoredReply(committed), [], calls)
  }

  /**
   * `handleUpload` once the liveness refresh has produced `st.nodes` and the
   * payload has been read (or failed to be): no alive node is an error
   * before anything else; a failed receive is returned as it is; otherwise
   * the payload is offered to every alive node in ascending id order.
   */
  ghost function Upload(st: State, path: Wire, received: Received, ack: Ack): (o: Outcome)
    requires WellFormed(received)
    ensures o.state.nodes == st.nodes && o.streamed == []
    ensures |AliveIds(st.nodes)| == 0 ==> o.reply == NO_NODES && o.calls == []
    ensures received.Failed? && |AliveIds(st.nodes)| > 0 ==> o.reply == received.error && o.calls == []
    ensures IsError(o.reply) ==> o.state.files == st.files
    ensures !IsError(o.reply) ==> received.Payload? && |AliveIds(st.nodes)| > 0
  {
    var available := AliveIds(st.nodes);
    if |available| == 0 then Outcome(st, NO_NODES, [], [])
    else match received
      case Failed(error) => Outcome(st, error, [], [])
      case Payload(data) => StoreEverywhere(st, path, available, data, ack)
  }

  /**
   * `handleUpload`.  `probe` answers the liveness refresh; `ack` answers
   * each store.
   */
  ghost function HandleUpload(st: State, path: Wire, buffered: Wire, socket: Wire, probe: Probe, ack: Ack): (o: Outcome)
    ensures o.state.nodes == UpdateNodeStatus(st.nodes, probe)
    ensures o.streamed == []
    ensures |AliveIds(o.state.nodes)| == 0 ==> o.reply == NO_NODES && o.calls == []
    ensures IsError(o.reply) ==> o.state.files == st.files
    ensures !IsError(o.reply) ==> ReceiveUpload(buffered, socket).Payload?
  {
    Upload(st.(nodes := UpdateNodeStatus(st.nodes, probe)), path, ReceiveUpload(buffered, socket), ack)
  }

  /** A failed receive leaves the table alone and, once some node is alive, is the reply. */
  lemma HandleUploadReceiveFailed(st: State, path: Wire, buffered: Wire, socket: Wire, probe: Probe, ack: Ack)
    requires ReceiveUpload(buffered, socket).Failed?
    ensures var o := HandleUpload(st, path, buffered, socket, probe, ack);
      && o.state.files == st.files
      && (|AliveIds(o.state.nodes)| > 0 ==> o.reply == ReceiveUpload(buffered, socket).error && o.calls == [])
  {
  }

  /** A received payload goes on to the fan-out, after the liveness refresh. */
  lemma HandleUploadReceived(st: State, path: Wire, buffered: Wire, socket: Wire, probe: Probe, ack: Ack, data: Wire)
    requires ReceiveUpload(buffered, socket) == Payload(data)
    ensures HandleUpload(st, path, buffered, socket, probe, ack) ==
      Upload(st.(nodes := UpdateNodeStatus(st.nodes, probe)), path, Payload(data), ack)
  {
  }

  /** The replicas a fan-out commits are exactly the targets that acknowledged this payload. */
  lemma StoreEverywhereReplicas(st: State, path: Wire, available: seq<NodeId>, data: Wire, ack: Ack, id: NodeId)
    requires !IsError(StoreEverywhere(st, path, available, data, ack).reply)
    ensures var o := StoreEverywhere(st, path, available, data, ack);
      id in o.state.files[path].nodeIds <==> id in available && ack(Store(id, path, |data|, Checksum32(data), data))
  {
    AcknowledgedStores(available, path, data, Checksum32(data), ack, id);
  }

  /**
   * A committed upload offered the payload to every alive node in ascending
   * order, records exactly the alive nodes that acknowledged it, with the
   * checksum of the payload (its plain byte sum, since the payload is within
   * the size cap), and names them in the reply.
   */
  lemma UploadCommitsPayload(st: State, path: Wire, received: Received, ack: Ack, id: NodeId)
    requires WellFormed(received)
    requires !IsError(Upload(st, path, received, ack).reply)
    ensures var o := Upload(st, path, received, ack);
      && received.Payload?
      && o.calls == StoreCalls(AliveIds(st.nodes), path, received.data, Sum(received.data))
      && o.state.files == st.files[path := FileEntry(path, o.state.files[path].nodeIds, Sum(received.data))]
      && o.reply == StoredReply(o.state.files[path].nodeIds)
      && o.state.files[path].nodeIds != []
      && (id in o.state.files[path].nodeIds <==>
            Alive(st.nodes, id) && ack(Store(id, path, |received.data|, Sum(received.data), received.data)))
  {
    var data := received.data;
    var available := AliveIds(st.nodes);
    assert Upload(st, path, received, ack) == StoreEverywhere(st, path, available, data, ack);
    StoreEverywhereReplicas(st, path, available, data, ack, id);
  }

  /** The fan-out keeps the table invariants: the new entry lists registered nodes, ascending. */
  lemma StoreEverywherePreservesValid(st: State, path: Wire, available: seq<NodeId>, data: Wire, ack: Ack)
    requires Valid(st)
    requires StrictlyAscending(available)
    requires forall i :: 0 <= i < |available| ==> available[i] in st.nodes
    requires |data| <= MAX_FILE_SIZE
    ensures Valid(StoreEverywhere(st, path, available, data, ack).state)
  {
    var o := StoreEverywhere(st, path, available, data, ack);
    if !IsError(o.reply) {
      var e := o.state.files[path];
      var calls := StoreCalls(available, path, data, Checksum32(data));
      AcknowledgedAscending(calls, ack);
      forall i | 0 <= i < |e.nodeIds|
        ensures e.nodeIds[i] in o.state.nodes
      {
        assert e.nodeIds[i] in e.nodeIds;
        AcknowledgedStores(available, path, data, Checksum32(data), ack, e.nodeIds[i]);
      }
      assert EntryValid(o.state.nodes, path, e);
      forall p | p in o.state.files && p != path
        ensures EntryValid(o.state.nodes, p, o.state.files[p])
      {
        assert EntryValid(st.nodes, p, st.files[p]);
      }
    }
  }

  lemma UploadPreservesValid(st: State, path: Wire, received: Received, ack: Ack)
    requires WellFormed(received)
    requires Valid(st)
    ensures Valid(Upload(st, path, received, ack).state)
  {
    var o := Upload(st, path, received, ack);
    if !IsError(o.reply) {
      var available := AliveIds(st.nodes);
      assert o == StoreEverywhere(st, path, available, received.data, ack);
      forall i | 0 <= i < |available|
        ensures available[i] in st.nodes
      {
        assert available[i] in available;
      }
      StoreEverywherePreservesValid(st, path, available, received.data, ack);
    }
  }

  /** The liveness refresh keeps the invariants, and so does the whole upload. */
  lemma HandleUploadPreservesValid(st: State, path: Wire, buffered: Wire, socket: Wire, probe: Probe, ack: Ack)
    requires Valid(st)
    ensures Valid(HandleUpload(st, path, buffered, socket, probe, ack).state)
  {
    var st1 := st.(nodes := UpdateNodeStatus(st.nodes, probe));
    forall p | p in st1.files
      ensures EntryValid(st1.nodes, p, st1.files[p])
    {
      assert EntryValid(st.nodes, p, st.files[p]);
    }
    UploadPreservesValid(st1, path, ReceiveUpload(buffered, socket), ack);
  }

  // ---------------------------------------------------------------- DOWNLOAD

  /** The index of the first replica whose cached verdict is alive. */
  function FirstAlive(ids: seq<NodeId>, nodes: Registry): (r: Option<nat>)
    ensures r.Some? ==> r.value < |ids| && Alive(nodes, ids[r.value])
    ensures r.Some? ==> forall i :: 0 <= i < r.value ==> !Alive(nodes, ids[i])
    ensures r.None? ==> forall i :: 0 <= i < |ids| ==> !Alive(nodes, ids[i])
  {
    if |ids| == 0 then None
    else if Alive(nodes, ids[0]) then Some(0)
    else match FirstAlive(ids[1..], nodes)
      case None => None
      case Some(k) => Some(k + 1)
  }

  const RECOVERED_ON: Wire := " failed, recovered using replica on Node "

  /** The degraded-mode notice, present only when a later replica serves the read. */
  function RecoveryNotice(ids: seq<NodeId>, chosen: nat): (r: Wire)
    requires chosen < |ids|
    ensures r == [] <==> chosen == 0
  {
    if chosen == 0 then []
    else NODE_WORD + IntToString(ids[0]) + RECOVERED_ON + IntToString(ids[chosen]) + [NEWLINE]
  }

  const NODE_WORD: Wire := "Node "
  const OK_WORD: Wire := "OK "

  /** The header in front of a served file: its size and its checksum. */
  function OkLine(size: nat, checksum: nat): (r: Wire)
    ensures StartsWith(r, OK_WORD)
  {
    var fields := NatToString(size) + [' '] + NatToString(checksum) + [NEWLINE];
    PrefixThen(OK_WORD, fields);
    OK_WORD + fields
  }

  const NOT_FOUND: Wire := Error("File not found")
  const ALL_DOWN: Wire := Error("All nodes down")
  const CANNOT_CONNECT: Wire := Error("Cannot connect to node")
  const SEND_FAILED: Wire := Error("Failed to send request")
  const NO_CHECKSUM: Wire := Error("Failed to receive checksum")
  const MISMATCH: Wire := Error("Checksum mismatch")
  const SUCCESS: Wire := "SUCCESS"

  /**
   * What `handleDownload` makes of the chosen node's answer to its GET:
   * either the bytes to stream or the error.
   */
  function ServeFetch(f: Fetch): (r: Received)
    ensures r.Payload? <==> f.Fetched? && f.size > 0 && |f.data| >= f.size && Checksum32(f.data[..f.size]) == f.checksum
    ensures r.Payload? ==> r.data == f.data[..f.size]
    ensures f.Fetched? && f.size > 0 && |f.data| >= f.size && Checksum32(f.data[..f.size]) != f.checksum ==>
      r == Failed(MISMATCH)
    ensures (f.ChecksumMissing? || f.Fetched?) && f.size <= 0 ==> r == Failed(BAD_SIZE)
    ensures r.Failed? ==> IsError(r.error)
  {
    match f
    case ConnectFailed => Failed(CANNOT_CONNECT)
    case RequestFailed => Failed(SEND_FAILED)
    case SizeMissing => Failed(NO_SIZE)
    case ChecksumMissing(size) =>
      if size <= 0 then Failed(BAD_SIZE) else Failed(NO_CHECKSUM)
    case Fetched(size, checksum, data) =>
      if size <= 0 then Failed(BAD_SIZE)
      else if |data| < size then Failed(SHORT_BODY)
      else if Checksum32(data[..size]) != checksum then Failed(MISMATCH)
      else Payload(data[..size])
  }

  /**
   * `handleDownload`: the first replica whose cached verdict is alive is
   * the only one asked; a failure talking to it is final.
   */
  function HandleDownload(st: State, path: Wire, probe: Probe, fetch: FetchFrom): (o: Outcome)
    ensures o.state == st.(nodes := UpdateNodeStatus(st.nodes, probe))
    ensures path !in st.files ==> o.reply == NOT_FOUND && o.calls == []
    ensures o.reply != SUCCESS ==> o.streamed == [] && IsError(o.reply)
    ensures |o.calls| <= 1
    ensures path in st.files && FirstAlive(st.files[path].nodeIds, o.state.nodes).None? ==>
      o.reply == ALL_DOWN && o.calls == []
    ensures path in st.files && FirstAlive(st.files[path].nodeIds, o.state.nodes).Some? ==>
      var ids := st.files[path].nodeIds;
      var i := FirstAlive(ids, o.state.nodes).value;
      var f := ServeFetch(fetch(ids[i]));
      && o.calls == [Get(ids[i], path)]
      && (f.Failed? ==> o.reply == f.error)
      && (f.Payload? ==> o.reply == SUCCESS && o.streamed == RecoveryNotice(ids, i) + OkLine(|f.data|, Checksum32(f.data)) + f.data)
    ensures o.calls != [] ==> (path in st.files &&
      var ids := st.files[path].nodeIds;
      var i := FirstAlive(ids, o.state.nodes);
      i.Some? && o.calls == [Get(ids[i.value], path)])
    ensures o.reply == SUCCESS ==> (path in st.files &&
      var ids := st.files[path].nodeIds;
      FirstAlive(ids, o.state.nodes).Some? &&
      var i := FirstAlive(ids, o.state.nodes).value;
      var f := fetch(ids[i]);
      && f.Fetched? && 0 < f.size <= |f.data|
      && Checksum32(f.data[..f.size]) == f.checksum
      && o.streamed == RecoveryNotice(ids, i) + OkLine(f.size, f.checksum) + f.data[..f.size])
  {
    var nodes := UpdateNodeStatus(st.nodes, probe);
    var st1 := st.(nodes := nodes);
    NotErrorByFirst(SUCCESS);
    if path !in st.files then Outcome(st1, NOT_FOUND, [], [])
    else
      var ids := st.files[path].nodeIds;
      match FirstAlive(ids, nodes)
      case None => Outcome(st1, ALL_DOWN, [], [])
      case Some(i) =>
        var chosen := ids[i];
        match ServeFetch(fetch(chosen))
        case Failed(error) => Outcome(st1, error, [], [Get(chosen, path)])
        case Payload(data) =>
          Outcome(st1, SUCCESS, RecoveryNotice(ids, i) + OkLine(|data|, Checksum32(data)) + data, [Get(chosen, path)])
  }

  /** Downloads change nothing but the liveness verdicts, so they keep the invariants. */
  lemma DownloadPreservesValid(st: State, path: Wire, probe: Probe, fetch: FetchFrom)
    requires Valid(st)
    ensures Valid(HandleDownload(st, path, probe, fetch).state)
  {
  }

  /** A replica that answers with the size, the byte sum and the bytes of `data` yields exactly `data`. */
  lemma ServeFetchIntact(data: Wire)
    requires 0 < |data| <= MAX_FILE_SIZE
    ensures ServeFetch(Fetched(|data|, Sum(data), data)) == Payload(data)
  {
    assert data[..|data|] == data;
  }

  /**
   * A stored path whose replicas all serve `data` back intact, one of them
   * alive, is read from the first replica alive after the refresh: the
   * client gets the failover notice when that is not the first replica,
   * then the header and exactly `data`.
   */
  lemma DownloadOfStored(st: State, path: Wire, data: Wire, probe: Probe, fetch: FetchFrom)
    requires path in st.files && 0 < |data| <= MAX_FILE_SIZE
    requires var ids := st.files[path].nodeIds;
      && (exists k :: 0 <= k < |ids| && IsNodeAlive(st.nodes, ids[k], probe))
      && (forall k :: 0 <= k < |ids| ==> fetch(ids[k]) == Fetched(|data|, Sum(data), data))
    ensures var ids := st.files[path].nodeIds;
      var i := FirstAlive(ids, UpdateNodeStatus(st.nodes, probe));
      var down := HandleDownload(st, path, probe, fetch);
      && i.Some?
      && IsNodeAlive(st.nodes, ids[i.value], probe)
      && (forall k :: 0 <= k < i.value ==> !IsNodeAlive(st.nodes, ids[k], probe))
      && down.reply == SUCCESS
      && down.calls == [Get(ids[i.value], path)]
      && down.streamed == RecoveryNotice(ids, i.value) + OkLine(|data|, Sum(data)) + data
      && (IsNodeAlive(st.nodes, ids[0], probe) ==> down.streamed == OkLine(|data|, Sum(data)) + data)
  {
    var ids := st.files[path].nodeIds;
    var k :| 0 <= k < |ids| && IsNodeAlive(st.nodes, ids[k], probe);
    FirstAliveAfterRefresh(st.nodes, probe, ids, k);
    var i := FirstAlive(ids, UpdateNodeStatus(st.nodes, probe)).value;
    ServeFetchIntact(data);
    assert ServeFetch(fetch(ids[i])) == Payload(data);
    if i == 0 {
      NoNotice(RecoveryNotice(ids, i), OkLine(|data|, Sum(data)), data);
    }
  }

  /** Without a failover notice the client gets the header and the bytes alone. */
  lemma NoNotice(notice: Wire, header: Wire, data: Wire)
    requires notice == []
    ensures notice + header + data == header + data
  {
    assert notice + header == header;
  }

  /**
   * The refresh makes the cached verdicts the probe's, so the replica read
   * is the first one the probe finds alive, and the first replica when it is.
   */
  lemma FirstAliveAfterRefresh(reg: Registry, probe: Probe, ids: seq<NodeId>, k: nat)
    requires k < |ids| && IsNodeAlive(reg, ids[k], probe)
    ensures var i := FirstAlive(ids, UpdateNodeStatus(reg, probe));
      && i.Some?
      && IsNodeAlive(reg, ids[i.value], probe)
      && (forall j :: 0 <= j < i.value ==> !IsNodeAlive(reg, ids[j], probe))
      && (IsNodeAlive(reg, ids[0], probe) ==> i.value == 0)
  {
    var nodes := UpdateNodeStatus(reg, probe);
    AliveAfterUpdate(reg, probe, ids[k]);
    var i := FirstAlive(ids, nodes).value;
    AliveAfterUpdate(reg, probe, ids[i]);
    AliveAfterUpdate(reg, probe, ids[0]);
    forall j | 0 <= j < i
      ensures !IsNodeAlive(reg, ids[j], probe)
    {
      AliveAfterUpdate(reg, probe, ids[j]);
    }
  }

  /**
   * An upload followed by a download: when the payload is non-empty (the
   * only kind `ReceiveUpload` yields), some replica the upload committed is
   * alive at the download and every one of them serves the payload back
   * intact, the client gets SUCCESS and exactly the uploaded
   * bytes, behind the header and, when the first replica is down, the
   * failover notice.
   */
  lemma UploadThenDownload(st: State, path: Wire, received: Received, ack: Ack, probe: Probe, fetch: FetchFrom)
    requires WellFormed(received)
    requires !IsError(Upload(st, path, received, ack).reply)
    requires |received.data| > 0
    requires var ids := Upload(st, path, received, ack).state.files[path].nodeIds;
      && (exists k :: 0 <= k < |ids| && IsNodeAlive(st.nodes, ids[k], probe))
      && (forall k :: 0 <= k < |ids| ==> fetch(ids[k]) == Fetched(|received.data|, Sum(received.data), received.data))
    ensures var data := received.data;
      var up := Upload(st, path, received, ack);
      var ids := up.state.files[path].nodeIds;
      var i := FirstAlive(ids, UpdateNodeStatus(st.nodes, probe));
      var down := HandleDownload(up.state, path, probe, fetch);
      && i.Some?
      && down.reply == SUCCESS
      && down.streamed == RecoveryNotice(ids, i.value) + OkLine(|data|, Sum(data)) + data
      && (IsNodeAlive(st.nodes, ids[0], probe) ==> down.streamed == OkLine(|data|, Sum(data)) + data)
  {
    var up := Upload(st, path, received, ack);
    var data := received.data;
    assert up == StoreEverywhere(st, path, AliveIds(st.nodes), data, ack);
    assert up.state.nodes == st.nodes && path in up.state.files;
    var ids := up.state.files[path].nodeIds;
    var k :| 0 <= k < |ids| && IsNodeAlive(st.nodes, ids[k], probe);
    assert IsNodeAlive(up.state.nodes, ids[k], probe);
    assert 0 < |data| <= MAX_FILE_SIZE;
    DownloadOfStored(up.state, path, data, probe, fetch);
  }

  // -------------------------------------------------------------------- LIST

  /** Each path followed by a newline. */
  function Lines(paths: seq<Wire>): Wire {
    if |paths| == 0 then [] else paths[0] + [NEWLINE] + Lines(paths[1..])
  }

  const NO_FILES: Wire := "No files stored\n"

  /**
   * `handleList` (both variants) for a table whose keys are `paths`: every
   * path followed by a newline, in `std::string` order, or a fixed notice
   * when the listing would be empty.
   */
  ghost function Listing(paths: set<Wire>): (r: Wire)
    ensures |paths| == 0 ==> r == NO_FILES
    ensures |paths| > 0 ==> r == Lines(Ordering.Lexicographic(paths))
  {
    var listing := Lines(Ordering.Lexicographic(paths));
    LinesLength(Ordering.Lexicographic(paths));
    if |listing| == 0 then NO_FILES else listing
  }

  lemma {:induction false} LinesLength(paths: seq<Wire>)
    ensures |Lines(paths)| >= |paths|
  {
    if |paths| > 0 {
      LinesLength(paths[1..]);
    }
  }

  /** How a client reads a listing: line by line, a last unterminated line included. */
  function SplitLines(s: Wire): (r: seq<Wire>)
    decreases |s|
  {
    match SplitLine(s)
    case None => if |s| == 0 then [] else [s]
    case Some((line, rest)) => [line] + SplitLines(rest)
  }

  /** Paths without a newline are read back one per line, in order. */
  lemma {:induction false} LinesRoundTrip(paths: seq<Wire>)
    requires forall i :: 0 <= i < |paths| ==> NEWLINE !in paths[i]
    ensures SplitLines(Lines(paths)) == paths
  {
    if |paths| > 0 {
      var tail := paths[1..];
      assert Lines(paths) == paths[0] + [NEWLINE] + Lines(tail);
      SplitLineOf(paths[0], Lines(tail));
      LinesRoundTrip(tail);
      assert paths == [paths[0]] + tail;
    }
  }

  /**
   * A non-empty table lists every stored path exactly once, in ascending
   * order, as a reader splitting the reply into lines sees it.
   */
  lemma ListingNamesEveryFile(paths: set<Wire>)
    requires |paths| > 0
    requires forall p :: p in paths ==> NEWLINE !in p
    ensures SplitLines(Listing(paths)) == Ordering.Lexicographic(paths)
    ensures forall p :: p in SplitLines(Listing(paths)) <==> p in paths
  {
    var sorted := Ordering.Lexicographic(paths);
    forall i | 0 <= i < |sorted|
      ensures NEWLINE !in sorted[i]
    {
      assert sorted[i] in sorted;
    }
    LinesRoundTrip(sorted);
  }

  // ------------------------------------------------------------------ DELETE

  /** The removes a delete issues: one per replica whose cached verdict is alive, in list order. */
  function RemoveCalls(ids: seq<NodeId>, nodes: Registry, path: Wire): (calls: seq<Call>)
    ensures forall c :: c in calls ==> c.Remove? && c.path == path && c.node in ids && Alive(nodes, c.node)
    ensures forall id :: id in ids && Alive(nodes, id) ==> Remove(id, path) in calls
  {
    if |ids| == 0 then []
    else
      var rest := RemoveCalls(ids[1..], nodes, path);
      if Alive(nodes, ids[0]) then [Remove(ids[0], path)] + rest else rest
  }

  const DELETE_NONE: Wire := Error("Failed to delete from any node")
  const DELETED: Wire := "DELETED"

  /**
   * `handleDelete`: remove from every alive replica; forget the entry iff
   * at least one remove acknowledged.
   */
  function HandleDelete(st: State, path: Wire, probe: Probe, ack: Ack): (o: Outcome)
    ensures o.state.nodes == UpdateNodeStatus(st.nodes, probe)
    ensures o.streamed == []
    ensures path !in st.files ==> o.reply == NOT_FOUND && o.state.files == st.files && o.calls == []
    ensures path in st.files ==> o.calls == RemoveCalls(st.files[path].nodeIds, o.state.nodes, path)
    ensures o.reply == DELETED <==> path in st.files && exists c :: c in o.calls && ack(c)
    ensures o.reply == DELETED ==> o.state.files == st.files - {path}
    ensures o.reply != DELETED ==> o.state.files == st.files
  {
    var nodes := UpdateNodeStatus(st.nodes, probe);
    var st1 := st.(nodes := nodes);
    if path !in st.files then Outcome(st1, NOT_FOUND, [], [])
    else
      var calls := RemoveCalls(st.files[path].nodeIds, nodes, path);
      AcknowledgedNone(calls, ack);
      if |Acknowledged(calls, ack)| == 0 then Outcome(st1, DELETE_NONE, [], calls)
      else Outcome(st1.(files := st.files - {path}), DELETED, [], calls)
  }

  /** Deletes keep the invariants. */
  lemma DeletePreservesValid(st: State, path: Wire, probe: Probe, ack: Ack)
    requires Valid(st)
    ensures Valid(HandleDelete(st, path, probe, ack).state)
  {
  }

  /** A delete that succeeded cannot succeed again: the second one finds nothing. */
  lemma DeleteTwice(st: State, path: Wire, probe: Probe, ack: Ack, probe2: Probe, ack2: Ack)
    requires HandleDelete(st, path, probe, ack).reply == DELETED
    ensures HandleDelete(HandleDelete(st, path, probe, ack).state, path, probe2, ack2).reply == NOT_FOUND
  {
  }
}

=== FILE: coordinator_main.dfy ===
/**
 * The accept loop of the Windows coordinator (coordinator/coordinator.cpp,
 * `main`): one receive of at most 4095 bytes, converted to a C string, is
 * routed by the command name it starts with.
 *
 * Two places where the loop as written loses information are modelled both
 * ways: `DownloadOutputAsWritten` / `DownloadOutput` and
 * `UploadRemainderAsWritten` / `UploadRemainder`.  `Serve` takes the build
 * it follows: `Serve(AsWritten, ...)` is `main` as the source has it.
 */
module CoordinatorMain {
  import opened Bytes
  import opened Checksum
  import opened Decimal
  import opened Registry
  import opened Rpc
  import opened Coordinator
  import Tokens

  /** The command names a request may start with. */
  const REGISTER_WORD: Wire := "REGISTER"
  const UPLOAD_WORD: Wire := "UPLOAD"
  const DOWNLOAD_WORD: Wire := "DOWNLOAD"
  const LIST_WORD: Wire := "LIST"
  const DELETE_WORD: Wire := "DELETE"

  /** The handler a request reaches. */
  datatype Route = ToRegister | ToUpload | ToDownload | ToList | ToDelete | Unknown

  /** `cmd.find("<NAME>") == 0`, tried in the order of the source. */
  function RouteOf(cmd: Wire): (r: Route)
    ensures r == ToRegister ==> StartsWith(cmd, REGISTER_WORD)
    ensures r == ToUpload ==> StartsWith(cmd, UPLOAD_WORD)
    ensures r == ToDownload ==> StartsWith(cmd, DOWNLOAD_WORD)
    ensures r == ToList ==> StartsWith(cmd, LIST_WORD)
    ensures r == ToDelete ==> StartsWith(cmd, DELETE_WORD)
    ensures r == Unknown <==>
      !StartsWith(cmd, REGISTER_WORD) && !StartsWith(cmd, UPLOAD_WORD) && !StartsWith(cmd, DOWNLOAD_WORD)
      && !StartsWith(cmd, LIST_WORD) && !StartsWith(cmd, DELETE_WORD)
  {
    if StartsWith(cmd, REGISTER_WORD) then ToRegister
    else if StartsWith(cmd, UPLOAD_WORD) then ToUpload
    else if StartsWith(cmd, DOWNLOAD_WORD) then ToDownload
    else if StartsWith(cmd, LIST_WORD) then ToList
    else if StartsWith(cmd, DELETE_WORD) then ToDelete
    else Unknown
  }

  /**
   * No command name is a prefix of another, so the order of the tests does
   * not matter: a request that starts with a name reaches that name's handler.
   */
  lemma RouteOfCommand(rest: Wire)
    ensures RouteOf(REGISTER_WORD + rest) == ToRegister
    ensures RouteOf(UPLOAD_WORD + rest) == ToUpload
    ensures RouteOf(DOWNLOAD_WORD + rest) == ToDownload
    ensures RouteOf(LIST_WORD + rest) == ToList
    ensures RouteOf(DELETE_WORD + rest) == ToDelete
  {
    assert (REGISTER_WORD + rest)[..8] == REGISTER_WORD;
    assert (UPLOAD_WORD + rest)[0] == 'U' && (UPLOAD_WORD + rest)[..6] == UPLOAD_WORD;
    assert (DOWNLOAD_WORD + rest)[0] == 'D' && (DOWNLOAD_WORD + rest)[1] == 'O' && (DOWNLOAD_WORD + rest)[..8] == DOWNLOAD_WORD;
    assert (LIST_WORD + rest)[0] == 'L' && (LIST_WORD + rest)[..4] == LIST_WORD;
    assert (DELETE_WORD + rest)[0] == 'D' && (DELETE_WORD + rest)[1] == 'E' && (DELETE_WORD + rest)[..6] == DELETE_WORD;
  }

  // ------------------------------------------------------------ upload framing

  /**
   * The UPLOAD branch of `main` as written: the bytes after the first newline of the
   * C string.  Everything from the first NUL byte of the request on is gone.
   */
  function UploadRemainderAsWritten(buffer: Wire): (r: Wire)
    ensures NUL !in r
  {
    var cmd := TakeUntilNul(buffer);
    match Find(cmd, NEWLINE)
    case None => []
    case Some(k) => cmd[k + 1..]
  }

  /**
   * The evidently intended remainder: every received byte after the first
   * newline of the request line, as the node's own STORE framing takes
   * them.
   */
  function UploadRemainder(buffer: Wire): (r: Wire)
    ensures NEWLINE in TakeUntilNul(buffer) ==>
      exists k :: 0 <= k < |buffer| && buffer == buffer[..k] + [NEWLINE] + r && NEWLINE !in buffer[..k]
    ensures NEWLINE !in TakeUntilNul(buffer) ==> r == []
  {
    var cmd := TakeUntilNul(buffer);
    match Find(cmd, NEWLINE)
    case None => []
    case Some(k) =>
      assert buffer[..k] == cmd[..k];
      assert buffer == buffer[..k] + [NEWLINE] + buffer[k + 1..];
      buffer[k + 1..]
  }

  /** The request line followed by the remainder is exactly what was received. */
  lemma UploadRemainderLosesNothing(line: Wire, rest: Wire)
    requires NUL !in line && NEWLINE !in line
    ensures UploadRemainder(line + [NEWLINE] + rest) == rest
  {
    CommandLineSplits(line, rest);
  }

  // ---------------------------------------------------------- download output

  /**
   * The DOWNLOAD branch of `main` as written in both variants: the string `handleDownload`
   * returns is dropped, so only the bytes it streamed itself reach the client.
   */
  function DownloadOutputAsWritten(reply: Wire, streamed: Wire): (r: Wire)
    ensures reply != SUCCESS && streamed == [] ==> r == []
  {
    streamed
  }

  /** The evidently intended output: a failed download reports its error like every other command. */
  function DownloadOutput(reply: Wire, streamed: Wire): (r: Wire)
    ensures reply == SUCCESS ==> r == streamed
    ensures reply != SUCCESS ==> r == streamed + reply
  {
    if reply == SUCCESS then streamed else streamed + reply
  }

  // ------------------------------------------------------------------ dispatch

  /**
   * Everything a request depends on beyond the coordinator's state: the
   * liveness probe, every byte the client sends after its first receive
   * (an upload reads its size line and payload from them), and the answers
   * of the nodes.
   */
  datatype Env = Env(probe: Probe, socket: Wire, ack: Ack, fetch: FetchFrom)

  /** The next state, every byte sent to the client, and the node calls made. */
  datatype Served = Served(state: State, output: Wire, calls: seq<Call>)

  const UNKNOWN: Wire := Error("Unknown command")

  /**
   * One iteration of the accept loop in the given build.  `received` is
   * what the single `recv` returned; an empty receive closes the connection
   * untouched.  As written, the upload remainder is cut at the first NUL
   * and a download's returned string is dropped.
   */
  ghost function Serve(build: Build, st: State, received: Wire, env: Env): (s: Served)
    ensures |received| == 0 ==> s == Served(st, [], [])
    ensures RouteOf(TakeUntilNul(received)) == Unknown && |received| > 0 ==>
      s == Served(st, UNKNOWN, [])
    ensures RouteOf(TakeUntilNul(received)) == ToList ==> s.state == st && s.calls == []
    ensures RouteOf(TakeUntilNul(received)) == ToList && |received| > 0 ==>
      s == Served(st, Listing(st.files.Keys), [])
    ensures RouteOf(TakeUntilNul(received)) == ToDelete && |received| > 0 ==>
      var o := HandleDelete(st, Tokens.WordAt(TakeUntilNul(received), 1), env.probe, env.ack);
      s == Served(o.state, o.reply, o.calls)
    ensures RouteOf(TakeUntilNul(received)) in {ToUpload, ToDownload, ToDelete} ==>
      s.state.nodes == UpdateNodeStatus(st.nodes, env.probe)
    ensures RouteOf(TakeUntilNul(received)) == ToDownload ==> s.state.files == st.files
  {
    if |received| == 0 then Served(st, [], [])
    else
      var cmd := TakeUntilNul(received);
      var path := Tokens.WordAt(cmd, 1);
      match RouteOf(cmd)
      case ToRegister =>
        var o := HandleRegister(st, Atoi(Tokens.WordAt(cmd, 1)), ReadULong32(Tokens.WordAt(cmd, 2)));
        Served(o.state, o.reply, o.calls)
      case ToUpload =>
        var remainder := if build == AsWritten then UploadRemainderAsWritten(received) else UploadRemainder(received);
        var o := HandleUpload(st, path, remainder, env.socket, env.probe, env.ack);
        Served(o.state, o.reply, o.calls)
      case ToDownload =>
        var o := HandleDownload(st, path, env.probe, env.fetch);
        var output := if build == AsWritten then DownloadOutputAsWritten(o.reply, o.streamed)
                      else DownloadOutput(o.reply, o.streamed);
        Served(o.state, output, o.calls)
      case ToList => Served(st, Listing(st.files.Keys), [])
      case ToDelete =>
        var o := HandleDelete(st, path, env.probe, env.ack);
        Served(o.state, o.reply, o.calls)
      case Unknown => Served(st, UNKNOWN, [])
  }

  /** The line a node of either variant sends to register: "REGISTER <id> <pid>". */
  function RegisterLine(id: NodeId, pid: nat): Wire {
    Tokens.Unwords([REGISTER_WORD, IntToString(id), NatToString(pid)]) + [NEWLINE]
  }

  /** Printed numbers hold neither white space nor NUL. */
  lemma NumberIsWord(i: int)
    ensures Tokens.IsWord(IntToString(i)) && NUL !in IntToString(i)
  {
    var s := IntToString(i);
    var digits := NatToString(if i < 0 then -i else i);
    assert forall k :: 0 <= k < |digits| ==> IsDigit(digits[k]);
    if i < 0 {
      assert s == "-" + digits;
      assert forall k :: 1 <= k < |s| ==> s[k] == digits[k - 1];
    }
    IntToStringIsWord(i);
  }

  /** The three words of a registration line, each a word without NUL. */
  lemma RegisterWords(id: NodeId, pid: nat)
    ensures var ws := [REGISTER_WORD, IntToString(id), NatToString(pid)];
      forall k :: 0 <= k < |ws| ==> Tokens.IsWord(ws[k]) && NUL !in ws[k]
  {
    NumberIsWord(id);
    NumberIsWord(pid);
    assert IntToString(pid) == NatToString(pid);
    assert REGISTER_WORD[0] == 'R';
    assert Tokens.IsWord(REGISTER_WORD) && NUL !in REGISTER_WORD;
  }

  /** A registration line arrives whole: it holds no NUL. */
  lemma RegisterLineWhole(id: NodeId, pid: nat)
    ensures TakeUntilNul(RegisterLine(id, pid)) == RegisterLine(id, pid)
  {
    var ws := [REGISTER_WORD, IntToString(id), NatToString(pid)];
    var line := RegisterLine(id, pid);
    RegisterWords(id, pid);
    Tokens.UnwordsExcludes(ws, NUL);
    assert NUL !in line;
    TakeUntilNulUnique(line, line);
  }

  /** A registration line splits into the command name, the id and the pid. */
  lemma RegisterLineWords(id: NodeId, pid: nat)
    ensures Tokens.Words(RegisterLine(id, pid)) == [REGISTER_WORD, IntToString(id), NatToString(pid)]
  {
    RegisterWords(id, pid);
    Tokens.WordsOfLine([REGISTER_WORD, IntToString(id), NatToString(pid)]);
  }

  /** A registration line routes to REGISTER. */
  lemma RegisterLineRoute(id: NodeId, pid: nat)
    ensures RouteOf(RegisterLine(id, pid)) == ToRegister
  {
    var ws := [REGISTER_WORD, IntToString(id), NatToString(pid)];
    var tail := [' '] + Tokens.Unwords(ws[1..]) + [NEWLINE];
    assert Tokens.Unwords(ws) == REGISTER_WORD + [' '] + Tokens.Unwords(ws[1..]);
    assert RegisterLine(id, pid) == REGISTER_WORD + tail;
    RouteOfCommand(tail);
  }

  /** A request routed to REGISTER takes the id and the pid from its second and third words. */
  lemma ServeRegisterRoute(build: Build, st: State, received: Wire, env: Env)
    requires |received| > 0 && RouteOf(TakeUntilNul(received)) == ToRegister
    ensures var cmd := TakeUntilNul(received);
      var o := HandleRegister(st, Atoi(Tokens.WordAt(cmd, 1)), ReadULong32(Tokens.WordAt(cmd, 2)));
      Serve(build, st, received, env) == Served(o.state, o.reply, o.calls)
  {
  }

  /** The second and third words of a registration line are the printed id and pid. */
  lemma RegisterLineFieldWords(id: NodeId, pid: nat)
    ensures var cmd := TakeUntilNul(RegisterLine(id, pid));
      Tokens.WordAt(cmd, 1) == IntToString(id) && Tokens.WordAt(cmd, 2) == NatToString(pid)
  {
    RegisterLineWhole(id, pid);
    RegisterLineWords(id, pid);
  }

  /** What `main` reads from a registration line: its route, the id and the pid. */
  lemma RegisterLineFields(id: NodeId, pid: nat)
    requires pid < ULONG32
    ensures var cmd := TakeUntilNul(RegisterLine(id, pid));
      && |RegisterLine(id, pid)| > 0
      && RouteOf(cmd) == ToRegister
      && Atoi(Tokens.WordAt(cmd, 1)) == id
      && ReadULong32(Tokens.WordAt(cmd, 2)) == pid
  {
    RegisterLineWhole(id, pid);
    RegisterLineRoute(id, pid);
    RegisterLineFieldWords(id, pid);
    IdReadsBack(id);
    PidReadsBack(pid);
  }

  /** The printed id reads back as itself. */
  lemma IdReadsBack(id: int)
    ensures Atoi(IntToString(id)) == id
  {
    var idText := IntToString(id);
    AtoiOfIntToString(id, []);
    assert idText + [] == idText;
  }

  /** The printed pid reads back as itself. */
  lemma PidReadsBack(pid: nat)
    requires pid < ULONG32
    ensures ReadULong32(NatToString(pid)) == pid
  {
    var pidText := NatToString(pid);
    ReadULongOfNatToString(pid, []);
    assert pidText + [] == pidText;
  }

  /**
   * A node's registration line enrols that node, with the pid it sent, and
   * the acknowledgement names it.
   */
  lemma ServeRegisterLine(build: Build, st: State, id: NodeId, pid: nat, env: Env)
    requires pid < ULONG32
    ensures Serve(build, st, RegisterLine(id, pid), env) ==
      Served(HandleRegister(st, id, pid).state, RegisteredReply(id), [])
  {
    RegisterLineFields(id, pid);
    ServeRegisterRoute(build, st, RegisterLine(id, pid), env);
  }

  /** The request line a client writes: a command name, a space, a path, a newline. */
  function RequestLine(name: Wire, path: Wire): Wire {
    name + [' '] + path + [NEWLINE]
  }

  /** A byte that occurs in neither word is not in the two words joined by a space. */
  lemma NotInJoined(c: byte, name: Wire, path: Wire)
    requires c !in name && c !in path && c != ' '
    ensures c !in name + [' '] + path
  {
    var j := name + [' '] + path;
    assert forall i :: |name| < i < |j| ==> j[i] == path[i - |name| - 1];
  }

  /** The path a client puts on its request line is the path the handler receives. */
  lemma RequestLineParses(name: Wire, path: Wire, rest: Wire)
    requires Tokens.IsWord(name) && Tokens.IsWord(path)
    requires NUL !in name && NUL !in path
    ensures TakeUntilNul(RequestLine(name, path) + rest) == RequestLine(name, path) + TakeUntilNul(rest)
    ensures Tokens.WordAt(TakeUntilNul(RequestLine(name, path) + rest), 1) == path
  {
    var line := RequestLine(name, path);
    NotInJoined(NUL, name, path);
    assert line == (name + [' '] + path) + [NEWLINE];
    TakeUntilNulSkip(line, rest);
    var tail := TakeUntilNul(rest);
    assert line + tail == name + [' '] + (path + [NEWLINE] + tail);
    Tokens.WordsCons(name, ' ', path + [NEWLINE] + tail);
    Tokens.WordsSkipSpace(' ', path + [NEWLINE] + tail);
    Tokens.WordsCons(path, NEWLINE, tail);
  }

  /** A request line and what follows it, regrouped around its space and its newline. */
  lemma RequestLineShape(name: Wire, path: Wire, tail: Wire)
    ensures RequestLine(name, path) + tail == name + ([' '] + path + [NEWLINE] + tail)
    ensures RequestLine(name, path) + tail == (name + [' '] + path) + [NEWLINE] + tail
  {
  }

  /** UPLOAD_WORD is a single word with neither NUL nor newline. */
  lemma UploadIsWord()
    ensures Tokens.IsWord(UPLOAD_WORD) && NUL !in UPLOAD_WORD && NEWLINE !in UPLOAD_WORD
  {
    assert forall i :: 0 <= i < |UPLOAD_WORD| ==> UPLOAD_WORD[i] in "UPLOAD";
  }

  /** The route and path `Serve` extracts from a well-formed upload request. */
  lemma UploadRequestRoute(path: Wire, rest: Wire)
    requires Tokens.IsWord(path) && NUL !in path
    ensures RouteOf(TakeUntilNul(RequestLine(UPLOAD_WORD, path) + rest)) == ToUpload
    ensures Tokens.WordAt(TakeUntilNul(RequestLine(UPLOAD_WORD, path) + rest), 1) == path
  {
    UploadIsWord();
    RequestLineParses(UPLOAD_WORD, path, rest);
    RequestLineShape(UPLOAD_WORD, path, TakeUntilNul(rest));
    RouteOfCommand([' '] + path + [NEWLINE] + TakeUntilNul(rest));
  }

  /** The remainder `Serve` hands to the upload handler is everything after the request line. */
  lemma UploadRequestRemainder(path: Wire, rest: Wire)
    requires Tokens.IsWord(path) && NUL !in path
    ensures UploadRemainder(RequestLine(UPLOAD_WORD, path) + rest) == rest
  {
    assert NEWLINE !in path by {
      assert forall i :: 0 <= i < |path| ==> !IsSpace(path[i]);
    }
    NotInJoined(NUL, UPLOAD_WORD, path);
    NotInJoined(NEWLINE, UPLOAD_WORD, path);
    assert RequestLine(UPLOAD_WORD, path) + rest == (UPLOAD_WORD + [' '] + path) + [NEWLINE] + rest;
    UploadRemainderLosesNothing(UPLOAD_WORD + [' '] + path, rest);
  }

  /**
   * A client's upload request reaches `handleUpload` with the path it named.
   * As written the handler gets the bytes after the request line up to the
   * first NUL; corrected, it gets all of them.
   */
  lemma ServeUploadRequest(build: Build, st: State, path: Wire, rest: Wire, env: Env)
    requires Tokens.IsWord(path) && NUL !in path
    ensures var s := Serve(build, st, RequestLine(UPLOAD_WORD, path) + rest, env);
      var remainder := if build == AsWritten then TakeUntilNul(rest) else rest;
      var o := HandleUpload(st, path, remainder, env.socket, env.probe, env.ack);
      s == Served(o.state, o.reply, o.calls)
  {
    UploadRequestRoute(path, rest);
    if build == AsWritten {
      RemainderAsWrittenOfRequest(path, rest);
    } else {
      UploadRequestRemainder(path, rest);
    }
  }

  /** A whole upload as the client sends it: request line, size line, payload. */
  function UploadRequest(path: Wire, sizeLine: Wire, payload: Wire): Wire {
    RequestLine(UPLOAD_WORD, path) + (sizeLine + [NEWLINE] + payload)
  }

  /**
   * As written, a whole upload that arrives in one receive and whose
   * payload holds a NUL byte fails: the handler's remainder ends before that
   * byte, so too few bytes arrive.  The table is left as it was.
   */
  lemma NulInPayloadIsLost(st: State, path: Wire, sizeLine: Wire, payload: Wire, env: Env)
    requires Tokens.IsWord(path) && NUL !in path
    requires NUL !in sizeLine && NEWLINE !in sizeLine && Atoi(sizeLine) == |payload| <= MAX_FILE_SIZE
    requires NUL in payload && env.socket == []
    ensures var s := Serve(AsWritten, st, UploadRequest(path, sizeLine, payload), env);
      && s.state.files == st.files
      && (|AliveIds(UpdateNodeStatus(st.nodes, env.probe))| > 0 ==> s.output == SHORT_BODY && s.calls == [])
  {
    var rest := sizeLine + [NEWLINE] + payload;
    PayloadCutAtNul(path, sizeLine, payload);
    ServeUploadFailed(AsWritten, st, path, rest, env);
  }

  /** An upload request whose receive fails leaves the table alone and, once some node is alive, reports the failure. */
  lemma ServeUploadFailed(build: Build, st: State, path: Wire, rest: Wire, env: Env)
    requires Tokens.IsWord(path) && NUL !in path
    requires ReceiveUpload(if build == AsWritten then TakeUntilNul(rest) else rest, env.socket).Failed?
    ensures var s := Serve(build, st, RequestLine(UPLOAD_WORD, path) + rest, env);
      var error := ReceiveUpload(if build == AsWritten then TakeUntilNul(rest) else rest, env.socket).error;
      && s.state.files == st.files
      && (|AliveIds(UpdateNodeStatus(st.nodes, env.probe))| > 0 ==> s.output == error && s.calls == [])
  {
    var remainder := if build == AsWritten then TakeUntilNul(rest) else rest;
    ServeUploadRequest(build, st, path, rest, env);
    HandleUploadReceiveFailed(st, path, remainder, env.socket, env.probe, env.ack);
  }

  /** The remainder as written, cut at the payload's NUL, is too short for the declared size. */
  lemma PayloadCutAtNul(path: Wire, sizeLine: Wire, payload: Wire)
    requires Tokens.IsWord(path) && NUL !in path
    requires NUL !in sizeLine && NEWLINE !in sizeLine && Atoi(sizeLine) == |payload| <= MAX_FILE_SIZE
    requires NUL in payload
    ensures ReceiveUpload(TakeUntilNul(sizeLine + [NEWLINE] + payload), []) == Failed(SHORT_BODY)
  {
    var head := sizeLine + [NEWLINE];
    assert sizeLine + [NEWLINE] + payload == head + payload;
    TakeUntilNulSkip(head, payload);
    var cut := TakeUntilNul(payload);
    assert |cut| < |payload| by {
      var k :| 0 <= k < |payload| && payload[k] == NUL;
      assert |cut| <= k;
    }
    assert head + cut == sizeLine + [NEWLINE] + cut;
    ReceiveUploadBuffered(sizeLine, cut, []);
  }

  /** As written, the handler's remainder is what follows the request line, cut at its first NUL. */
  lemma RemainderAsWrittenOfRequest(path: Wire, rest: Wire)
    requires Tokens.IsWord(path) && NUL !in path
    ensures UploadRemainderAsWritten(RequestLine(UPLOAD_WORD, path) + rest) == TakeUntilNul(rest)
  {
    UploadIsWord();
    RequestLineParses(UPLOAD_WORD, path, rest);
    assert NEWLINE !in path by {
      assert forall i :: 0 <= i < |path| ==> !IsSpace(path[i]);
    }
    NotInJoined(NEWLINE, UPLOAD_WORD, path);
    RequestLineShape(UPLOAD_WORD, path, TakeUntilNul(rest));
    FindAfter(UPLOAD_WORD + [' '] + path, NEWLINE, TakeUntilNul(rest));
  }

  /** Corrected, the same upload goes ahead with exactly the payload the client sent. */
  lemma NulInPayloadIsKept(st: State, path: Wire, sizeLine: Wire, payload: Wire, env: Env)
    requires Tokens.IsWord(path) && NUL !in path
    requires NEWLINE !in sizeLine && 0 < Atoi(sizeLine) == |payload| <= MAX_FILE_SIZE
    ensures var s := Serve(Corrected, st, UploadRequest(path, sizeLine, payload), env);
      var o := Upload(st.(nodes := UpdateNodeStatus(st.nodes, env.probe)), path, Payload(payload), env.ack);
      s == Served(o.state, o.reply, o.calls)
  {
    var rest := sizeLine + [NEWLINE] + payload;
    ServeUploadRequest(Corrected, st, path, rest, env);
    BufferedPayloadReceived(sizeLine, payload, env.socket);
    HandleUploadReceived(st, path, rest, env.socket, env.probe, env.ack, payload);
  }

  /** DOWNLOAD_WORD is a single word with no NUL. */
  lemma DownloadIsWord()
    ensures Tokens.IsWord(DOWNLOAD_WORD) && NUL !in DOWNLOAD_WORD
  {
    assert forall i :: 0 <= i < |DOWNLOAD_WORD| ==> DOWNLOAD_WORD[i] in "DOWNLOAD";
  }

  /** The route and path `Serve` extracts from a well-formed download request. */
  lemma DownloadRequestRoute(path: Wire, rest: Wire)
    requires Tokens.IsWord(path) && NUL !in path
    ensures RouteOf(TakeUntilNul(RequestLine(DOWNLOAD_WORD, path) + rest)) == ToDownload
    ensures Tokens.WordAt(TakeUntilNul(RequestLine(DOWNLOAD_WORD, path) + rest), 1) == path
  {
    DownloadIsWord();
    RequestLineParses(DOWNLOAD_WORD, path, rest);
    RequestLineShape(DOWNLOAD_WORD, path, TakeUntilNul(rest));
    RouteOfCommand([' '] + path + [NEWLINE] + TakeUntilNul(rest));
  }

  /** A download request reaches `handleDownload` with its path; the build decides what the client is sent. */
  lemma ServeDownloadRequest(build: Build, st: State, path: Wire, rest: Wire, env: Env)
    requires Tokens.IsWord(path) && NUL !in path
    ensures var s := Serve(build, st, RequestLine(DOWNLOAD_WORD, path) + rest, env);
      var o := HandleDownload(st, path, env.probe, env.fetch);
      var output := if build == AsWritten then DownloadOutputAsWritten(o.reply, o.streamed)
                    else DownloadOutput(o.reply, o.streamed);
      s == Served(o.state, output, o.calls)
  {
    DownloadRequestRoute(path, rest);
  }

  /** DELETE_WORD is a single word with no NUL. */
  lemma DeleteIsWord()
    ensures Tokens.IsWord(DELETE_WORD) && NUL !in DELETE_WORD
  {
    assert forall i :: 0 <= i < |DELETE_WORD| ==> DELETE_WORD[i] in "DELETE";
  }

  /** The route and path `Serve` extracts from a well-formed delete request. */
  lemma DeleteRequestRoute(path: Wire, rest: Wire)
    requires Tokens.IsWord(path) && NUL !in path
    ensures RouteOf(TakeUntilNul(RequestLine(DELETE_WORD, path) + rest)) == ToDelete
    ensures Tokens.WordAt(TakeUntilNul(RequestLine(DELETE_WORD, path) + rest), 1) == path
  {
    DeleteIsWord();
    RequestLineParses(DELETE_WORD, path, rest);
    RequestLineShape(DELETE_WORD, path, TakeUntilNul(rest));
    RouteOfCommand([' '] + path + [NEWLINE] + TakeUntilNul(rest));
  }

  /** A delete request reaches `handleDelete` with its path, and its reply is sent as it is. */
  lemma ServeDeleteRequest(build: Build, st: State, path: Wire, rest: Wire, env: Env)
    requires Tokens.IsWord(path) && NUL !in path
    ensures var s := Serve(build, st, RequestLine(DELETE_WORD, path) + rest, env);
      var o := HandleDelete(st, path, env.probe, env.ack);
      s == Served(o.state, o.reply, o.calls)
  {
    DeleteRequestRoute(path, rest);
  }

  /** A list request, whatever follows the name, is answered with the listing of every stored path and changes nothing. */
  lemma ServeListRequest(build: Build, st: State, rest: Wire, env: Env)
    ensures Serve(build, st, LIST_WORD + rest, env) == Served(st, Listing(st.files.Keys), [])
  {
    assert NUL !in LIST_WORD by {
      assert forall i :: 0 <= i < |LIST_WORD| ==> LIST_WORD[i] in "LIST";
    }
    TakeUntilNulSkip(LIST_WORD, rest);
    RouteOfCommand(TakeUntilNul(rest));
  }

  /** The corrected output of a handler that streams nothing when it fails is its error text alone. */
  lemma CorrectedOutput(reply: Wire, streamed: Wire)
    requires reply != SUCCESS ==> streamed == []
    ensures reply != SUCCESS ==> DownloadOutput(reply, streamed) == reply
    ensures reply == SUCCESS ==> DownloadOutput(reply, streamed) == streamed
  {
    assert [] + reply == reply;
  }

  /** As written, a download of an unknown path sends the client nothing at all. */
  lemma UnknownDownloadIsSilent(st: State, path: Wire, rest: Wire, env: Env)
    requires Tokens.IsWord(path) && NUL !in path
    requires path !in st.files
    ensures var s := Serve(AsWritten, st, RequestLine(DOWNLOAD_WORD, path) + rest, env);
      s.output == [] && s.state.files == st.files && s.calls == []
  {
    ServeDownloadRequest(AsWritten, st, path, rest, env);
  }

  /**
   * Corrected, a failed download sends the client exactly its error text,
   * and a successful one exactly the bytes the handler streamed.
   */
  lemma DownloadErrorReported(st: State, path: Wire, rest: Wire, env: Env)
    requires Tokens.IsWord(path) && NUL !in path
    ensures var s := Serve(Corrected, st, RequestLine(DOWNLOAD_WORD, path) + rest, env);
      var o := HandleDownload(st, path, env.probe, env.fetch);
      && (o.reply != SUCCESS ==> s.output == o.reply && IsError(s.output))
      && (o.reply == SUCCESS ==> s.output == o.streamed)
  {
    var o := HandleDownload(st, path, env.probe, env.fetch);
    ServeDownloadRequest(Corrected, st, path, rest, env);
    CorrectedOutput(o.reply, o.streamed);
  }
}

=== FILE: decimal.dfy ===
/**
 * Decimal text as the programs produce it with `std::to_string` and read it
 * back with `atoi` and stream extraction.
 */
module Decimal {
  import opened Bytes

  function DigitChar(d: nat): (c: byte)
    requires d < 10
    ensures IsDigit(c)
  {
    (('0' as int) + d) as char
  }

  function DigitValue(c: byte): (d: nat)
    requires IsDigit(c)
    ensures d < 10
  {
    c as int - '0' as int
  }

  predicate AllDigits(s: Wire) {
    forall i :: 0 <= i < |s| ==> IsDigit(s[i])
  }

  /** `std::to_string` of a non-negative number: shortest decimal form. */
  function NatToString(n: nat): (s: Wire)
    ensures |s| >= 1 && AllDigits(s)
    ensures s[0] == '0' ==> n == 0
    decreases n
  {
    if n < 10 then [DigitChar(n)] else NatToString(n / 10) + [DigitChar(n % 10)]
  }

  /** `std::to_string` of a signed `int`. */
  function IntToString(i: int): (s: Wire)
    ensures |s| >= 1
    ensures s[0] == '-' <==> i < 0
  {
    if i < 0 then "-" + NatToString(-i) else NatToString(i)
  }

  /** The value of a run of decimal digits, most significant first. */
  function DigitsValue(s: Wire): nat
    requires AllDigits(s)
  {
    if |s| == 0 then 0 else DigitsValue(s[..|s| - 1]) * 10 + DigitValue(s[|s| - 1])
  }

  /** The longest prefix of `s` made of digits. */
  function LeadingDigits(s: Wire): (r: Wire)
    ensures StartsWith(s, r) && AllDigits(r)
    ensures |r| < |s| ==> !IsDigit(s[|r|])
  {
    if |s| == 0 || !IsDigit(s[0]) then [] else [s[0]] + LeadingDigits(s[1..])
  }

  /**
   * `atoi`: skip white space, read an optional sign and the digits that
   * follow; no digits reads as 0.  Out-of-range text (undefined behaviour in
   * C) is not modelled: the value is the unbounded integer.
   */
  function Atoi(s: Wire): int
  {
    var t := DropSpaces(s);
    if |t| > 0 && t[0] == '-' then 0 - DigitsValue(LeadingDigits(t[1..])) as int
    else if |t| > 0 && t[0] == '+' then DigitsValue(LeadingDigits(t[1..]))
    else DigitsValue(LeadingDigits(t))
  }

  /**
   * Stream extraction into a 32-bit `unsigned long`: the signed reading taken
   * modulo 2^32, so "-1" reads as 4294967295.
   */
  function ReadULong32(s: Wire): (r: nat)
    ensures r < 0x1_0000_0000
    ensures 0 <= Atoi(s) < 0x1_0000_0000 ==> r == Atoi(s)
  {
    SmallModulo(Atoi(s), 0x1_0000_0000)
  }

  /** The same extraction into a 64-bit `unsigned long` (LP64). */
  function ReadULong64(s: Wire): (r: nat)
    ensures r < 0x1_0000_0000_0000_0000
    ensures 0 <= Atoi(s) < 0x1_0000_0000_0000_0000 ==> r == Atoi(s)
  {
    SmallModulo(Atoi(s), 0x1_0000_0000_0000_0000)
  }

  /** Euclidean remainder, which leaves a value already in `[0, m)` unchanged. */
  function SmallModulo(x: int, m: nat): (r: nat)
    requires m > 0
    ensures r < m
    ensures 0 <= x < m ==> r == x
  {
    x % m
  }

  /** Reading back what `to_string` printed gives the number. */
  lemma {:induction false} DigitsValueOfNatToString(n: nat)
    ensures DigitsValue(NatToString(n)) == n
    decreases n
  {
    if n >= 10 {
      var s := NatToString(n);
      assert s[..|s| - 1] == NatToString(n / 10);
      DigitsValueOfNatToString(n / 10);
    }
  }

  lemma {:induction false} LeadingDigitsOfDigits(d: Wire, rest: Wire)
    requires AllDigits(d)
    requires |rest| == 0 || !IsDigit(rest[0])
    ensures LeadingDigits(d + rest) == d
    decreases |d|
  {
    if |d| > 0 {
      assert (d + rest)[1..] == d[1..] + rest;
      LeadingDigitsOfDigits(d[1..], rest);
    } else {
      assert d + rest == rest;
    }
  }

  /**
   * Round trip: `atoi` of `to_string(i)` followed by any non-digit text
   * (a newline, a space, a payload) is `i`.
   */
  lemma AtoiOfIntToString(i: int, rest: Wire)
    requires |rest| == 0 || !IsDigit(rest[0])
    ensures Atoi(IntToString(i) + rest) == i
  {
    var n: nat := if i < 0 then -i else i;
    var d := NatToString(n);
    DigitsValueOfNatToString(n);
    if i < 0 {
      assert IntToString(i) + rest == ['-'] + (d + rest);
      AtoiOfSignedDigits(d, rest);
    } else {
      AtoiOfDigits(d, rest);
    }
  }

  /** `atoi` of digits followed by a non-digit is their value. */
  lemma AtoiOfDigits(d: Wire, rest: Wire)
    requires |d| > 0 && AllDigits(d)
    requires |rest| == 0 || !IsDigit(rest[0])
    ensures Atoi(d + rest) == DigitsValue(d)
  {
    var s := d + rest;
    assert s[0] == d[0] && IsDigit(s[0]) && !IsSpace(s[0]);
    assert DropSpaces(s) == s;
    LeadingDigitsOfDigits(d, rest);
    assert LeadingDigits(s) == d;
  }

  /** `atoi` of a minus sign, digits and a non-digit is the negated value. */
  lemma AtoiOfSignedDigits(d: Wire, rest: Wire)
    requires |d| > 0 && AllDigits(d)
    requires |rest| == 0 || !IsDigit(rest[0])
    ensures Atoi(['-'] + (d + rest)) == 0 - DigitsValue(d) as int
  {
    var s := ['-'] + (d + rest);
    assert s[0] == '-' && !IsSpace(s[0]);
    assert DropSpaces(s) == s;
    assert s[1..] == d + rest;
    LeadingDigitsOfDigits(d, rest);
    assert LeadingDigits(s[1..]) == d;
  }

  /** Distinct numbers print differently. */
  lemma IntToStringInjective(i: int, j: int)
    requires IntToString(i) == IntToString(j)
    ensures i == j
  {
    AtoiOfIntToString(i, []);
    AtoiOfIntToString(j, []);
    assert IntToString(i) + [] == IntToString(i);
    assert IntToString(j) + [] == IntToString(j);
  }

  /** A checksum printed by `to_string` and read back into an `unsigned long` is unchanged. */
  lemma ReadULongOfNatToString(n: nat, rest: Wire)
    requires |rest| == 0 || !IsDigit(rest[0])
    ensures n < 0x1_0000_0000 ==> ReadULong32(NatToString(n) + rest) == n
    ensures n < 0x1_0000_0000_0000_0000 ==> ReadULong64(NatToString(n) + rest) == n
  {
    AtoiOfIntToString(n, rest);
    assert IntToString(n) == NatToString(n);
  }

  /** A number printed on its own reads back whole, as `atoi` and as either `unsigned long`. */
  lemma NatToStringReadsBack(n: nat)
    ensures Atoi(NatToString(n)) == n
    ensures n < 0x1_0000_0000 ==> ReadULong32(NatToString(n)) == n
    ensures n < 0x1_0000_0000_0000_0000 ==> ReadULong64(NatToString(n)) == n
  {
    var d := NatToString(n);
    DigitsValueOfNatToString(n);
    AtoiOfDigits(d, []);
    assert d + [] == d;
  }

  /**
   * How a node answers a GET for a stored file: the size line, the checksum
   * line, then the bytes.
   */
  function FramedFile(data: Wire, checksum: nat): Wire {
    NatToString(|data|) + [NEWLINE] + NatToString(checksum) + [NEWLINE] + data
  }

  lemma DigitsHaveNoNewline(s: Wire)
    requires AllDigits(s)
    ensures NEWLINE !in s
  {
    assert forall i :: 0 <= i < |s| ==> IsDigit(s[i]);
  }

  /**
   * A framed file decodes back: the first line reads as the size, the second
   * as the checksum (within the reader's width), and the bytes follow.
   */
  lemma FramedFileDecodes(data: Wire, checksum: nat)
    ensures var r := FramedFile(data, checksum);
      && SplitLine(r).Some?
      && Atoi(SplitLine(r).value.0) == |data|
      && SplitLine(SplitLine(r).value.1).Some?
      && SplitLine(SplitLine(r).value.1).value.1 == data
      && (checksum < 0x1_0000_0000 ==> ReadULong32(SplitLine(SplitLine(r).value.1).value.0) == checksum)
      && (checksum < 0x1_0000_0000_0000_0000 ==> ReadULong64(SplitLine(SplitLine(r).value.1).value.0) == checksum)
  {
    var size := NatToString(|data|);
    var sum := NatToString(checksum);
    var rest := sum + [NEWLINE] + data;
    assert FramedFile(data, checksum) == size + [NEWLINE] + rest;
    DigitsHaveNoNewline(size);
    DigitsHaveNoNewline(sum);
    SplitLineOf(size, rest);
    SplitLineOf(sum, data);
    AtoiOfIntToString(|data|, []);
    assert IntToString(|data|) + [] == size;
    ReadULongOfNatToString(checksum, []);
    assert sum + [] == sum;
  }
}

=== FILE: linux_coordinator.dfy ===
/**
 * The Linux coordinator (Linux/coordinator/coordinator.cpp): the same file
 * table and node registry as the Windows variant, with a fixed replication
 * factor of two.
 *
 * Policy of this variant: an upload needs at least two alive nodes, places
 * the file on the two lowest alive ids and commits only when both stores
 * succeed.  A download reads the first replica, or the second when the
 * first is not alive, and then announces the failover.  There is no DELETE.
 * Checksums are 64-bit.
 */
module LinuxCoordinator {
  import opened Bytes
  import opened Checksum
  import opened Decimal
  import opened Registry
  import opened Rpc
  import Coordinator
  import CoordinatorMain
  import Tokens

  /** `FileEntry`: the path, its two replicas, and the payload's checksum. */
  datatype Entry = Entry(filename: Wire, node1: NodeId, node2: NodeId, checksum: nat)

  datatype State = State(nodes: Registry, files: map<Wire, Entry>)

  /** The next state, the string a handler returns, the bytes it streamed itself, its node calls. */
  datatype Outcome = Outcome(state: State, reply: Wire, streamed: Wire, calls: seq<Call>)

  /** The table invariants every handler preserves. */
  predicate EntryValid(nodes: Registry, path: Wire, e: Entry) {
    && e.filename == path
    && e.node1 < e.node2
    && e.node1 in nodes && e.node2 in nodes
    && e.checksum < ULONG64
  }

  predicate Valid(st: State) {
    forall p :: p in st.files ==> EntryValid(st.nodes, p, st.files[p])
  }

  // ---------------------------------------------------------------- REGISTER

  /** The registry effect of `handleRegister`: enrol (or re-enrol) a node as alive and acknowledge. */
  function HandleRegister(st: State, id: NodeId, pid: Pid): (o: Outcome)
    ensures Alive(o.state.nodes, id) && o.state.nodes[id].pid == pid
    ensures o.state.nodes.Keys == st.nodes.Keys + {id}
    ensures forall other :: other in st.nodes && other != id ==> o.state.nodes[other] == st.nodes[other]
    ensures o.state.files == st.files
    ensures o.reply == Coordinator.RegisteredReply(id)
    ensures o.streamed == [] && o.calls == []
  {
    Outcome(State(Register(st.nodes, id, pid), st.files), Coordinator.RegisteredReply(id), [], [])
  }

  /** Registration only adds or refreshes nodes, so every replica stays registered. */
  lemma RegisterPreservesValid(st: State, id: NodeId, pid: Pid)
    requires Valid(st)
    ensures Valid(HandleRegister(st, id, pid).state)
  {
  }

  // ------------------------------------------------------------------ UPLOAD

  const NOT_ENOUGH_PREFIX: Wire := Error("Not enough alive nodes" + " (need at least 2, found ")
  const SHORT_DATA: Wire := Error("Failed to receive file data")
  const STORE_FAILED: Wire := Error("Failed to store file on nodes")

  /** The refusal when fewer than two nodes are alive; it reports how many were found. */
  function NotEnough(found: nat): (r: Wire)
    ensures IsError(r)
  {
    ErrorExtends(NOT_ENOUGH_PREFIX, NatToString(found) + ")");
    assert NOT_ENOUGH_PREFIX + NatToString(found) + ")" == NOT_ENOUGH_PREFIX + (NatToString(found) + ")");
    NOT_ENOUGH_PREFIX + NatToString(found) + ")"
  }

  /** The count in the refusal reads back as the number of alive nodes found. */
  lemma NotEnoughReportsCount(found: nat)
    ensures |NOT_ENOUGH_PREFIX| < |NotEnough(found)|
    ensures Atoi(NotEnough(found)[|NOT_ENOUGH_PREFIX|..]) == found
  {
    var digits := NatToString(found);
    assert NotEnough(found)[|NOT_ENOUGH_PREFIX|..] == IntToString(found) + ")";
    AtoiOfIntToString(found, ")");
  }

  /**
   * The receiving part of `handleUpload`: the size is `atoi` of what a single receive into the
   * 16-byte size buffer returned (`sizeChunk`); the payload is then read
   * from everything the client sends after that (`socketBody`).
   */
  function ReceiveUpload(sizeChunk: Wire, socketBody: Wire): (r: Coordinator.Received)
    ensures Coordinator.WellFormed(r)
    ensures r.Payload? ==> 0 < |r.data| == Atoi(TakeUntilNul(sizeChunk)) <= |socketBody| && r.data == socketBody[..|r.data|]
    ensures r.Failed? ==> r.error in {Coordinator.BAD_SIZE, SHORT_DATA}
    ensures var size := Atoi(TakeUntilNul(sizeChunk));
      && (r == Coordinator.Failed(Coordinator.BAD_SIZE) <==> !(0 < size <= MAX_FILE_SIZE))
      && (r == Coordinator.Failed(SHORT_DATA) <==> 0 < size <= MAX_FILE_SIZE && |socketBody| < size)
      && (r.Payload? <==> 0 < size <= MAX_FILE_SIZE && size <= |socketBody|)
  {
    assert Coordinator.BAD_SIZE[7] != SHORT_DATA[7];
    var fileSize := Atoi(TakeUntilNul(sizeChunk));
    if fileSize <= 0 || fileSize > MAX_FILE_SIZE then Coordinator.Failed(Coordinator.BAD_SIZE)
    else match ReceiveBody([], socketBody, fileSize)
      case None => Coordinator.Failed(SHORT_DATA)
      case Some(data) =>
        assert [] + socketBody == socketBody;
        Coordinator.Payload(data)
  }

  /**
   * What the Linux client sends after its UPLOAD line, the size line
   * then the bytes, is received back as exactly those bytes when the size
   * is within bounds, and refused otherwise.
   */
  lemma ReceiveUploadOfClient(data: Wire, more: Wire)
    ensures 0 < |data| <= MAX_FILE_SIZE ==>
      ReceiveUpload(NatToString(|data|) + [NEWLINE], data + more) == Coordinator.Payload(data)
    ensures (|data| == 0 || |data| > MAX_FILE_SIZE) ==>
      ReceiveUpload(NatToString(|data|) + [NEWLINE], data + more) == Coordinator.Failed(Coordinator.BAD_SIZE)
  {
    SizeLineReads(|data|);
    ReceiveUploadOfSize(NatToString(|data|) + [NEWLINE], data, more);
  }

  /** A size chunk that reads as the payload's length lets exactly that payload through. */
  lemma ReceiveUploadOfSize(sizeChunk: Wire, data: Wire, more: Wire)
    requires Atoi(TakeUntilNul(sizeChunk)) == |data|
    ensures 0 < |data| <= MAX_FILE_SIZE ==> ReceiveUpload(sizeChunk, data + more) == Coordinator.Payload(data)
    ensures (|data| == 0 || |data| > MAX_FILE_SIZE) ==>
      ReceiveUpload(sizeChunk, data + more) == Coordinator.Failed(Coordinator.BAD_SIZE)
  {
    var body := data + more;
    if 0 < |data| <= MAX_FILE_SIZE {
      assert [] + body == body;
      assert body[..|data|] == data;
    }
  }

  /** The size line the client sends reads back as the size. */
  lemma SizeLineReads(n: nat)
    ensures Atoi(TakeUntilNul(NatToString(n) + [NEWLINE])) == n
  {
    var line := NatToString(n) + [NEWLINE];
    assert NUL !in line by {
      assert forall i :: 0 <= i < |NatToString(n)| ==> IsDigit(line[i]);
    }
    TakeUntilNulUnique(line, line);
    AtoiOfIntToString(n, [NEWLINE]);
  }

  /**
   * `handleUpload` once the payload is in hand: send it to both chosen
   * nodes, whatever the first answered, and commit only when both
   * acknowledged.
   */
  function StoreOnTwo(st: State, path: Wire, node1: NodeId, node2: NodeId, data: Wire, ack: Ack): (o: Outcome)
    ensures o.state.nodes == st.nodes && o.streamed == []
    ensures o.calls == StoreCalls([node1, node2], path, data, Checksum64(data))
    ensures !IsError(o.reply) <==> ack(o.calls[0]) && ack(o.calls[1])
    ensures IsError(o.reply) ==> o.state.files == st.files && o.reply == STORE_FAILED
    ensures !IsError(o.reply) ==>
      && o.state.files == st.files[path := Entry(path, node1, node2, Checksum64(data))]
      && o.reply == Coordinator.StoredReply([node1, node2])
  {
    var checksum := Checksum64(data);
    var calls := StoreCalls([node1, node2], path, data, checksum);
    if ack(calls[0]) && ack(calls[1]) then
      Outcome(st.(files := st.files[path := Entry(path, node1, node2, checksum)]),
              Coordinator.StoredReply([node1, node2]), [], calls)
    else Outcome(st, STORE_FAILED, [], calls)
  }

  /**
   * `handleUpload` once the liveness refresh has produced `st.nodes`: fewer
   * than two alive nodes is refused before anything is read; a failed
   * receive is returned as it is; otherwise the first two alive ids, in
   * ascending order, receive the payload.
   */
  ghost function Upload(st: State, path: Wire, received: Coordinator.Received, ack: Ack): (o: Outcome)
    requires Coordinator.WellFormed(received)
    ensures o.state.nodes == st.nodes && o.streamed == []
    ensures |AliveIds(st.nodes)| < 2 ==> o.reply == NotEnough(|AliveIds(st.nodes)|) && o.calls == []
    ensures received.Failed? && |AliveIds(st.nodes)| >= 2 ==> o.reply == received.error && o.calls == []
    ensures IsError(o.reply) ==> o.state.files == st.files
  {
    var available := AliveIds(st.nodes);
    if |available| < 2 then Outcome(st, NotEnough(|available|), [], [])
    else match received
      case Failed(error) => Outcome(st, error, [], [])
      case Payload(data) => StoreOnTwo(st, path, available[0], available[1], data, ack)
  }

  /** `handleUpload`: refresh the liveness verdicts, then upload. */
  ghost function HandleUpload(st: State, path: Wire, sizeChunk: Wire, socketBody: Wire,
                              probe: Probe, ack: Ack): (o: Outcome)
    ensures o.state.nodes == UpdateNodeStatus(st.nodes, probe)
    ensures o.streamed == []
    ensures IsError(o.reply) ==> o.state.files == st.files
  {
    Upload(st.(nodes := UpdateNodeStatus(st.nodes, probe)), path, ReceiveUpload(sizeChunk, socketBody), ack)
  }

  /**
   * An upload commits exactly when at least two nodes are alive, the
   * payload arrived, and both of the two lowest alive ids acknowledged the
   * store of that payload.
   */
  lemma UploadCommitsIff(st: State, path: Wire, received: Coordinator.Received, ack: Ack)
    requires Coordinator.WellFormed(received)
    ensures !IsError(Upload(st, path, received, ack).reply) <==>
      && |AliveIds(st.nodes)| >= 2
      && received.Payload?
      && ack(Store(AliveIds(st.nodes)[0], path, |received.data|, Sum(received.data), received.data))
      && ack(Store(AliveIds(st.nodes)[1], path, |received.data|, Sum(received.data), received.data))
  {
    var available := AliveIds(st.nodes);
    if |available| >= 2 && received.Payload? {
      assert Upload(st, path, received, ack) == StoreOnTwo(st, path, available[0], available[1], received.data, ack);
    }
  }

  /**
   * A committed upload placed the payload on the two lowest alive ids,
   * records them in ascending order with the payload's byte sum, and names
   * them in the reply; every other alive node has a higher id.
   */
  lemma UploadPlacesOnLowestTwo(st: State, path: Wire, received: Coordinator.Received, ack: Ack, id: NodeId)
    requires Coordinator.WellFormed(received)
    requires !IsError(Upload(st, path, received, ack).reply)
    ensures var o := Upload(st, path, received, ack);
      && received.Payload?
      && path in o.state.files
      && var e := o.state.files[path];
      && o.state.files == st.files[path := Entry(path, e.node1, e.node2, Sum(received.data))]
      && Alive(st.nodes, e.node1) && Alive(st.nodes, e.node2) && e.node1 < e.node2
      && o.calls == StoreCalls([e.node1, e.node2], path, received.data, Sum(received.data))
      && o.reply == Coordinator.StoredReply([e.node1, e.node2])
      && (Alive(st.nodes, id) && id != e.node1 && id != e.node2 ==> e.node2 < id)
  {
    var available := AliveIds(st.nodes);
    assert Upload(st, path, received, ack) == StoreOnTwo(st, path, available[0], available[1], received.data, ack);
    assert available[0] in available && available[1] in available;
    if Alive(st.nodes, id) && id != available[0] && id != available[1] {
      var k :| 0 <= k < |available| && available[k] == id;
      assert k >= 2;
    }
  }

  lemma UploadPreservesValid(st: State, path: Wire, received: Coordinator.Received, ack: Ack)
    requires Coordinator.WellFormed(received)
    requires Valid(st)
    ensures Valid(Upload(st, path, received, ack).state)
  {
    var o := Upload(st, path, received, ack);
    if !IsError(o.reply) {
      var available := AliveIds(st.nodes);
      assert o == StoreOnTwo(st, path, available[0], available[1], received.data, ack);
      assert available[0] in available && available[1] in available;
      assert EntryValid(o.state.nodes, path, o.state.files[path]);
    }
  }

  /** The liveness refresh keeps the invariants, and so does the whole upload. */
  lemma HandleUploadPreservesValid(st: State, path: Wire, sizeChunk: Wire, socketBody: Wire,
                                   probe: Probe, ack: Ack)
    requires Valid(st)
    ensures Valid(HandleUpload(st, path, sizeChunk, socketBody, probe, ack).state)
  {
    var st1 := st.(nodes := UpdateNodeStatus(st.nodes, probe));
    assert Valid(st1) by {
      forall p | p in st1.files
        ensures EntryValid(st1.nodes, p, st1.files[p])
      {
        assert EntryValid(st.nodes, p, st.files[p]);
      }
    }
    UploadPreservesValid(st1, path, ReceiveUpload(sizeChunk, socketBody), ack);
  }

  // ---------------------------------------------------------------- DOWNLOAD

  const NOT_FOUND: Wire := Error("File not found")
  const BOTH_DOWN: Wire := Error("Both nodes are down")
  const CANNOT_CONNECT: Wire := Error("Cannot connect to node")
  const INVALID_SIZE: Wire := Error("Invalid file size from node")
  const CORRUPTED: Wire := Error("Checksum mismatch" + " - data corruption detected")
  const SUCCESS: Wire := "SUCCESS"
  const RECOVERED: Wire := " failed, recovered using replica"

  /** The line put in front of the header when the second replica serves the read. */
  function RecoveryNotice(failed: NodeId): Wire {
    Coordinator.NODE_WORD + IntToString(failed) + RECOVERED + [NEWLINE]
  }

  /**
   * What the coordinator makes of the chosen node's answer: connecting,
   * sending GET, reading the size, the checksum and the bytes, and checking
   * the checksum.  A request that could not be sent, or a size that never
   * arrived, leaves the zeroed size buffer reading as 0; a checksum that
   * never arrived is followed by a payload that cannot arrive either.
   */
  function ServeFetch(f: Fetch): (r: Coordinator.Received)
    ensures r.Payload? <==> f.Fetched? && f.size > 0 && |f.data| >= f.size && Checksum64(f.data[..f.size]) == f.checksum
    ensures r.Payload? ==> r.data == f.data[..f.size]
    ensures f.Fetched? && f.size > 0 && |f.data| >= f.size && Checksum64(f.data[..f.size]) != f.checksum ==>
      r == Coordinator.Failed(CORRUPTED)
    ensures f.ConnectFailed? ==> r == Coordinator.Failed(CANNOT_CONNECT)
    ensures f.RequestFailed? || f.SizeMissing? || ((f.ChecksumMissing? || f.Fetched?) && f.size <= 0) ==>
      r == Coordinator.Failed(INVALID_SIZE)
    ensures r.Failed? ==> IsError(r.error)
  {
    match f
    case ConnectFailed => Coordinator.Failed(CANNOT_CONNECT)
    case RequestFailed => Coordinator.Failed(INVALID_SIZE)
    case SizeMissing => Coordinator.Failed(INVALID_SIZE)
    case ChecksumMissing(size) =>
      if size <= 0 then Coordinator.Failed(INVALID_SIZE) else Coordinator.Failed(SHORT_DATA)
    case Fetched(size, checksum, data) =>
      if size <= 0 then Coordinator.Failed(INVALID_SIZE)
      else if |data| < size then Coordinator.Failed(SHORT_DATA)
      else if Checksum64(data[..size]) != checksum then Coordinator.Failed(CORRUPTED)
      else Coordinator.Payload(data[..size])
  }

  /** The replica a download asks: the first when it is alive, else the second. */
  function Chosen(e: Entry, nodes: Registry): NodeId {
    if Alive(nodes, e.node1) then e.node1 else e.node2
  }

  /**
   * `handleDownload`: refresh the verdicts; ask the first replica if it is
   * alive, else the second; a failure talking to the chosen node is final.
   */
  function HandleDownload(st: State, path: Wire, probe: Probe, fetch: FetchFrom): (o: Outcome)
    ensures o.state == st.(nodes := UpdateNodeStatus(st.nodes, probe))
    ensures path !in st.files ==> o.reply == NOT_FOUND && o.calls == []
    ensures o.reply != SUCCESS ==> o.streamed == [] && IsError(o.reply)
    ensures |o.calls| <= 1
    ensures path in st.files && !Alive(o.state.nodes, st.files[path].node1) && !Alive(o.state.nodes, st.files[path].node2) ==>
      o.reply == BOTH_DOWN && o.calls == []
    ensures path in st.files && (Alive(o.state.nodes, st.files[path].node1) || Alive(o.state.nodes, st.files[path].node2)) ==>
      var e := st.files[path];
      var chosen := Chosen(e, o.state.nodes);
      var f := ServeFetch(fetch(chosen));
      && o.calls == [Get(chosen, path)]
      && (f.Failed? ==> o.reply == f.error && o.streamed == [])
      && (f.Payload? ==>
            && o.reply == SUCCESS
            && o.streamed == (if Alive(o.state.nodes, e.node1) then [] else RecoveryNotice(e.node1))
                             + Coordinator.OkLine(|f.data|, Checksum64(f.data)) + f.data)
    ensures o.reply == SUCCESS ==> (path in st.files &&
      var f := fetch(Chosen(st.files[path], o.state.nodes));
      && f.Fetched? && 0 < f.size <= |f.data|
      && Checksum64(f.data[..f.size]) == f.checksum)
  {
    var nodes := UpdateNodeStatus(st.nodes, probe);
    var st1 := st.(nodes := nodes);
    NotErrorByFirst(SUCCESS);
    if path !in st.files then Outcome(st1, NOT_FOUND, [], [])
    else
      var e := st.files[path];
      if !Alive(nodes, e.node1) && !Alive(nodes, e.node2) then Outcome(st1, BOTH_DOWN, [], [])
      else
        var chosen := Chosen(e, nodes);
        match ServeFetch(fetch(chosen))
        case Failed(error) => Outcome(st1, error, [], [Get(chosen, path)])
        case Payload(data) =>
          var served := Coordinator.OkLine(|data|, Checksum64(data)) + data;
          Outcome(st1, SUCCESS, if Alive(nodes, e.node1) then served else RecoveryNotice(e.node1) + served,
                  [Get(chosen, path)])
  }

  /** A replica answer whose bytes all arrived but do not match the checksum sent with them. */
  predicate Corrupt(f: Fetch) {
    f.Fetched? && 0 < f.size <= |f.data| && Checksum64(f.data[..f.size]) != f.checksum
  }

  /**
   * When both replicas hold corrupted copies, a download with either one
   * alive asks it, reports the mismatch, and sends the client no payload.
   */
  lemma CorruptedReplicaRefused(st: State, path: Wire, probe: Probe, fetch: FetchFrom)
    requires path in st.files
    requires IsNodeAlive(st.nodes, st.files[path].node1, probe) || IsNodeAlive(st.nodes, st.files[path].node2, probe)
    requires Corrupt(fetch(st.files[path].node1)) && Corrupt(fetch(st.files[path].node2))
    ensures var o := HandleDownload(st, path, probe, fetch);
      o.reply == CORRUPTED && o.streamed == [] && |o.calls| == 1
  {
    var e := st.files[path];
    AliveAfterUpdate(st.nodes, probe, e.node1);
    AliveAfterUpdate(st.nodes, probe, e.node2);
  }

  /** Downloads change nothing but the liveness verdicts, so they keep the invariants. */
  lemma DownloadPreservesValid(st: State, path: Wire, probe: Probe, fetch: FetchFrom)
    requires Valid(st)
    ensures Valid(HandleDownload(st, path, probe, fetch).state)
  {
  }

  /**
   * Failover: the second replica is asked exactly when the first is not
   * alive and the second is; then a successful read is announced with the
   * id of the failed node.  With both down nothing is asked.
   */
  lemma DownloadFailover(st: State, path: Wire, probe: Probe, fetch: FetchFrom)
    requires path in st.files
    ensures var o := HandleDownload(st, path, probe, fetch);
      var e := st.files[path];
      && (IsNodeAlive(st.nodes, e.node1, probe) ==> o.calls == [Get(e.node1, path)])
      && (!IsNodeAlive(st.nodes, e.node1, probe) && IsNodeAlive(st.nodes, e.node2, probe) ==>
            o.calls == [Get(e.node2, path)]
            && (o.reply == SUCCESS ==> StartsWith(o.streamed, RecoveryNotice(e.node1))))
      && (IsNodeAlive(st.nodes, e.node1, probe) && o.reply == SUCCESS ==> StartsWith(o.streamed, Coordinator.OK_WORD))
      && (!IsNodeAlive(st.nodes, e.node1, probe) && !IsNodeAlive(st.nodes, e.node2, probe) ==>
            o.reply == BOTH_DOWN && o.calls == [])
  {
    var e := st.files[path];
    var nodes := UpdateNodeStatus(st.nodes, probe);
    AliveAfterUpdate(st.nodes, probe, e.node1);
    AliveAfterUpdate(st.nodes, probe, e.node2);
    if Alive(nodes, e.node1) {
      DownloadFromFirst(st, path, probe, fetch);
    } else if Alive(nodes, e.node2) {
      DownloadFromSecond(st, path, probe, fetch);
    }
  }

  /** The first replica, when alive, is the one asked, and a success starts with the header. */
  lemma DownloadFromFirst(st: State, path: Wire, probe: Probe, fetch: FetchFrom)
    requires path in st.files && Alive(UpdateNodeStatus(st.nodes, probe), st.files[path].node1)
    ensures var o := HandleDownload(st, path, probe, fetch);
      && o.calls == [Get(st.files[path].node1, path)]
      && (o.reply == SUCCESS ==> StartsWith(o.streamed, Coordinator.OK_WORD))
  {
    var e := st.files[path];
    var o := HandleDownload(st, path, probe, fetch);
    var r := ServeFetch(fetch(e.node1));
    if r.Payload? {
      var header := Coordinator.OkLine(|r.data|, Checksum64(r.data));
      assert o.streamed == header + r.data;
      StartsWithThen(header, Coordinator.OK_WORD, r.data);
    }
  }

  /** With the first replica down the second is asked, and a success starts with the notice. */
  lemma DownloadFromSecond(st: State, path: Wire, probe: Probe, fetch: FetchFrom)
    requires path in st.files
    requires var nodes := UpdateNodeStatus(st.nodes, probe);
      !Alive(nodes, st.files[path].node1) && Alive(nodes, st.files[path].node2)
    ensures var o := HandleDownload(st, path, probe, fetch);
      && o.calls == [Get(st.files[path].node2, path)]
      && (o.reply == SUCCESS ==> StartsWith(o.streamed, RecoveryNotice(st.files[path].node1)))
  {
    var e := st.files[path];
    var o := HandleDownload(st, path, probe, fetch);
    var r := ServeFetch(fetch(e.node2));
    if r.Payload? {
      var rest := Coordinator.OkLine(|r.data|, Checksum64(r.data)) + r.data;
      assert o.streamed == RecoveryNotice(e.node1) + rest;
      PrefixThen(RecoveryNotice(e.node1), rest);
    }
  }

  /**
   * Upload then download: when a replica of a committed upload of a
   * non-empty payload (the only kind `ReceiveUpload` yields) is still alive
   * and serves back what it stored, the client receives the header
   * (behind the failover notice when the first replica died) and exactly
   * the uploaded bytes.
   */
  lemma UploadThenDownload(st: State, path: Wire, received: Coordinator.Received, ack: Ack,
                           probe: Probe, fetch: FetchFrom)
    requires Coordinator.WellFormed(received)
    requires !IsError(Upload(st, path, received, ack).reply)
    requires received.Payload? && |received.data| > 0
    requires var e := Upload(st, path, received, ack).state.files[path];
      && (IsNodeAlive(st.nodes, e.node1, probe) || IsNodeAlive(st.nodes, e.node2, probe))
      && fetch(e.node1) == Fetched(|received.data|, Sum(received.data), received.data)
      && fetch(e.node2) == Fetched(|received.data|, Sum(received.data), received.data)
    ensures var up := Upload(st, path, received, ack);
      var e := up.state.files[path];
      var data := received.data;
      var down := HandleDownload(up.state, path, probe, fetch);
      && down.reply == SUCCESS
      && (IsNodeAlive(st.nodes, e.node1, probe) ==> down.streamed == Coordinator.OkLine(|data|, Sum(data)) + data)
      && (!IsNodeAlive(st.nodes, e.node1, probe) ==>
            down.streamed == RecoveryNotice(e.node1) + (Coordinator.OkLine(|data|, Sum(data)) + data))
  {
    var available := AliveIds(st.nodes);
    var up := Upload(st, path, received, ack);
    assert up == StoreOnTwo(st, path, available[0], available[1], received.data, ack);
    assert up.state.nodes == st.nodes && path in up.state.files;
    DownloadOfStored(up.state, path, received.data, probe, fetch);
  }

  /** A replica that answers with the stored size, checksum and bytes yields exactly those bytes. */
  lemma ServeFetchIntact(data: Wire)
    requires 0 < |data|
    ensures ServeFetch(Fetched(|data|, Checksum64(data), data)) == Coordinator.Payload(data)
  {
    assert data[..|data|] == data;
  }

  /**
   * A stored path whose replicas both serve back `data` intact is
   * downloaded as the header and `data`, from whichever replica is alive.
   */
  lemma DownloadOfStored(st: State, path: Wire, data: Wire, probe: Probe, fetch: FetchFrom)
    requires path in st.files && 0 < |data| <= MAX_FILE_SIZE
    requires var e := st.files[path];
      && (IsNodeAlive(st.nodes, e.node1, probe) || IsNodeAlive(st.nodes, e.node2, probe))
      && fetch(e.node1) == Fetched(|data|, Sum(data), data)
      && fetch(e.node2) == Fetched(|data|, Sum(data), data)
    ensures var e := st.files[path];
      var down := HandleDownload(st, path, probe, fetch);
      && down.reply == SUCCESS
      && (IsNodeAlive(st.nodes, e.node1, probe) ==> down.streamed == Coordinator.OkLine(|data|, Sum(data)) + data)
      && (!IsNodeAlive(st.nodes, e.node1, probe) ==>
            down.streamed == RecoveryNotice(e.node1) + (Coordinator.OkLine(|data|, Sum(data)) + data))
  {
    var e := st.files[path];
    AliveAfterUpdate(st.nodes, probe, e.node1);
    AliveAfterUpdate(st.nodes, probe, e.node2);
    var nodes := UpdateNodeStatus(st.nodes, probe);
    ServeFetchIntact(data);
    assert Checksum64(data) == Sum(data);
    DownloadServes(st, path, probe, fetch, Chosen(e, nodes), data);
  }

  /**
   * When the chosen replica's answer yields `data`, the download succeeds
   * and streams the notice (if any), the header and `data`.
   */
  lemma DownloadServes(st: State, path: Wire, probe: Probe, fetch: FetchFrom, chosen: NodeId, data: Wire)
    requires path in st.files
    requires var nodes := UpdateNodeStatus(st.nodes, probe);
      && chosen == Chosen(st.files[path], nodes)
      && Alive(nodes, chosen)
      && ServeFetch(fetch(chosen)) == Coordinator.Payload(data)
    ensures var e := st.files[path];
      var down := HandleDownload(st, path, probe, fetch);
      && down.reply == SUCCESS
      && (Alive(UpdateNodeStatus(st.nodes, probe), e.node1) ==> down.streamed == Coordinator.OkLine(|data|, Checksum64(data)) + data)
      && (!Alive(UpdateNodeStatus(st.nodes, probe), e.node1) ==>
            down.streamed == RecoveryNotice(e.node1) + (Coordinator.OkLine(|data|, Checksum64(data)) + data))
  {
  }

  // -------------------------------------------------------------------- main

  /**
   * Everything a request depends on beyond the coordinator's state: the
   * liveness probe, the bytes of the second receive `handleRegister` makes,
   * the size chunk and payload bytes of an upload, and the nodes' answers.
   */
  datatype Env = Env(probe: Probe, registration: Wire, sizeChunk: Wire, body: Wire, ack: Ack, fetch: FetchFrom)

  /** The next state, every byte sent to the client, and the node calls made. */
  datatype Served = Served(state: State, output: Wire, calls: seq<Call>)

  const UNKNOWN: Wire := Error("Unknown command")

  /** The route `main` takes: the Windows routing without DELETE, which falls through to the error. */
  function LinuxRoute(cmd: Wire): (r: CoordinatorMain.Route)
    ensures r != CoordinatorMain.ToDelete
    ensures r == CoordinatorMain.Unknown <==>
      CoordinatorMain.RouteOf(cmd) in {CoordinatorMain.Unknown, CoordinatorMain.ToDelete}
  {
    var r := CoordinatorMain.RouteOf(cmd);
    if r == CoordinatorMain.ToDelete then CoordinatorMain.Unknown else r
  }

  /**
   * One iteration of the accept loop of `main` in the given build.
   * `received` is what the first receive returned; an empty receive closes
   * the connection untouched.  As written, a download's returned string is
   * dropped, as in the Windows loop.
   */
  ghost function Serve(build: Build, st: State, received: Wire, env: Env): (s: Served)
    ensures |received| == 0 ==> s == Served(st, [], [])
    ensures LinuxRoute(TakeUntilNul(received)) == CoordinatorMain.Unknown && |received| > 0 ==>
      s == Served(st, UNKNOWN, [])
    ensures LinuxRoute(TakeUntilNul(received)) == CoordinatorMain.ToList ==> s.state == st && s.calls == []
    ensures LinuxRoute(TakeUntilNul(received)) == CoordinatorMain.ToList && |received| > 0 ==>
      s == Served(st, Coordinator.Listing(st.files.Keys), [])
    ensures LinuxRoute(TakeUntilNul(received)) in {CoordinatorMain.ToUpload, CoordinatorMain.ToDownload} ==>
      s.state.nodes == UpdateNodeStatus(st.nodes, env.probe)
    ensures LinuxRoute(TakeUntilNul(received)) == CoordinatorMain.ToDownload ==> s.state.files == st.files
  {
    if |received| == 0 then Served(st, [], [])
    else
      var cmd := TakeUntilNul(received);
      var path := Tokens.WordAt(cmd, 1);
      match LinuxRoute(cmd)
      case ToRegister =>
        var words := TakeUntilNul(env.registration);
        var o := HandleRegister(st, Atoi(Tokens.WordAt(words, 1)), Atoi(Tokens.WordAt(words, 2)));
        Served(o.state, o.reply, o.calls)
      case ToUpload =>
        var o := HandleUpload(st, path, env.sizeChunk, env.body, env.probe, env.ack);
        Served(o.state, o.reply, o.calls)
      case ToDownload =>
        var o := HandleDownload(st, path, env.probe, env.fetch);
        var output := if build == AsWritten then CoordinatorMain.DownloadOutputAsWritten(o.reply, o.streamed)
                      else CoordinatorMain.DownloadOutput(o.reply, o.streamed);
        Served(o.state, output, o.calls)
      case ToList => Served(st, Coordinator.Listing(st.files.Keys), [])
      case ToDelete => Served(st, UNKNOWN, [])
      case Unknown => Served(st, UNKNOWN, [])
  }

  /** A request routed to REGISTER takes the id and the pid from the words of the second receive. */
  lemma ServeRegisterRoute(build: Build, st: State, received: Wire, env: Env)
    requires |received| > 0 && LinuxRoute(TakeUntilNul(received)) == CoordinatorMain.ToRegister
    ensures var words := TakeUntilNul(env.registration);
      var o := HandleRegister(st, Atoi(Tokens.WordAt(words, 1)), Atoi(Tokens.WordAt(words, 2)));
      Serve(build, st, received, env) == Served(o.state, o.reply, o.calls)
  {
  }

  /**
   * When the second receive returns a node's registration line, that node
   * is enrolled with the pid it sent and the acknowledgement names it.
   */
  lemma ServeRegistration(build: Build, st: State, received: Wire, id: NodeId, pid: nat, env: Env)
    requires |received| > 0 && LinuxRoute(TakeUntilNul(received)) == CoordinatorMain.ToRegister
    requires env.registration == CoordinatorMain.RegisterLine(id, pid)
    ensures Serve(build, st, received, env) == Served(HandleRegister(st, id, pid).state, Coordinator.RegisteredReply(id), [])
  {
    RegistrationFields(id, pid);
    ServeRegisterRoute(build, st, received, env);
  }

  /** The id and the pid this variant reads back from a registration line. */
  lemma RegistrationFields(id: NodeId, pid: nat)
    ensures var words := TakeUntilNul(CoordinatorMain.RegisterLine(id, pid));
      Atoi(Tokens.WordAt(words, 1)) == id && Atoi(Tokens.WordAt(words, 2)) == pid
  {
    var idText, pidText := IntToString(id), NatToString(pid);
    CoordinatorMain.RegisterLineFieldWords(id, pid);
    AtoiOfIntToString(id, []);
    assert idText + [] == idText;
    AtoiOfIntToString(pid, []);
    assert pidText + [] == pidText;
  }

  /** This variant has no DELETE: a delete request changes nothing and is answered as unknown. */
  lemma DeleteIsUnknown(build: Build, st: State, rest: Wire, env: Env)
    ensures Serve(build, st, CoordinatorMain.DELETE_WORD + rest, env) == Served(st, UNKNOWN, [])
  {
    TakeUntilNulSkip(CoordinatorMain.DELETE_WORD, rest);
    CoordinatorMain.RouteOfCommand(TakeUntilNul(rest));
  }

  /** A list request, whatever follows the name, is answered with the listing of every stored path and changes nothing. */
  lemma ServeListRequest(build: Build, st: State, rest: Wire, env: Env)
    ensures Serve(build, st, CoordinatorMain.LIST_WORD + rest, env) == Served(st, Coordinator.Listing(st.files.Keys), [])
  {
    assert NUL !in CoordinatorMain.LIST_WORD by {
      assert forall i :: 0 <= i < |CoordinatorMain.LIST_WORD| ==> CoordinatorMain.LIST_WORD[i] in "LIST";
    }
    TakeUntilNulSkip(CoordinatorMain.LIST_WORD, rest);
    CoordinatorMain.RouteOfCommand(TakeUntilNul(rest));
  }

  /** A client's upload request stores under the path it named. */
  lemma ServeUploadRequest(build: Build, st: State, path: Wire, rest: Wire, env: Env)
    requires Tokens.IsWord(path) && NUL !in path
    ensures var s := Serve(build, st, CoordinatorMain.RequestLine(CoordinatorMain.UPLOAD_WORD, path) + rest, env);
      var o := HandleUpload(st, path, env.sizeChunk, env.body, env.probe, env.ack);
      s == Served(o.state, o.reply, o.calls)
  {
    CoordinatorMain.UploadRequestRoute(path, rest);
  }

  /** A download request reaches `handleDownload` with its path; the build decides what the client is sent. */
  lemma ServeDownloadRequest(build: Build, st: State, path: Wire, rest: Wire, env: Env)
    requires Tokens.IsWord(path) && NUL !in path
    ensures var s := Serve(build, st, CoordinatorMain.RequestLine(CoordinatorMain.DOWNLOAD_WORD, path) + rest, env);
      var o := HandleDownload(st, path, env.probe, env.fetch);
      var output := if build == AsWritten then CoordinatorMain.DownloadOutputAsWritten(o.reply, o.streamed)
                    else CoordinatorMain.DownloadOutput(o.reply, o.streamed);
      s == Served(o.state, output, o.calls)
  {
    CoordinatorMain.DownloadRequestRoute(path, rest);
  }

  /** As written, a download of an unknown path sends the client nothing at all. */
  lemma UnknownDownloadIsSilent(st: State, path: Wire, rest: Wire, env: Env)
    requires Tokens.IsWord(path) && NUL !in path
    requires path !in st.files
    ensures var s := Serve(AsWritten, st, CoordinatorMain.RequestLine(CoordinatorMain.DOWNLOAD_WORD, path) + rest, env);
      s.output == [] && s.state.files == st.files && s.calls == []
  {
    ServeDownloadRequest(AsWritten, st, path, rest, env);
  }

  /**
   * Corrected, a failed download sends the client exactly its error text,
   * and a successful one exactly the bytes the handler streamed.
   */
  lemma DownloadErrorReported(st: State, path: Wire, rest: Wire, env: Env)
    requires Tokens.IsWord(path) && NUL !in path
    ensures var s := Serve(Corrected, st, CoordinatorMain.RequestLine(CoordinatorMain.DOWNLOAD_WORD, path) + rest, env);
      var o := HandleDownload(st, path, env.probe, env.fetch);
      && (o.reply != SUCCESS ==> s.output == o.reply && IsError(s.output))
      && (o.reply == SUCCESS ==> s.output == o.streamed)
  {
    var o := HandleDownload(st, path, env.probe, env.fetch);
    ServeDownloadRequest(Corrected, st, path, rest, env);
    CoordinatorMain.CorrectedOutput(o.reply, o.streamed);
  }
}

=== FILE: linux_node.dfy ===
/**
 * The Linux storage node (Linux/node/node.cpp).  It speaks STORE and GET
 * only.  Its files live under `storage/node<id>`, joined to the DFS path with
 * `std::filesystem::path::operator/`; since every node on a host shares one
 * file system, the store is modelled as a single map from the files the
 * operating system resolves paths to, the `Disk`.  The handlers take the
 * build they follow: as written, an absolute DFS path or one climbing out
 * with ".." escapes the node's folder; corrected, the path is made relative
 * and one with a ".." component is refused.  Whether directories can be
 * created and files opened is asked of oracles.
 */
module LinuxNode {
  import opened Bytes
  import opened Checksum
  import opened Decimal
  import Tokens

  /**
   * A file as the operating system finds it: from the root or from the
   * working directory the nodes share, and the names walked to reach it.
   */
  datatype File = File(absolute: bool, names: seq<Wire>)

  /** The host's files and their contents, shared by every node on it. */
  type Disk = map<File, Wire>

  const SLASH: byte := '/'
  const DOT: Wire := "."
  const DOTDOT: Wire := ".."
  const STORAGE: Wire := "storage"
  const NODE_WORD: Wire := "node"

  /** The name of node `id`'s folder inside `storage`: "node<id>". */
  function NodeName(id: nat): (r: Wire)
    ensures |r| > |DOTDOT| && SLASH !in r
  {
    var digits := NatToString(id);
    NoSlashInDigits(digits);
    assert SLASH !in NODE_WORD;
    NODE_WORD + digits
  }

  /** Distinct nodes have distinct folder names. */
  lemma NodeNameInjective(a: nat, b: nat)
    ensures NodeName(a) == NodeName(b) <==> a == b
  {
    if NodeName(a) == NodeName(b) {
      assert NodeName(a)[|NODE_WORD|..] == NatToString(a);
      assert NodeName(b)[|NODE_WORD|..] == NatToString(b);
      assert IntToString(a) == NatToString(a) && IntToString(b) == NatToString(b);
      IntToStringInjective(a, b);
    }
  }

  lemma NoSlashInDigits(s: Wire)
    requires AllDigits(s)
    ensures SLASH !in s
  {
    assert forall i :: 0 <= i < |s| ==> IsDigit(s[i]);
  }

  /** `storageFolder` of node `id`: "storage/node<id>". */
  function Folder(id: nat): Wire {
    STORAGE + [SLASH] + NodeName(id)
  }

  /** The names between the '/' bytes of a path, in order, empty ones included. */
  function Components(p: Wire): (r: seq<Wire>)
    ensures |r| > 0
    ensures forall k :: 0 <= k < |r| ==> SLASH !in r[k]
    decreases |p|
  {
    match Find(p, SLASH)
    case None => [p]
    case Some(i) => [p[..i]] + Components(p[i + 1..])
  }

  /**
   * Lexical resolution: from the names already entered, an empty name or
   * "." stays put, ".." leaves the last name entered (at the root it stays;
   * above the working directory it is kept), and any other name is entered.
   */
  function Walk(absolute: bool, entered: seq<Wire>, names: seq<Wire>): seq<Wire>
    decreases |names|
  {
    if |names| == 0 then entered
    else
      var n := names[0];
      if n == [] || n == DOT then Walk(absolute, entered, names[1..])
      else if n == DOTDOT && |entered| > 0 && entered[|entered| - 1] != DOTDOT then
        Walk(absolute, entered[..|entered| - 1], names[1..])
      else if n == DOTDOT && absolute then Walk(absolute, entered, names[1..])
      else Walk(absolute, entered + [n], names[1..])
  }

  /** The file a path names. */
  function Resolve(p: Wire): (f: File)
    ensures f.absolute <==> |p| > 0 && p[0] == SLASH
  {
    var absolute := |p| > 0 && p[0] == SLASH;
    File(absolute, Walk(absolute, [], Components(p)))
  }

  /** A '/' at or after the first one found does not move it. */
  lemma FindInPrefix(x: Wire, z: Wire)
    requires Find(x, SLASH).Some?
    ensures Find(x + z, SLASH) == Find(x, SLASH)
  {
    var i := Find(x, SLASH).value;
    assert (x + z)[i] == SLASH;
    assert forall k :: 0 <= k < i ==> (x + z)[k] == x[k];
  }

  /** Splitting a join at a '/' splits each side. */
  lemma {:induction false} ComponentsConcat(x: Wire, y: Wire)
    ensures Components(x + [SLASH] + y) == Components(x) + Components(y)
    decreases |x|
  {
    var whole := x + [SLASH] + y;
    match Find(x, SLASH)
    case None =>
      FindAfter(x, SLASH, y);
      assert whole[..|x|] == x && whole[|x| + 1..] == y;
    case Some(i) =>
      FindInPrefix(x, [SLASH] + y);
      assert whole == x + ([SLASH] + y);
      assert whole[..i] == x[..i];
      assert whole[i + 1..] == x[i + 1..] + [SLASH] + y;
      ComponentsConcat(x[i + 1..], y);
  }

  /** A name without '/' is a single component. */
  lemma ComponentsOfName(x: Wire)
    requires SLASH !in x
    ensures Components(x) == [x]
  {
  }

  /** Resolving a concatenation of name lists walks them one after the other. */
  lemma {:induction false} WalkAppend(absolute: bool, entered: seq<Wire>, xs: seq<Wire>, ys: seq<Wire>)
    ensures Walk(absolute, entered, xs + ys) == Walk(absolute, Walk(absolute, entered, xs), ys)
    decreases |xs|
  {
    if |xs| > 0 {
      assert (xs + ys)[0] == xs[0] && (xs + ys)[1..] == xs[1..] + ys;
      var n := xs[0];
      if n == [] || n == DOT {
        WalkAppend(absolute, entered, xs[1..], ys);
      } else if n == DOTDOT && |entered| > 0 && entered[|entered| - 1] != DOTDOT {
        WalkAppend(absolute, entered[..|entered| - 1], xs[1..], ys);
      } else if n == DOTDOT && absolute {
        WalkAppend(absolute, entered, xs[1..], ys);
      } else {
        WalkAppend(absolute, entered + [n], xs[1..], ys);
      }
    } else {
      assert xs + ys == ys;
    }
  }

  /** Without a ".." name, resolution never leaves a folder once entered. */
  lemma {:induction false} WalkKeeps(absolute: bool, entered: seq<Wire>, names: seq<Wire>)
    requires DOTDOT !in names
    ensures entered <= Walk(absolute, entered, names)
    decreases |names|
  {
    if |names| > 0 {
      assert names[0] in names;
      assert DOTDOT !in names[1..] by {
        forall k | 0 <= k < |names[1..]|
          ensures names[1..][k] != DOTDOT
        {
          assert names[1..][k] == names[k + 1];
        }
      }
      var n := names[0];
      if n == [] || n == DOT {
        WalkKeeps(absolute, entered, names[1..]);
      } else {
        WalkKeeps(absolute, entered + [n], names[1..]);
      }
    }
  }

  /** Two '/'-free names and the rest: the two names, then the rest's components. */
  lemma ComponentsOfTwo(x: Wire, y: Wire, rest: Wire)
    requires SLASH !in x && SLASH !in y
    ensures Components(x + [SLASH] + y + [SLASH] + rest) == [x, y] + Components(rest)
  {
    var t := y + [SLASH] + rest;
    assert x + [SLASH] + y + [SLASH] + rest == x + [SLASH] + t;
    assert Components(x + [SLASH] + t) == [x] + Components(t) by {
      ComponentsConcat(x, t);
      ComponentsOfName(x);
    }
    assert Components(t) == [y] + Components(rest) by {
      ComponentsConcat(y, rest);
      ComponentsOfName(y);
    }
    assert [x] + ([y] + Components(rest)) == [x, y] + Components(rest);
  }

  /** A name resolution enters: neither empty, nor "." nor "..". */
  predicate Plain(n: Wire) {
    n != [] && n != DOT && n != DOTDOT
  }

  lemma PlainFolderNames(id: nat)
    ensures Plain(STORAGE) && Plain(NodeName(id))
    ensures SLASH !in STORAGE && STORAGE[0] != SLASH
  {
    assert |STORAGE| == 7 && |DOT| == 1 && |DOTDOT| == 2;
  }

  /** Two plain names are entered one after the other. */
  lemma WalkTwo(absolute: bool, entered: seq<Wire>, x: Wire, y: Wire)
    requires Plain(x) && Plain(y)
    ensures Walk(absolute, entered, [x, y]) == entered + [x, y]
  {
    assert [x, y][0] == x && [x, y][1..] == [y];
    assert [y][0] == y && [y][1..] == [];
    assert Walk(absolute, entered, [x, y]) == Walk(absolute, entered + [x], [y]);
    assert Walk(absolute, entered + [x], [y]) == Walk(absolute, entered + [x] + [y], []);
    assert entered + [x] + [y] == entered + [x, y];
  }

  /** A path joined under node `id`'s folder resolves inside it, from the working directory. */
  lemma ResolveInFolder(id: nat, rel: Wire)
    ensures Resolve(Folder(id) + [SLASH] + rel) == File(false, Walk(false, [STORAGE, NodeName(id)], Components(rel)))
  {
    var n := NodeName(id);
    PlainFolderNames(id);
    var p := STORAGE + [SLASH] + n + [SLASH] + rel;
    assert Folder(id) + [SLASH] + rel == p;
    assert p[0] == STORAGE[0];
    ComponentsOfTwo(STORAGE, n, rel);
    WalkAppend(false, [], [STORAGE, n], Components(rel));
    WalkTwo(false, [], STORAGE, n);
    assert [] + [STORAGE, n] == [STORAGE, n];
  }

  /**
   * The path `handleStore` and `handleGet` build as written: `fs::path(storageFolder) / dfsPath`.
   * Joining an absolute path replaces the left operand, so a DFS path that
   * starts with '/' names that very file-system path, outside the folder.
   */
  function LocationAsWritten(id: nat, path: Wire): (r: Wire)
    ensures |path| > 0 && path[0] == SLASH ==> r == path
    ensures !(|path| > 0 && path[0] == SLASH) ==> r == Folder(id) + [SLASH] + path
  {
    if |path| > 0 && path[0] == SLASH then path else Folder(id) + [SLASH] + path
  }

  /** `path` without its leading '/' bytes: the path made relative. */
  function Relative(path: Wire): (r: Wire)
    ensures |r| == 0 || r[0] != SLASH
    ensures |r| <= |path| && r == path[|path| - |r|..]
  {
    if |path| > 0 && path[0] == SLASH then Relative(path[1..]) else path
  }

  /** The evidently intended location: the DFS path made relative, inside the node's folder. */
  function Location(id: nat, path: Wire): (r: Wire)
    ensures StartsWith(r, Folder(id) + [SLASH])
    ensures !(|path| > 0 && path[0] == SLASH) ==> r == LocationAsWritten(id, path)
  {
    Folder(id) + [SLASH] + Relative(path)
  }

  /** The corrected node serves only DFS paths that, made relative, have no ".." component. */
  predicate Confined(path: Wire) {
    DOTDOT !in Components(Relative(path))
  }

  /** Whether the build serves `path` at all: as written every path is served. */
  predicate Admitted(build: Build, path: Wire) {
    build == AsWritten || Confined(path)
  }

  /** Where node `id` keeps `path`: the join as written, or the corrected location. */
  function FileLocation(build: Build, id: nat, path: Wire): Wire {
    if build == AsWritten then LocationAsWritten(id, path) else Location(id, path)
  }

  /** The file node `id` stores `path` in. */
  function FileOf(build: Build, id: nat, path: Wire): File {
    Resolve(FileLocation(build, id, path))
  }

  /**
   * As written, an absolute DFS path is one file for every node: whatever
   * node 1 stores under "/x" is what node 2 reads under "/x".
   */
  lemma AbsolutePathShared(a: nat, b: nat, path: Wire)
    requires |path| > 0 && path[0] == SLASH
    ensures FileOf(AsWritten, a, path) == FileOf(AsWritten, b, path) == Resolve(path)
  {
  }

  /** "../node<b>/<rel>": from node a's folder, the path to `rel` in node b's. */
  function Sibling(b: nat, rel: Wire): Wire {
    DOTDOT + [SLASH] + NodeName(b) + [SLASH] + rel
  }

  /**
   * As written, a DFS path climbing out with ".." names another node's
   * file: node a's "../node<b>/<rel>" is node b's "<rel>".
   */
  lemma ParentPathShared(a: nat, b: nat, rel: Wire)
    requires !(|rel| > 0 && rel[0] == SLASH)
    ensures FileOf(AsWritten, a, Sibling(b, rel)) == FileOf(AsWritten, b, rel)
  {
    var nb := NodeName(b);
    var p := Sibling(b, rel);
    assert SLASH !in DOTDOT && p[0] == DOTDOT[0] != SLASH;
    ComponentsOfTwo(DOTDOT, nb, rel);
    ResolveInFolder(a, p);
    ResolveInFolder(b, rel);
    WalkAppend(false, [STORAGE, NodeName(a)], [DOTDOT, nb], Components(rel));
    WalkSibling(NodeName(a), nb);
  }

  /** Entering "..", then another node's name, swaps the last folder entered. */
  lemma WalkSibling(na: Wire, nb: Wire)
    requires |na| > |DOTDOT| && |nb| > |DOTDOT|
    ensures Walk(false, [STORAGE, na], [DOTDOT, nb]) == [STORAGE, nb]
  {
    assert [STORAGE, na][..1] == [STORAGE];
    assert [DOTDOT, nb][1..] == [nb];
    assert Walk(false, [STORAGE, na], [DOTDOT, nb]) == Walk(false, [STORAGE], [nb]);
    assert [STORAGE] + [nb] == [STORAGE, nb];
    assert Walk(false, [STORAGE], [nb]) == Walk(false, [STORAGE, nb], []);
  }

  /**
   * Corrected, every file a node serves lies inside its own folder: it is
   * reached from the working directory through "storage" and "node<id>".
   */
  lemma LocationInsideFolder(id: nat, path: Wire)
    requires Confined(path)
    ensures var f := FileOf(Corrected, id, path);
      !f.absolute && [STORAGE, NodeName(id)] <= f.names
  {
    ResolveInFolder(id, Relative(path));
    WalkKeeps(false, [STORAGE, NodeName(id)], Components(Relative(path)));
  }

  /** Corrected, two different nodes never share a file. */
  lemma LocationsDisjoint(a: nat, b: nat, p: Wire, q: Wire)
    requires a != b && Confined(p) && Confined(q)
    ensures FileOf(Corrected, a, p) != FileOf(Corrected, b, q)
  {
    LocationInsideFolder(a, p);
    LocationInsideFolder(b, q);
    FoldersDiffer(FileOf(Corrected, a, p), FileOf(Corrected, b, q), a, b);
  }

  /** Files inside the folders of two different nodes are different files. */
  lemma FoldersDiffer(fa: File, fb: File, a: nat, b: nat)
    requires a != b
    requires [STORAGE, NodeName(a)] <= fa.names && [STORAGE, NodeName(b)] <= fb.names
    ensures fa != fb
  {
    assert fa.names[1] == NodeName(a);
    assert fb.names[1] == NodeName(b);
    NodeNameInjective(a, b);
  }

  /** The corrected node refuses a path that climbs out with "..". */
  lemma SiblingNotConfined(b: nat, rel: Wire)
    ensures !Confined(Sibling(b, rel))
  {
    var p := Sibling(b, rel);
    assert SLASH !in DOTDOT && p[0] == DOTDOT[0] != SLASH;
    assert Relative(p) == p;
    ComponentsOfTwo(DOTDOT, NodeName(b), rel);
    assert Components(p)[0] == DOTDOT;
  }

  const STORE: Wire := "STORE"
  const GET: Wire := "GET"
  const OK_REPLY: Wire := "OK\n"
  /** Sent with its terminating NUL: 31 bytes. */
  const RECEIVE_FAILED: Wire := Error("Failed to receive file\n\0")
  const CHECKSUM_MISMATCH: Wire := Error("Checksum mismatch\n")
  const CANNOT_CREATE: Wire := Error("Cannot create file\n")
  const NOT_FOUND: Wire := Error("File not found\n")
  const CANNOT_READ: Wire := Error("Cannot read file\n")
  /** The corrected node's answer to a path it does not serve. */
  const INVALID_PATH: Wire := Error("Invalid path\n")
  /** Sent with its terminating NUL: 24 bytes. */
  const UNKNOWN_COMMAND: Wire := Error("Unknown command\n\0")

  /** What one request does: a reply and the disk afterwards, or the process ends on an uncaught exception. */
  datatype Step = Served(disk: Disk, reply: Wire) | Crashed

  /**
   * `handleStore`, storing in the file of the given build.  `incoming` is
   * everything the coordinator sends after the first receive: unlike the
   * Windows node, bytes that arrived with the command are not part of the
   * payload.  A negative size makes `new char[fileSize]` throw and a failing
   * `create_directories` throws; neither is caught.  The corrected build
   * refuses, before saving, a path it does not serve.
   */
  function HandleStore(build: Build, disk: Disk, id: nat, path: Wire, fileSize: int, expected: nat,
                       incoming: Wire, dirOk: bool, openOk: bool): (r: Step)
    ensures fileSize < 0 ==> r.Crashed?
    ensures r.Served? && r.reply == OK_REPLY <==>
      && fileSize >= 0
      && |incoming| >= fileSize
      && Checksum64(incoming[..fileSize]) == expected
      && Admitted(build, path)
      && dirOk && openOk
    ensures r.Served? && r.reply == OK_REPLY ==> r.disk == disk[FileOf(build, id, path) := incoming[..fileSize]]
    ensures r.Served? && r.reply != OK_REPLY ==>
      r.disk == disk && r.reply in {RECEIVE_FAILED, CHECKSUM_MISMATCH, INVALID_PATH, CANNOT_CREATE} && IsError(r.reply)
    ensures 0 <= fileSize <= |incoming| && Checksum64(incoming[..fileSize]) != expected ==>
      r == Served(disk, CHECKSUM_MISMATCH)
    ensures 0 <= fileSize && |incoming| < fileSize ==> r == Served(disk, RECEIVE_FAILED)
    ensures 0 <= fileSize <= |incoming| && Checksum64(incoming[..fileSize]) == expected ==>
      && (!Admitted(build, path) ==> r == Served(disk, INVALID_PATH))
      && (Admitted(build, path) && !dirOk ==> r.Crashed?)
      && (Admitted(build, path) && dirOk && !openOk ==> r == Served(disk, CANNOT_CREATE))
    ensures r.Crashed? <==>
      || fileSize < 0
      || (fileSize <= |incoming| && Checksum64(incoming[..fileSize]) == expected && Admitted(build, path) && !dirOk)
  {
    assert OK_REPLY[0] != RECEIVE_FAILED[0];
    if fileSize < 0 then Crashed
    else if |incoming| < fileSize then Served(disk, RECEIVE_FAILED)
    else
      var data := incoming[..fileSize];
      if Checksum64(data) != expected then Served(disk, CHECKSUM_MISMATCH)
      else if !Admitted(build, path) then Served(disk, INVALID_PATH)
      else if !dirOk then Crashed
      else if !openOk then Served(disk, CANNOT_CREATE)
      else Served(disk[FileOf(build, id, path) := data], OK_REPLY)
  }

  /**
   * `handleGet`, reading the file of the given build: the size line, the
   * checksum line and the bytes, or an error line.
   */
  function HandleGet(build: Build, disk: Disk, id: nat, path: Wire, readOk: bool): (reply: Wire)
    ensures !Admitted(build, path) ==> reply == INVALID_PATH
    ensures Admitted(build, path) && FileOf(build, id, path) !in disk ==> reply == NOT_FOUND
    ensures Admitted(build, path) && FileOf(build, id, path) in disk && !readOk ==> reply == CANNOT_READ
    ensures Admitted(build, path) && FileOf(build, id, path) in disk && readOk ==>
      var data := disk[FileOf(build, id, path)];
      reply == FramedFile(data, Checksum64(data))
  {
    var f := FileOf(build, id, path);
    if !Admitted(build, path) then INVALID_PATH
    else if f !in disk then NOT_FOUND
    else if !readOk then CANNOT_READ
    else FramedFile(disk[f], Checksum64(disk[f]))
  }

  /** In either build, a stored file reads back, from the same node, with its bytes and checksum. */
  lemma StoreThenGet(build: Build, disk: Disk, id: nat, path: Wire, fileSize: int, expected: nat,
                     incoming: Wire, dirOk: bool, openOk: bool)
    requires HandleStore(build, disk, id, path, fileSize, expected, incoming, dirOk, openOk).Served?
    requires HandleStore(build, disk, id, path, fileSize, expected, incoming, dirOk, openOk).reply == OK_REPLY
    ensures var after := HandleStore(build, disk, id, path, fileSize, expected, incoming, dirOk, openOk).disk;
      HandleGet(build, after, id, path, true) == FramedFile(incoming[..fileSize], expected)
  {
  }

  /**
   * Corrected, a store through one node leaves what every other node
   * serves unchanged, whatever the paths: the nodes' folders are disjoint.
   */
  lemma StoreIsolated(disk: Disk, a: nat, path: Wire, fileSize: int, expected: nat,
                      incoming: Wire, dirOk: bool, openOk: bool, b: nat, other: Wire, readOk: bool)
    requires a != b
    requires HandleStore(Corrected, disk, a, path, fileSize, expected, incoming, dirOk, openOk).Served?
    ensures var after := HandleStore(Corrected, disk, a, path, fileSize, expected, incoming, dirOk, openOk).disk;
      HandleGet(Corrected, after, b, other, readOk) == HandleGet(Corrected, disk, b, other, readOk)
  {
    var r := HandleStore(Corrected, disk, a, path, fileSize, expected, incoming, dirOk, openOk);
    if r.reply == OK_REPLY && Confined(other) {
      LocationsDisjoint(a, b, path, other);
      GetElsewhere(Corrected, disk, FileOf(Corrected, a, path), incoming[..fileSize], b, other, readOk);
    }
  }

  /** Writing one file does not change what a GET of another file returns. */
  lemma GetElsewhere(build: Build, disk: Disk, f: File, data: Wire, b: nat, other: Wire, readOk: bool)
    requires FileOf(build, b, other) != f
    ensures HandleGet(build, disk[f := data], b, other, readOk) == HandleGet(build, disk, b, other, readOk)
  {
  }

  /**
   * As written, a file stored under an absolute path through one node is
   * what every node, this one or another, then serves under that path.
   */
  lemma StoreShared(disk: Disk, a: nat, path: Wire, fileSize: int, expected: nat,
                    incoming: Wire, dirOk: bool, openOk: bool, b: nat)
    requires |path| > 0 && path[0] == SLASH
    requires HandleStore(AsWritten, disk, a, path, fileSize, expected, incoming, dirOk, openOk).Served?
    requires HandleStore(AsWritten, disk, a, path, fileSize, expected, incoming, dirOk, openOk).reply == OK_REPLY
    ensures var after := HandleStore(AsWritten, disk, a, path, fileSize, expected, incoming, dirOk, openOk).disk;
      HandleGet(AsWritten, after, b, path, true) == FramedFile(incoming[..fileSize], expected)
  {
    AbsolutePathShared(a, b, path);
  }

  /**
   * As written, a store through node a of "../node<b>/<rel>" is what node b
   * then serves under "<rel>".  Corrected, node a refuses that store.
   */
  lemma StoreEscapes(disk: Disk, a: nat, b: nat, rel: Wire, fileSize: int, expected: nat,
                     incoming: Wire, dirOk: bool, openOk: bool)
    requires !(|rel| > 0 && rel[0] == SLASH)
    requires HandleStore(AsWritten, disk, a, Sibling(b, rel), fileSize, expected, incoming, dirOk, openOk).Served?
    requires HandleStore(AsWritten, disk, a, Sibling(b, rel), fileSize, expected, incoming, dirOk, openOk).reply == OK_REPLY
    ensures var after := HandleStore(AsWritten, disk, a, Sibling(b, rel), fileSize, expected, incoming, dirOk, openOk).disk;
      HandleGet(AsWritten, after, b, rel, true) == FramedFile(incoming[..fileSize], expected)
    ensures var r := HandleStore(Corrected, disk, a, Sibling(b, rel), fileSize, expected, incoming, dirOk, openOk);
      r == Served(disk, INVALID_PATH)
  {
    ParentPathShared(a, b, rel);
    SiblingNotConfined(b, rel);
  }

  /**
   * What `main` does with the words of the received C string: STORE and GET
   * are served; anything else is answered with the unknown-command error.  A
   * missing word reads as empty and a number that cannot be read as 0.
   */
  function Dispatch(build: Build, disk: Disk, id: nat, ws: seq<Wire>, incoming: Wire,
                    dirOk: bool, openOk: bool, readOk: bool): (r: Step)
    ensures r.Served? && r.disk != disk ==> r.reply == OK_REPLY
    ensures Tokens.Nth(ws, 0) != STORE && Tokens.Nth(ws, 0) != GET ==> r == Served(disk, UNKNOWN_COMMAND)
  {
    var command := Tokens.Nth(ws, 0);
    var path := Tokens.Nth(ws, 1);
    if command == STORE then
      HandleStore(build, disk, id, path, Atoi(Tokens.Nth(ws, 2)), ReadULong64(Tokens.Nth(ws, 3)), incoming, dirOk, openOk)
    else if command == GET then Served(disk, HandleGet(build, disk, id, path, readOk))
    else Served(disk, UNKNOWN_COMMAND)
  }

  /**
   * One connection of `main`.  `received` is what the first receive
   * returned; an empty one closes the connection without a word.  The words
   * are read from the whole C string in the buffer, not only its first line.
   */
  function Serve(build: Build, disk: Disk, id: nat, received: Wire, incoming: Wire,
                 dirOk: bool, openOk: bool, readOk: bool): (r: Step)
    ensures |received| == 0 ==> r == Served(disk, [])
    ensures r.Served? && r.disk != disk ==> r.reply == OK_REPLY
  {
    if |received| == 0 then Served(disk, [])
    else Dispatch(build, disk, id, Tokens.Words(TakeUntilNul(received)), incoming, dirOk, openOk, readOk)
  }

  /** The line the Linux coordinator sends ahead of a payload. */
  function StoreCommand(path: Wire, size: nat, checksum: nat): Wire {
    Tokens.Unwords([STORE, path, NatToString(size), NatToString(checksum)]) + [NEWLINE]
  }

  lemma DigitsAreWords(s: Wire)
    requires AllDigits(s) && |s| > 0
    ensures Tokens.IsWord(s) && NUL !in s
  {
    assert forall i :: 0 <= i < |s| ==> IsDigit(s[i]);
  }

  /**
   * A command line of NUL-free words, a newline, then any bytes: the words
   * of the C string start with exactly those words.
   */
  lemma CommandWords(ws: seq<Wire>, rest: Wire)
    requires |ws| > 0
    requires forall k :: 0 <= k < |ws| ==> Tokens.IsWord(ws[k]) && NUL !in ws[k]
    ensures var cmd := TakeUntilNul(Tokens.Unwords(ws) + [NEWLINE] + rest);
      forall k :: 0 <= k < |ws| ==> Tokens.Nth(Tokens.Words(cmd), k) == ws[k]
  {
    var line := Tokens.Unwords(ws);
    Tokens.UnwordsExcludes(ws, NUL);
    TakeUntilNulSkip(line, [NEWLINE] + rest);
    assert line + [NEWLINE] + rest == line + ([NEWLINE] + rest);
    var tail := TakeUntilNul([NEWLINE] + rest);
    TakeUntilNulSkip([NEWLINE], rest);
    assert tail == [NEWLINE] + TakeUntilNul(rest);
    assert tail[0] == NEWLINE;
    Tokens.WordsUnwordsFollowed(ws, tail);
    var all := Tokens.Words(line + tail);
    forall k | 0 <= k < |ws|
      ensures Tokens.Nth(all, k) == ws[k]
    {
      assert all[k] == (ws + Tokens.Words(tail))[k];
    }
  }

  /** The words the node reads from a framed STORE command. */
  lemma StoreCommandWords(path: Wire, size: nat, checksum: nat, rest: Wire)
    requires Tokens.IsWord(path) && NUL !in path
    ensures var words := Tokens.Words(TakeUntilNul(StoreCommand(path, size, checksum) + rest));
      && Tokens.Nth(words, 0) == STORE && Tokens.Nth(words, 1) == path
      && Tokens.Nth(words, 2) == NatToString(size) && Tokens.Nth(words, 3) == NatToString(checksum)
  {
    var ws: seq<Wire> := [STORE, path, NatToString(size), NatToString(checksum)];
    DigitsAreWords(ws[2]);
    DigitsAreWords(ws[3]);
    assert Tokens.IsWord(ws[0]) && NUL !in ws[0] by {
      assert forall i :: 0 <= i < |ws[0]| ==> ws[0][i] in "STORE";
    }
    CommandWords(ws, rest);
    assert StoreCommand(path, size, checksum) + rest == Tokens.Unwords(ws) + [NEWLINE] + rest;
  }

  /**
   * A STORE command as the coordinator frames it reaches `handleStore` with
   * the path, size and checksum it carried.  Bytes that arrived behind the
   * command line in the same receive play no part.
   */
  lemma ServeStoreCommand(build: Build, disk: Disk, id: nat, path: Wire, size: nat, checksum: nat, rest: Wire,
                          incoming: Wire, dirOk: bool, openOk: bool, readOk: bool)
    requires Tokens.IsWord(path) && NUL !in path
    requires checksum < ULONG64
    ensures Serve(build, disk, id, StoreCommand(path, size, checksum) + rest, incoming, dirOk, openOk, readOk)
         == HandleStore(build, disk, id, path, size, checksum, incoming, dirOk, openOk)
  {
    var n1 := NatToString(size);
    var n2 := NatToString(checksum);
    AtoiOfIntToString(size, []);
    assert IntToString(size) + [] == n1;
    ReadULongOfNatToString(checksum, []);
    assert n2 + [] == n2;
    StoreCommandWords(path, size, checksum, rest);
    var received := StoreCommand(path, size, checksum) + rest;
    var words := Tokens.Words(TakeUntilNul(received));
    assert Serve(build, disk, id, received, incoming, dirOk, openOk, readOk)
        == Dispatch(build, disk, id, words, incoming, dirOk, openOk, readOk);
  }

  /** "GET <path>\n" reaches `handleGet` with the path and changes nothing. */
  lemma ServeGetCommand(build: Build, disk: Disk, id: nat, path: Wire, rest: Wire,
                        incoming: Wire, dirOk: bool, openOk: bool, readOk: bool)
    requires Tokens.IsWord(path) && NUL !in path
    ensures Serve(build, disk, id, Tokens.Unwords([GET, path]) + [NEWLINE] + rest, incoming, dirOk, openOk, readOk)
         == Served(disk, HandleGet(build, disk, id, path, readOk))
  {
    var ws: seq<Wire> := [GET, path];
    assert Tokens.IsWord(ws[0]) && NUL !in ws[0] by {
      assert forall i :: 0 <= i < |ws[0]| ==> ws[0][i] in "GET";
    }
    CommandWords(ws, rest);
    var received := Tokens.Unwords(ws) + [NEWLINE] + rest;
    var words := Tokens.Words(TakeUntilNul(received));
    assert Tokens.Nth(words, 0) == GET && Tokens.Nth(words, 1) == path;
    assert GET != STORE by {
      assert GET[0] != STORE[0];
    }
  }
}

=== FILE: node.dfy ===
/**
 * The Windows storage node (node/node.cpp).  Its folder `storage\node<id>`
 * is modelled as a map from the cleaned path of a file to its contents.
 * Whether the file system lets a write, a read or a removal happen is asked
 * of the `writeOk`, `readOk` and `removeOk` oracles.
 */
module Node {
  import opened Bytes
  import opened Checksum
  import opened Decimal
  import Tokens

  const SLASH: byte := '/'
  const BACKSLASH: byte := '\\'

  /** Every '/' turned into '\'. */
  function Backslashed(s: Wire): (r: Wire)
    ensures |r| == |s|
    ensures SLASH !in r
    ensures forall i :: 0 <= i < |s| && s[i] != SLASH ==> r[i] == s[i]
    ensures forall i :: 0 <= i < |s| && s[i] == SLASH ==> r[i] == BACKSLASH
  {
    if |s| == 0 then []
    else [if s[0] == SLASH then BACKSLASH else s[0]] + Backslashed(s[1..])
  }

  /** `cleanPath`: drop one leading '/', then turn every remaining '/' into '\'. */
  function CleanPath(p: Wire): (r: Wire)
    ensures SLASH !in r
    ensures |r| == |p| - 1 <==> |p| > 0 && p[0] == SLASH
    ensures |r| == |p| <==> !(|p| > 0 && p[0] == SLASH)
    ensures var q := if |p| > 0 && p[0] == SLASH then p[1..] else p;
      |r| == |q| && forall i :: 0 <= i < |q| ==> r[i] == (if q[i] == SLASH then BACKSLASH else q[i])
  {
    if |p| > 0 && p[0] == SLASH then Backslashed(p[1..]) else Backslashed(p)
  }

  /** A path without '/' is its own cleaned form. */
  lemma {:induction false} BackslashedNoSlash(s: Wire)
    requires SLASH !in s
    ensures Backslashed(s) == s
  {
    if |s| > 0 {
      BackslashedNoSlash(s[1..]);
    }
  }

  /** Cleaning a clean path changes nothing. */
  lemma CleanPathIdempotent(p: Wire)
    ensures CleanPath(CleanPath(p)) == CleanPath(p)
  {
    BackslashedNoSlash(CleanPath(p));
  }

  /**
   * Two DFS paths that differ only by a leading '/' name the same stored
   * file, and so do paths that differ only in '/' against '\'.
   */
  lemma CleanPathCollides(p: Wire)
    ensures CleanPath([SLASH] + p) == CleanPath(Backslashed(p))
  {
    assert ([SLASH] + p)[1..] == p;
    BackslashedNoSlash(Backslashed(p));
    var q := Backslashed(p);
    if |q| > 0 {
      assert q[0] != SLASH;
    }
  }

  /** The node's files: cleaned path to contents. */
  type Storage = map<Wire, Wire>

  const STORE: Wire := "STORE"
  const GET: Wire := "GET"
  const DELETE: Wire := "DELETE"
  const OK_REPLY: Wire := "OK\n"
  const ERROR_REPLY: Wire := "ERROR\n"

  /**
   * What one request does to the node: it either serves it (a possibly
   * empty reply, the storage afterwards) or the process ends on an
   * uncaught exception.
   */
  datatype Step = Served(storage: Storage, reply: Wire) | Crashed

  /**
   * `handleStore`.  `remaining` is what followed the command line in the
   * first receive; `incoming` is everything the coordinator sends after it.
   * A negative size makes `new char[fileSize]` throw, which nothing catches.
   */
  function HandleStore(st: Storage, path: Wire, fileSize: int, expected: nat, remaining: Wire,
                       incoming: Wire, writeOk: bool): (r: Step)
    ensures r.Crashed? <==> fileSize < 0
    ensures r.Served? ==> r.reply == OK_REPLY || r.reply == ERROR_REPLY
    ensures r.Served? && r.reply == OK_REPLY <==>
      && fileSize >= 0
      && |remaining| + |incoming| >= fileSize
      && Checksum32((remaining + incoming)[..fileSize]) == expected
      && writeOk
    ensures r.Served? && r.reply == OK_REPLY ==>
      r.storage == st[CleanPath(path) := (remaining + incoming)[..fileSize]]
    ensures r.Served? && r.reply != OK_REPLY ==> r.storage == st
  {
    assert OK_REPLY[0] != ERROR_REPLY[0];
    if fileSize < 0 then Crashed
    else match ReceiveBody(remaining, incoming, fileSize)
      case None => Served(st, ERROR_REPLY)
      case Some(data) =>
        if Checksum32(data) != expected then Served(st, ERROR_REPLY)
        else if !writeOk then Served(st, ERROR_REPLY)
        else Served(st[CleanPath(path) := data], OK_REPLY)
  }

  /** What `handleGet` sends for a stored file: size line, checksum line, bytes. */
  function GetReply(data: Wire): Wire {
    FramedFile(data, Checksum32(data))
  }

  /** `handleGet`: a missing file, or one that cannot be opened, gets "ERROR\n". */
  function HandleGet(st: Storage, path: Wire, readOk: bool): (reply: Wire)
    ensures CleanPath(path) !in st || !readOk ==> reply == ERROR_REPLY
    ensures CleanPath(path) in st && readOk ==> reply == GetReply(st[CleanPath(path)])
  {
    if CleanPath(path) !in st then ERROR_REPLY
    else if !readOk then ERROR_REPLY
    else GetReply(st[CleanPath(path)])
  }

  /** A stored file reads back with the bytes and checksum the store was given. */
  lemma StoreThenGet(st: Storage, path: Wire, fileSize: int, expected: nat, remaining: Wire,
                     incoming: Wire, writeOk: bool)
    requires HandleStore(st, path, fileSize, expected, remaining, incoming, writeOk).Served?
    requires HandleStore(st, path, fileSize, expected, remaining, incoming, writeOk).reply == OK_REPLY
    ensures var after := HandleStore(st, path, fileSize, expected, remaining, incoming, writeOk).storage;
      var data := (remaining + incoming)[..fileSize];
      HandleGet(after, path, true) == GetReply(data) && Checksum32(data) == expected
  {
  }

  /** `handleDelete`: removing a missing file is a success. */
  function HandleDelete(st: Storage, path: Wire, removeOk: bool): (r: Step)
    ensures r.Served?
    ensures r.reply == OK_REPLY ==> CleanPath(path) !in r.storage && r.storage == st - {CleanPath(path)}
    ensures r.reply != OK_REPLY ==> r.reply == ERROR_REPLY && r.storage == st && CleanPath(path) in st && !removeOk
    ensures CleanPath(path) !in st ==> r.reply == OK_REPLY
  {
    assert OK_REPLY[0] != ERROR_REPLY[0];
    var key := CleanPath(path);
    if key !in st then Served(st, OK_REPLY)
    else if removeOk then Served(st - {key}, OK_REPLY)
    else Served(st, ERROR_REPLY)
  }

  /** Deleting twice is deleting once: the second delete acknowledges and changes nothing. */
  lemma DeleteIdempotent(st: Storage, path: Wire, removeOk: bool, removeOk2: bool)
    requires HandleDelete(st, path, removeOk).reply == OK_REPLY
    ensures var once := HandleDelete(st, path, removeOk).storage;
      HandleDelete(once, path, removeOk2) == Served(once, OK_REPLY)
  {
  }

  /**
   * What `main` does with the words of a command line.  `remaining` is what
   * followed the line in the first receive; a missing word reads as empty,
   * and a number that cannot be read as 0.  Unknown commands get no reply.
   */
  function Dispatch(st: Storage, ws: seq<Wire>, remaining: Wire, incoming: Wire,
                    writeOk: bool, readOk: bool, removeOk: bool): (r: Step)
    ensures r.Served? && r.storage != st ==> r.reply == OK_REPLY
    ensures Tokens.Nth(ws, 0) !in {STORE, GET, DELETE} ==> r == Served(st, [])
  {
    var command := Tokens.Nth(ws, 0);
    var path := Tokens.Nth(ws, 1);
    if command == STORE then
      HandleStore(st, path, Atoi(Tokens.Nth(ws, 2)), ReadULong32(Tokens.Nth(ws, 3)), remaining, incoming, writeOk)
    else if command == GET then Served(st, HandleGet(st, path, readOk))
    else if command == DELETE then HandleDelete(st, path, removeOk)
    else Served(st, [])
  }

  /**
   * One connection of `main`.  `received` is what the first receive
   * returned, up to 1023 bytes; `incoming` is everything the peer sends
   * after it.  The command is read from the C string in the buffer, up to its
   * first newline; without a newline the node closes the connection without
   * a word.  Whatever bytes of the raw buffer follow the command line are
   * the start of a STORE payload.
   */
  function Serve(st: Storage, received: Wire, incoming: Wire, writeOk: bool, readOk: bool, removeOk: bool): (r: Step)
    ensures NEWLINE !in TakeUntilNul(received) ==> r == Served(st, [])
    ensures r.Served? && r.storage != st ==> r.reply == OK_REPLY
  {
    var cmdLine := TakeUntilNul(received);
    match Find(cmdLine, NEWLINE)
    case None => Served(st, [])
    case Some(nl) => Dispatch(st, Tokens.Words(cmdLine[..nl]), received[nl + 1..], incoming, writeOk, readOk, removeOk)
  }

  /**
   * A command line of words without NUL, a newline, then any bytes: the node
   * acts on exactly those words, with the bytes after the newline left over.
   */
  lemma ServeCommandLine(st: Storage, ws: seq<Wire>, rest: Wire, incoming: Wire, writeOk: bool, readOk: bool, removeOk: bool)
    requires forall k :: 0 <= k < |ws| ==> Tokens.IsWord(ws[k]) && NUL !in ws[k]
    ensures Serve(st, Tokens.Unwords(ws) + [NEWLINE] + rest, incoming, writeOk, readOk, removeOk)
         == Dispatch(st, ws, rest, incoming, writeOk, readOk, removeOk)
  {
    LineOfWords(ws);
    ServeLine(st, Tokens.Unwords(ws), rest, incoming, writeOk, readOk, removeOk);
  }

  /** Words without NUL join into a line with neither NUL nor newline, which splits back into them. */
  lemma LineOfWords(ws: seq<Wire>)
    requires forall k :: 0 <= k < |ws| ==> Tokens.IsWord(ws[k]) && NUL !in ws[k]
    ensures var line := Tokens.Unwords(ws);
      NUL !in line && NEWLINE !in line && Tokens.Words(line) == ws
  {
    Tokens.UnwordsExcludes(ws, NUL);
    forall k | 0 <= k < |ws|
      ensures NEWLINE !in ws[k]
    {
      assert forall i :: 0 <= i < |ws[k]| ==> !IsSpace(ws[k][i]);
    }
    Tokens.UnwordsExcludes(ws, NEWLINE);
    Tokens.WordsUnwords(ws);
  }

  /** A line without NUL or newline, then a newline and any bytes: the node acts on the line's words. */
  lemma ServeLine(st: Storage, line: Wire, rest: Wire, incoming: Wire, writeOk: bool, readOk: bool, removeOk: bool)
    requires NUL !in line && NEWLINE !in line
    ensures Serve(st, line + [NEWLINE] + rest, incoming, writeOk, readOk, removeOk)
         == Dispatch(st, Tokens.Words(line), rest, incoming, writeOk, readOk, removeOk)
  {
    CommandLineSplits(line, rest);
    assert (line + [NEWLINE] + rest)[|line| + 1..] == rest;
  }

  /** The line the coordinator sends ahead of a payload, "STORE <path> <size> <checksum>\n". */
  function StoreCommand(path: Wire, size: nat, checksum: nat): Wire {
    Tokens.Unwords([STORE, path, NatToString(size), NatToString(checksum)]) + [NEWLINE]
  }

  lemma DigitsAreWords(s: Wire)
    requires AllDigits(s) && |s| > 0
    ensures Tokens.IsWord(s) && NUL !in s
  {
    assert forall i :: 0 <= i < |s| ==> IsDigit(s[i]);
  }

  /**
   * A STORE command as the coordinator frames it reaches `handleStore` with
   * the path, size and checksum it carried, and with the bytes that came
   * behind the command line as the start of the payload.
   */
  lemma ServeStoreCommand(st: Storage, path: Wire, size: nat, checksum: nat, rest: Wire,
                          incoming: Wire, writeOk: bool, readOk: bool, removeOk: bool)
    requires Tokens.IsWord(path) && NUL !in path
    requires checksum < ULONG32
    ensures Serve(st, StoreCommand(path, size, checksum) + rest, incoming, writeOk, readOk, removeOk)
         == HandleStore(st, path, size, checksum, rest, incoming, writeOk)
  {
    var ws: seq<Wire> := [STORE, path, NatToString(size), NatToString(checksum)];
    DigitsAreWords(ws[2]);
    DigitsAreWords(ws[3]);
    StoreIsWord();
    ServeCommandLine(st, ws, rest, incoming, writeOk, readOk, removeOk);
    StoreFieldsRead(size, checksum);
  }

  lemma StoreIsWord()
    ensures Tokens.IsWord(STORE) && NUL !in STORE
  {
    assert forall i :: 0 <= i < |STORE| ==> STORE[i] in "STORE";
  }

  /** The size and checksum fields of a STORE line read back as the numbers printed. */
  lemma StoreFieldsRead(size: nat, checksum: nat)
    requires checksum < ULONG32
    ensures Atoi(NatToString(size)) == size && ReadULong32(NatToString(checksum)) == checksum
  {
    NatToStringReadsBack(size);
    NatToStringReadsBack(checksum);
  }

  /** "GET <path>\n" reaches `handleGet` with the path; nothing is changed. */
  lemma ServeGetCommand(st: Storage, path: Wire, rest: Wire, incoming: Wire, writeOk: bool, readOk: bool, removeOk: bool)
    requires Tokens.IsWord(path) && NUL !in path
    ensures Serve(st, Tokens.Unwords([GET, path]) + [NEWLINE] + rest, incoming, writeOk, readOk, removeOk)
         == Served(st, HandleGet(st, path, readOk))
  {
    var ws: seq<Wire> := [GET, path];
    assert Tokens.IsWord(ws[0]) && NUL !in ws[0] by {
      assert forall i :: 0 <= i < |ws[0]| ==> ws[0][i] in "GET";
    }
    ServeCommandLine(st, ws, rest, incoming, writeOk, readOk, removeOk);
    assert GET != STORE by {
      assert GET[0] != STORE[0];
    }
  }

  /** "DELETE <path>\n" reaches `handleDelete` with the path. */
  lemma ServeDeleteCommand(st: Storage, path: Wire, rest: Wire, incoming: Wire, writeOk: bool, readOk: bool, removeOk: bool)
    requires Tokens.IsWord(path) && NUL !in path
    ensures Serve(st, Tokens.Unwords([DELETE, path]) + [NEWLINE] + rest, incoming, writeOk, readOk, removeOk)
         == HandleDelete(st, path, removeOk)
  {
    var ws: seq<Wire> := [DELETE, path];
    assert Tokens.IsWord(ws[0]) && NUL !in ws[0] by {
      assert forall i :: 0 <= i < |ws[0]| ==> ws[0][i] in "DELETE";
    }
    ServeCommandLine(st, ws, rest, incoming, writeOk, readOk, removeOk);
    assert DELETE != STORE && DELETE != GET by {
      assert DELETE[0] != STORE[0] && DELETE[0] != GET[0];
    }
  }
}

=== FILE: ordering.dfy ===
/**
 * Iteration order of `std::map`: keys are visited in ascending order of the
 * key type's `operator<`.  `SortedBy` enumerates a finite set in the order of
 * a strict total order; `IntLess` and `LexLess` are the orders of the two key
 * types the coordinator uses (`int` node ids and `std::string` paths).
 */
module Ordering {
  import opened Bytes

  ghost predicate StrictTotal<T(!new)>(less: (T, T) -> bool) {
    && (forall x :: !less(x, x))
    && (forall x, y, z :: less(x, y) && less(y, z) ==> less(x, z))
    && (forall x, y :: x != y ==> less(x, y) || less(y, x))
  }

  ghost predicate IsMinimum<T>(m: T, s: set<T>, less: (T, T) -> bool) {
    m in s && forall y :: y in s && y != m ==> less(m, y)
  }

  ghost predicate SortedSeq<T>(r: seq<T>, less: (T, T) -> bool) {
    forall i, j :: 0 <= i < j < |r| ==> less(r[i], r[j])
  }

  /** Every non-empty finite set has a least element. */
  lemma {:induction false} MinimumExists<T(!new)>(s: set<T>, less: (T, T) -> bool)
    requires s != {}
    requires StrictTotal(less)
    ensures exists m :: IsMinimum(m, s, less)
    decreases |s|
  {
    var y :| y in s;
    if s != {y} {
      var rest := s - {y};
      MinimumExists(rest, less);
      var m :| IsMinimum(m, rest, less);
      if less(y, m) {
        forall z | z in s && z != y
          ensures less(y, z)
        {
          if z != m {
            assert less(m, z);
          }
        }
        assert IsMinimum(y, s, less);
      } else {
        assert IsMinimum(m, s, less);
      }
    } else {
      assert IsMinimum(y, s, less);
    }
  }

  /** The elements of `s`, each once, in ascending order. */
  ghost function SortedBy<T(!new)>(s: set<T>, less: (T, T) -> bool): (r: seq<T>)
    requires StrictTotal(less)
    ensures |r| == |s|
    ensures forall i :: 0 <= i < |r| ==> r[i] in s
    ensures forall x :: x in s ==> x in r
    ensures SortedSeq(r, less)
    decreases |s|
  {
    if s == {} then []
    else
      MinimumExists(s, less);
      var m :| IsMinimum(m, s, less);
      [m] + SortedBy(s - {m}, less)
  }

  /** The head of a sorted listing of `s` is the least element of `s`. */
  lemma SortedHeadIsMinimum<T(!new)>(s: set<T>, less: (T, T) -> bool, r: seq<T>)
    requires SortedSeq(r, less)
    requires |r| > 0
    requires forall x :: x in s ==> x in r
    requires r[0] in s
    ensures IsMinimum(r[0], s, less)
  {
    forall y | y in s && y != r[0]
      ensures less(r[0], y)
    {
      var k :| 0 <= k < |r| && r[k] == y;
    }
  }

  /** A strict total order has at most one least element in a set. */
  lemma MinimumUnique<T(!new)>(s: set<T>, less: (T, T) -> bool, a: T, b: T)
    requires StrictTotal(less)
    requires IsMinimum(a, s, less) && IsMinimum(b, s, less)
    ensures a == b
  {
    assert a != b ==> less(a, b) && less(b, a);
    assert less(a, b) && less(b, a) ==> less(a, a);
  }

  /** The sorted listing starts with the least element, followed by the listing of the rest. */
  lemma SortedByUnfold<T(!new)>(s: set<T>, less: (T, T) -> bool, m: T)
    requires StrictTotal(less)
    requires IsMinimum(m, s, less)
    ensures SortedBy(s, less) == [m] + SortedBy(s - {m}, less)
  {
    MinimumExists(s, less);
    var m' :| IsMinimum(m', s, less);
    MinimumUnique(s, less, m, m');
  }

  /** Dropping the head of a sorted enumeration of `s` enumerates `s` without it. */
  lemma SortedTail<T(!new)>(s: set<T>, less: (T, T) -> bool, r: seq<T>)
    requires StrictTotal(less)
    requires SortedSeq(r, less) && |r| > 0
    requires forall i :: 0 <= i < |r| ==> r[i] in s
    requires forall x :: x in s ==> x in r
    ensures SortedSeq(r[1..], less)
    ensures forall i :: 0 <= i < |r[1..]| ==> r[1..][i] in s - {r[0]}
    ensures forall x :: x in s - {r[0]} ==> x in r[1..]
  {
    var tail := r[1..];
    forall i | 0 <= i < |tail|
      ensures tail[i] in s - {r[0]}
    {
      assert tail[i] == r[i + 1];
      assert less(r[0], r[i + 1]);
    }
    forall x | x in s - {r[0]}
      ensures x in tail
    {
      var k :| 0 <= k < |r| && r[k] == x;
      assert tail[k - 1] == x;
    }
  }

  /** A sorted enumeration of a set is unique. */
  lemma {:induction false} SortedByUnique<T(!new)>(s: set<T>, less: (T, T) -> bool, r: seq<T>)
    requires StrictTotal(less)
    requires SortedSeq(r, less)
    requires forall i :: 0 <= i < |r| ==> r[i] in s
    requires forall x :: x in s ==> x in r
    ensures r == SortedBy(s, less)
    decreases |r|
  {
    if |r| == 0 {
      assert forall x :: x !in r;
      assert s == {};
    } else {
      SortedHeadIsMinimum(s, less, r);
      SortedTail(s, less, r);
      SortedByUnique(s - {r[0]}, less, r[1..]);
      SortedByUnfold(s, less, r[0]);
      assert r == [r[0]] + r[1..];
    }
  }

  predicate IntLess(a: int, b: int) {
    a < b
  }

  lemma IntLessStrictTotal()
    ensures StrictTotal(IntLess)
  {
  }

  /**
   * `std::string::operator<`: byte-wise lexicographic order, a proper
   * prefix sorting first.
   */
  predicate LexLess(a: Wire, b: Wire)
    decreases |a|
  {
    if |a| == 0 then |b| > 0
    else if |b| == 0 then false
    else if a[0] == b[0] then LexLess(a[1..], b[1..])
    else a[0] < b[0]
  }

  lemma {:induction false} LexIrreflexive(a: Wire)
    ensures !LexLess(a, a)
    decreases |a|
  {
    if |a| > 0 {
      LexIrreflexive(a[1..]);
    }
  }

  lemma {:induction false} LexTransitive(a: Wire, b: Wire, c: Wire)
    requires LexLess(a, b) && LexLess(b, c)
    ensures LexLess(a, c)
    decreases |a|
  {
    if |a| > 0 && a[0] == b[0] && b[0] == c[0] {
      LexTransitive(a[1..], b[1..], c[1..]);
    }
  }

  lemma {:induction false} LexConnected(a: Wire, b: Wire)
    requires a != b
    ensures LexLess(a, b) || LexLess(b, a)
    decreases |a|
  {
    if |a| > 0 && |b| > 0 && a[0] == b[0] {
      assert a == [a[0]] + a[1..] && b == [b[0]] + b[1..];
      LexConnected(a[1..], b[1..]);
    }
  }

  lemma LexStrictTotal()
    ensures StrictTotal(LexLess)
  {
    forall x: Wire ensures !LexLess(x, x) {
      LexIrreflexive(x);
    }
    forall x: Wire, y: Wire, z: Wire | LexLess(x, y) && LexLess(y, z)
      ensures LexLess(x, z)
    {
      LexTransitive(x, y, z);
    }
    forall x: Wire, y: Wire | x != y
      ensures LexLess(x, y) || LexLess(y, x)
    {
      LexConnected(x, y);
    }
  }

  /** Ascending node ids: the order `for (auto& pair : nodeAlive)` visits. */
  ghost function Ascending(s: set<int>): (r: seq<int>)
    ensures |r| == |s|
    ensures forall x :: x in r <==> x in s
    ensures forall i, j :: 0 <= i < j < |r| ==> r[i] < r[j]
  {
    IntLessStrictTotal();
    SortedBy(s, IntLess)
  }

  /** Paths in `std::string` order: the order `for (auto& pair : fileTable)` visits. */
  ghost function Lexicographic(s: set<Wire>): (r: seq<Wire>)
    ensures |r| == |s|
    ensures forall x :: x in r <==> x in s
    ensures forall i, j :: 0 <= i < j < |r| ==> LexLess(r[i], r[j])
  {
    LexStrictTotal();
    SortedBy(s, LexLess)
  }

  /** Any ascending listing of `s` is the one `Ascending` yields. */
  lemma AscendingUnique(s: set<int>, r: seq<int>)
    requires forall i, j :: 0 <= i < j < |r| ==> r[i] < r[j]
    requires forall x :: x in r <==> x in s
    ensures r == Ascending(s)
  {
    IntLessStrictTotal();
    assert SortedSeq(r, IntLess);
    forall i | 0 <= i < |r|
      ensures r[i] in s
    {
      assert r[i] in r;
    }
    forall x | x in s
      ensures x in r
    {
    }
    SortedByUnique(s, IntLess, r);
  }
}

=== FILE: ports.dfy ===
/**
 * Where nodes listen.  Node `id` binds NODE_BASE_PORT + id, passed through
 * `htons`, whose argument is a 16-bit `u_short`: the sum is truncated
 * modulo 2^16 before it becomes a port.
 */
module Ports {
  import opened Bytes
  import opened Decimal

  const NODE_BASE_PORT: int := 9001
  const PORT_COUNT: int := 0x1_0000

  /** The port a node with this id actually binds. */
  function NodePort(id: int): (p: nat)
    ensures p < PORT_COUNT
    ensures 0 <= NODE_BASE_PORT + id < PORT_COUNT ==> p == NODE_BASE_PORT + id
  {
    (NODE_BASE_PORT + id) % PORT_COUNT
  }

  /** The Windows node's start-up check, as written: any id from 1 up. */
  predicate AcceptsIdAsWritten(id: int) {
    id >= 1
  }

  /**
   * The check the Linux node makes, and the one the Windows node needs: the
   * id is at least 1 and its port is at most 65535.
   */
  predicate AcceptsId(id: int) {
    1 <= id && NODE_BASE_PORT + id <= PORT_COUNT - 1
  }

  /**
   * The start-up of a node of either variant: the id is `atoi` of the first argument;
   * None is the exit with an error.  `accepts` is the variant's check.
   */
  function Startup(arg: Wire, accepts: int -> bool): (r: Option<int>)
    ensures r.Some? ==> r.value == Atoi(arg) && accepts(r.value)
    ensures r.None? ==> !accepts(Atoi(arg))
  {
    var id := Atoi(arg);
    if accepts(id) then Some(id) else None
  }

  /**
   * An id typed in decimal starts the node under that id exactly when the
   * variant's check accepts it; the Linux node then listens on 9001 + id.
   */
  lemma StartupOfTypedId(id: int)
    ensures Startup(IntToString(id), AcceptsIdAsWritten) == (if id >= 1 then Some(id) else None)
    ensures Startup(IntToString(id), AcceptsId) == (if AcceptsId(id) then Some(id) else None)
    ensures Startup(IntToString(id), AcceptsId).Some? ==> NodePort(id) == NODE_BASE_PORT + id
  {
    AtoiOfIntToString(id, []);
    assert IntToString(id) + [] == IntToString(id);
  }

  /**
   * As written, the Windows node accepts ids whose ports wrap around: an id
   * and the id 65536 above it are both accepted and bind the same port.
   */
  lemma AsWrittenPortsCollide(id: int)
    requires AcceptsIdAsWritten(id)
    ensures AcceptsIdAsWritten(id + PORT_COUNT)
    ensures NodePort(id) == NodePort(id + PORT_COUNT)
  {
  }

  /** The concrete pair: nodes 1 and 65537 both listen on port 9002. */
  lemma NodesOneAndWrappedShareAPort()
    ensures AcceptsIdAsWritten(1) && AcceptsIdAsWritten(65537)
    ensures NodePort(1) == 9002 && NodePort(65537) == 9002
  {
  }

  /** Under the bounded check distinct nodes listen on distinct ports, without wrapping. */
  lemma AcceptedPortsDistinct(a: int, b: int)
    requires AcceptsId(a) && AcceptsId(b) && a != b
    ensures NodePort(a) != NodePort(b)
    ensures NodePort(a) == NODE_BASE_PORT + a
  {
  }
}

=== FILE: registry.dfy ===
/**
 * The node registry both coordinators keep: `nodePids` (id -> process id)
 * and `nodeAlive` (id -> last liveness verdict).  The two source maps always
 * have the same keys (REGISTER writes both, `updateNodeStatus` rewrites
 * `nodeAlive` only at the keys of `nodePids`), so they are one map of
 * records here.  Records are never removed.
 *
 * Whether a process is still running (`OpenProcess`/`GetExitCodeProcess` on
 * Windows, `kill(pid, 0)` on Linux) is asked of an oracle `Probe`.
 */
module Registry {
  import Ordering

  type NodeId = int
  type Pid = int

  /** The operating system's answer: is the process `pid` registered as node `id` running? */
  type Probe = (NodeId, Pid) -> bool

  datatype NodeRecord = NodeRecord(pid: Pid, alive: bool)

  type Registry = map<NodeId, NodeRecord>

  /** `handleRegister`'s effect: insert or overwrite the record, marked alive. */
  function Register(reg: Registry, id: NodeId, pid: Pid): (r: Registry)
    ensures id in r && r[id] == NodeRecord(pid, true)
    ensures r.Keys == reg.Keys + {id}
    ensures forall other :: other in reg && other != id ==> r[other] == reg[other]
  {
    reg[id := NodeRecord(pid, true)]
  }

  /** `isNodeAlive`: an unregistered id is never alive; otherwise the probe decides. */
  function IsNodeAlive(reg: Registry, id: NodeId, probe: Probe): (b: bool)
    ensures b ==> id in reg
    ensures id in reg ==> (b <==> probe(id, reg[id].pid))
  {
    id in reg && probe(id, reg[id].pid)
  }

  /** `updateNodeStatus`: recompute the verdict of every registered node, keep the pids. */
  function UpdateNodeStatus(reg: Registry, probe: Probe): (r: Registry)
    ensures r.Keys == reg.Keys
    ensures forall id :: id in r ==> r[id].pid == reg[id].pid
    ensures forall id :: id in r ==> (r[id].alive <==> probe(id, reg[id].pid))
  {
    map id | id in reg :: NodeRecord(reg[id].pid, IsNodeAlive(reg, id, probe))
  }

  /** The cached verdict `nodeAlive[id]` a handler reads after the refresh. */
  predicate Alive(reg: Registry, id: NodeId) {
    id in reg && reg[id].alive
  }

  /** The ids with a true cached verdict, in the ascending order `std::map` visits them. */
  ghost function AliveIds(reg: Registry): (r: seq<NodeId>)
    ensures forall id :: id in r <==> Alive(reg, id)
    ensures forall i, j :: 0 <= i < j < |r| ==> r[i] < r[j]
  {
    Ordering.Ascending(set id | id in reg && reg[id].alive)
  }

  /** After a refresh a node counts as alive exactly when it is registered and its process runs. */
  lemma AliveAfterUpdate(reg: Registry, probe: Probe, id: NodeId)
    ensures Alive(UpdateNodeStatus(reg, probe), id) <==> IsNodeAlive(reg, id, probe)
  {
  }
}

=== FILE: rpc.dfy ===
/**
 * The storage-node client: the calls a coordinator makes to one node and
 * what it can learn from them.  Sockets are not modelled; the outcome of
 * each call is supplied by the caller of a handler as an oracle.
 */
module Rpc {
  import opened Bytes
  import opened Registry

  /** One request sent to one node, with everything that goes on the wire. */
  datatype Call =
    | Store(node: NodeId, path: Wire, size: nat, checksum: nat, data: Wire)   // "STORE <path> <size> <checksum>\n" + data
    | Get(node: NodeId, path: Wire)                                           // "GET <path>\n"
    | Remove(node: NodeId, path: Wire)                                        // "DELETE <path>\n"

  /** Did the node answer a store or remove with a reply containing "OK"? */
  type Ack = Call -> bool

  /**
   * What the coordinator obtained from a GET, in the order it reads it:
   * connection, request, the size line, the checksum line, the bytes.
   */
  datatype Fetch =
    | ConnectFailed                                  // connect() refused or timed out
    | RequestFailed                                  // sending "GET <path>\n" failed
    | SizeMissing                                    // no size line arrived
    | ChecksumMissing(size: int)                     // size read, no checksum line
    | Fetched(size: int, checksum: nat, data: Wire)  // size, checksum, then every byte until the node closed

  /** What the node with a given id answers to a GET. */
  type FetchFrom = NodeId -> Fetch

  /** The stores an upload fans out: one per target, identical otherwise. */
  function StoreCalls(ids: seq<NodeId>, path: Wire, data: Wire, checksum: nat): (calls: seq<Call>)
    ensures |calls| == |ids|
    ensures forall i :: 0 <= i < |ids| ==> calls[i] == Store(ids[i], path, |data|, checksum, data)
  {
    if |ids| == 0 then [] else [Store(ids[0], path, |data|, checksum, data)] + StoreCalls(ids[1..], path, data, checksum)
  }

  /** The nodes whose call acknowledged, in the order the calls were made. */
  function Acknowledged(calls: seq<Call>, ack: Ack): (r: seq<NodeId>)
    ensures |r| <= |calls|
    ensures forall id :: id in r <==> exists i :: 0 <= i < |calls| && calls[i].node == id && ack(calls[i])
  {
    if |calls| == 0 then []
    else
      var rest := Acknowledged(calls[1..], ack);
      assert forall i :: 0 < i < |calls| ==> calls[i] == calls[1..][i - 1];
      if ack(calls[0]) then [calls[0].node] + rest else rest
  }

  /**
   * Filtering keeps order: when the calls go to ascending ids, so do the
   * acknowledgements.
   */
  lemma {:induction false} AcknowledgedAscending(calls: seq<Call>, ack: Ack)
    requires forall i, j :: 0 <= i < j < |calls| ==> calls[i].node < calls[j].node
    ensures forall i, j :: 0 <= i < j < |Acknowledged(calls, ack)| ==>
      Acknowledged(calls, ack)[i] < Acknowledged(calls, ack)[j]
    decreases |calls|
  {
    if |calls| > 0 {
      var tail := calls[1..];
      assert forall i, j :: 0 <= i < j < |tail| ==> tail[i].node < tail[j].node by {
        forall i, j | 0 <= i < j < |tail|
          ensures tail[i].node < tail[j].node
        {
          assert tail[i] == calls[i + 1] && tail[j] == calls[j + 1];
        }
      }
      AcknowledgedAscending(tail, ack);
      var rest := Acknowledged(tail, ack);
      forall id | id in rest
        ensures calls[0].node < id
      {
        var i :| 0 <= i < |tail| && tail[i].node == id && ack(tail[i]);
        assert tail[i] == calls[i + 1];
      }
      var r := Acknowledged(calls, ack);
      if ack(calls[0]) {
        assert r == [calls[0].node] + rest;
        forall i, j | 0 <= i < j < |r|
          ensures r[i] < r[j]
        {
          assert r[j] == rest[j - 1] && rest[j - 1] in rest;
          if i > 0 {
            assert r[i] == rest[i - 1];
          }
        }
      } else {
        assert r == rest;
      }
    }
  }

  /** No acknowledgement at all means no call acknowledged. */
  lemma AcknowledgedNone(calls: seq<Call>, ack: Ack)
    ensures |Acknowledged(calls, ack)| == 0 <==> forall c :: c in calls ==> !ack(c)
  {
    var r := Acknowledged(calls, ack);
    forall c | c in calls && ack(c)
      ensures |r| > 0
    {
      var i :| 0 <= i < |calls| && calls[i] == c;
      assert c.node in r;
    }
    if |r| > 0 {
      assert r[0] in r;
    }
  }

  /** A fan-out to distinct ids is acknowledged by the ids whose own call acknowledged. */
  lemma AcknowledgedStores(ids: seq<NodeId>, path: Wire, data: Wire, checksum: nat, ack: Ack, id: NodeId)
    ensures id in Acknowledged(StoreCalls(ids, path, data, checksum), ack) <==>
      id in ids && ack(Store(id, path, |data|, checksum, data))
  {
    var calls := StoreCalls(ids, path, data, checksum);
    if id in ids && ack(Store(id, path, |data|, checksum, data)) {
      var i :| 0 <= i < |ids| && ids[i] == id;
      assert calls[i].node == id && ack(calls[i]);
    }
  }
}

=== FILE: tokens.dfy ===
/**
 * Word splitting as `std::stringstream >> std::string` performs it: skip
 * white space, then take the longest run of non-space bytes.  Reading past
 * the last word fails and leaves the target string empty.
 */
module Tokens {
  import opened Bytes

  predicate NoSpace(w: Wire) {
    forall i :: 0 <= i < |w| ==> !IsSpace(w[i])
  }

  /** A word as the coordinator writes one on the wire: non-empty, no white space. */
  predicate IsWord(w: Wire) {
    |w| > 0 && NoSpace(w)
  }

  /** The longest prefix of `s` without white space. */
  function Token(s: Wire): (r: Wire)
    ensures StartsWith(s, r) && NoSpace(r)
    ensures |r| < |s| ==> IsSpace(s[|r|])
  {
    if |s| == 0 || IsSpace(s[0]) then [] else [s[0]] + Token(s[1..])
  }

  /** The successive words of `s`. */
  function Words(s: Wire): (r: seq<Wire>)
    ensures forall k :: 0 <= k < |r| ==> IsWord(r[k])
    decreases |s|
  {
    var t := DropSpaces(s);
    if |t| == 0 then []
    else
      var w := Token(t);
      [w] + Words(t[|w|..])
  }

  /** The `k`-th of some words, or the empty string when there are not that many. */
  function Nth(ws: seq<Wire>, k: nat): Wire {
    if k < |ws| then ws[k] else []
  }

  /** The `k`-th word, or the empty string when the stream runs out first. */
  function WordAt(s: Wire, k: nat): (w: Wire)
    ensures w == [] || IsWord(w)
  {
    Nth(Words(s), k)
  }

  lemma {:induction false} TokenOfWord(w: Wire, rest: Wire)
    requires NoSpace(w)
    requires |rest| == 0 || IsSpace(rest[0])
    ensures Token(w + rest) == w
    decreases |w|
  {
    if |w| == 0 {
      assert w + rest == rest;
    } else {
      assert (w + rest)[1..] == w[1..] + rest;
      TokenOfWord(w[1..], rest);
    }
  }

  lemma {:induction false} DropSpacesOfSpaces(sp: Wire, rest: Wire)
    requires forall i :: 0 <= i < |sp| ==> IsSpace(sp[i])
    requires |rest| == 0 || !IsSpace(rest[0])
    ensures DropSpaces(sp + rest) == rest
    decreases |sp|
  {
    if |sp| == 0 {
      assert sp + rest == rest;
    } else {
      assert (sp + rest)[1..] == sp[1..] + rest;
      DropSpacesOfSpaces(sp[1..], rest);
    }
  }

  /** A word followed by a separator and more text splits off as the first word. */
  lemma WordsCons(w: Wire, sep: byte, rest: Wire)
    requires IsWord(w) && IsSpace(sep)
    ensures Words(w + [sep] + rest) == [w] + Words([sep] + rest)
  {
    var tail := [sep] + rest;
    var s := w + tail;
    assert w + [sep] + rest == s;
    assert s[0] == w[0];
    assert DropSpaces(s) == s;
    TokenOfWord(w, tail);
    assert s[|w|..] == tail;
  }

  /** Leading white space does not change the words. */
  lemma WordsSkipSpace(sep: byte, rest: Wire)
    requires IsSpace(sep)
    ensures Words([sep] + rest) == Words(rest)
  {
    assert ([sep] + rest)[1..] == rest;
  }

  /** A space, a word, then nothing or more white-space-led text: the word comes first. */
  lemma WordsAfterSpace(w: Wire, rest: Wire)
    requires IsWord(w)
    requires |rest| == 0 || IsSpace(rest[0])
    ensures Words([' '] + w + rest) == [w] + Words(rest)
  {
    var s := [' '] + w + rest;
    assert s == [' '] + (w + rest);
    DropSpacesOfSpaces([' '], w + rest);
    TokenOfWord(w, rest);
    assert (w + rest)[|w|..] == rest;
  }

  /** A lone word is one word. */
  lemma WordsSingle(w: Wire)
    requires IsWord(w)
    ensures Words(w) == [w]
  {
    DropSpacesOfSpaces([], w);
    assert [] + w == w;
    TokenOfWord(w, []);
    assert w + [] == w;
    assert w[|w|..] == [];
  }

  /** Words joined by single spaces, the way request lines are written. */
  function Unwords(ws: seq<Wire>): Wire {
    if |ws| == 0 then []
    else if |ws| == 1 then ws[0]
    else ws[0] + [' '] + Unwords(ws[1..])
  }

  /** Splitting a line of joined words gives the words back. */
  lemma WordsUnwords(ws: seq<Wire>)
    requires forall k :: 0 <= k < |ws| ==> IsWord(ws[k])
    ensures Words(Unwords(ws)) == ws
  {
    if |ws| > 0 {
      WordsUnwordsFollowed(ws, []);
      assert Unwords(ws) + [] == Unwords(ws);
      assert ws + [] == ws;
    }
  }

  /** A byte other than the separator that no word holds is not in the line. */
  lemma {:induction false} UnwordsExcludes(ws: seq<Wire>, c: byte)
    requires c != ' '
    requires forall k :: 0 <= k < |ws| ==> c !in ws[k]
    ensures c !in Unwords(ws)
    decreases |ws|
  {
    if |ws| > 1 {
      UnwordsExcludes(ws[1..], c);
    }
  }

  /** A word followed by nothing or by white-space-led text comes first. */
  lemma WordThen(w: Wire, t: Wire)
    requires IsWord(w)
    requires |t| == 0 || IsSpace(t[0])
    ensures Words(w + t) == [w] + Words(t)
  {
    if |t| == 0 {
      assert w + t == w;
      WordsSingle(w);
    } else {
      var sep := t[0];
      var more := t[1..];
      assert t == [sep] + more;
      assert w + t == w + [sep] + more;
      WordsCons(w, sep, more);
    }
  }

  /** Joined words followed by white-space-led text come first among its words. */
  lemma {:induction false} WordsUnwordsFollowed(ws: seq<Wire>, t: Wire)
    requires |ws| > 0
    requires forall k :: 0 <= k < |ws| ==> IsWord(ws[k])
    requires |t| == 0 || IsSpace(t[0])
    ensures Words(Unwords(ws) + t) == ws + Words(t)
    decreases |ws|
  {
    if |ws| == 1 {
      var w := ws[0];
      assert ws == [w];
      assert Unwords(ws) + t == w + t;
      WordThen(w, t);
      calc {
        Words(Unwords(ws) + t);
        Words(w + t);
        [w] + Words(t);
        ws + Words(t);
      }
    } else {
      var tail := ws[1..];
      assert ws == [ws[0]] + tail;
      var rest := Unwords(tail) + t;
      assert Unwords(ws) + t == ws[0] + ([' '] + rest);
      assert forall k :: 0 <= k < |tail| ==> tail[k] == ws[k + 1];
      WordsUnwordsFollowed(tail, t);
      WordThen(ws[0], [' '] + rest);
      WordsSkipSpace(' ', rest);
      var wt := Words(t);
      assert Words(Unwords(ws) + t) == [ws[0]] + (tail + wt);
      SeqAssoc([ws[0]], tail, wt);
    }
  }

  /** A line of words ended by a newline splits back into those words. */
  lemma WordsOfLine(ws: seq<Wire>)
    requires |ws| > 0
    requires forall k :: 0 <= k < |ws| ==> IsWord(ws[k])
    ensures Words(Unwords(ws) + [NEWLINE]) == ws
  {
    WordsUnwordsFollowed(ws, [NEWLINE]);
    WordsSkipSpace(NEWLINE, []);
    assert [NEWLINE] + [] == [NEWLINE];
    assert ws + [] == ws;
  }

  lemma SeqAssoc(a: seq<Wire>, b: seq<Wire>, c: seq<Wire>)
    ensures a + (b + c) == (a + b) + c
  {
  }
}
